=== FILE: README.md ===
# QuizApp core in Dafny

QuizApp is a skills-quiz web application. Its Express backend signs users in with
JWT cookies. It serves multiple-choice questions per skill, scores submitted quiz
attempts and reports per-skill performance. Its React dashboard runs a timed quiz
and charts the results. This project models the logic at the centre of both halves
as pure Dafny functions, and proves properties of them.

The backend is modelled as follows:

- Tokens (`Tokens`): the payload guard, the verify helpers around an abstract
  `jwt.verify`, the claims the signing helpers sign, and the TTL parsers
  `msFromTTL` and `secondsFromTTL`.
- Middleware:
  - `Auth`: authentication and the role gate.
  - `Csrf`: the double-submit CSRF cookie and its check.
  - `RateLimit`: the fixed-window rate limiter.
  - `Validate`: the body-validation rules, including the `Number()` grammar behind
    `isNaN`.
  - `Pagination`: `getPagination`.
- Routes:
  - `Quiz`: submitting an attempt (validation, the question-set check, scoring and
    the all-or-nothing write) and the scoping of the attempt list.
  - `Questions`: creating, patching and deleting questions behind the admin gate.
  - `Reports`: the date-range clause, the per-skill performance averages and the
    skill-gap report.
- Seeding (`SeedSql`): the SQL splitter of the seed script.

The frontend is modelled as follows:

- `Pager`: the pager component.
- `Dashboard`, the quiz panel: the countdown timer and its "mm:ss" display, the
  answered count and progress bar, navigation, saving answers, and the submit
  payload.
- `Dashboard`, the two charts: the pass / fail split and the top-eight per-skill
  averages.
- `AuthSlice` and `UiSlice`: the two Redux slices.

The shared modules are:

- `Common`: Option, Result, HTTP errors and the middleware `Gate`.
- `Text`: JavaScript whitespace and `trim`, decimal digits, `padStart`, ASCII case
  mapping.
- `Arith`: `Math.round` of a quotient (halves round up), ceiling division and the
  real-number facts behind them.
- `Sorting`: a stable insertion sort by an integer key, which stands for
  `Array.prototype.sort`.
- `Store`: the `questions`, `quiz_attempts` and `quiz_answers` tables held in memory.

Outside effects become parameters:

- The JWT library is a function `Verifier` from a token class and a token to an
  optional decoded value.
- Random tokens (the CSRF token, the refresh `jti`) are inputs.
- The clock is the `now` argument of the rate limiter.
- A store failure is a `Fault` argument of the submission.
- Request bodies arrive already decoded into small value types that keep the
  JavaScript distinctions the code relies on: falsy values, `undefined` against
  `null`, and strings against numbers.

Some behaviours of the code worth noting:

- The skill gap is `Math.round(uPct - gPct)` of the exact percentages
  (backend/src/routes/reports.ts:93). It is not the difference of the two rounded
  averages.
- `PATCH /questions/:id` does not re-check that the correct option exists
  (`Questions.PatchCanInvalidateCorrectOption`). It can also store an empty correct
  option, which `POST` refuses. Scoring compares `String(a.selected || "")` with the
  stored option, so a blank answer to such a question scores
  (`Questions.PatchedEmptyKeyScoresBlank`, `Quiz.EmptyPickScoresOnlyEmptyKey`).
- The question routes sit behind the CSRF gate (backend/src/setup/app.ts:44 mounts
  it before the router at line 51). A write without a session and without a CSRF
  token is therefore answered 403 "CSRF token invalid" before the router's 401.
- `POST /questions` checks `options[correctOption]` for truthiness only
  (backend/src/routes/questions.ts:33). An inherited `Object.prototype` name such as
  "toString" passes the check without being an option
  (`Questions.InheritedNamePassesCreate`).

## Model

| member | source | states |
|---|---|---|
| Tokens.ParseRole | backend/src/utils/jwt.ts:34 | a role is accepted exactly for the strings "USER" and "ADMIN", and names that string |
| Tokens.PrincipalOf | backend/src/utils/jwt.ts:21-36 | a payload the guard accepts carries a numeric `sub`, a non-empty `username` and a valid `role`, which make up the principal |
| Tokens.ClaimsRoundTrip | backend/src/utils/jwt.ts:29-36 | the guard accepts a principal's claims exactly when its username is non-empty, and then reads the same principal back |
| Tokens.GuardIgnoresOtherKeys | backend/src/utils/jwt.ts:25-36 | adding or replacing any key other than `sub`, `username` and `role` (`jti`, `iat`, `exp`) changes neither the guard's verdict nor the principal it reads |
| Tokens.CarriedClaimsRead | backend/src/utils/jwt.ts:25-36 | a claims object holding a principal's signed claims, whatever else it holds, passes the guard (given a non-empty username) and yields that principal |
| Tokens.StampedClaimsRead | backend/src/utils/jwt.ts:39-56 | the signed claims with the library's `iat` and `exp` added carry the signed claims and read back as the signing principal |
| Tokens.Verify | backend/src/utils/jwt.ts:53-67 | verification succeeds exactly when the library decodes a non-string value that passes the guard, and then returns that value unchanged; otherwise the library's error or the payload error of that token class |
| Tokens.SignAccess | backend/src/utils/jwt.ts:39-43 | the access token signs exactly the principal's claims with the access secret, for `secondsFromTTL` of the access lifetime |
| Tokens.SignRefresh | backend/src/utils/jwt.ts:45-50 | the refresh token signs the principal's claims plus `jti` and nothing else, with the refresh secret and the refresh lifetime |
| Tokens.SignedTokensVerify | backend/src/utils/jwt.ts:39-67 | a token the library decodes to an object carrying the claims it was signed with (plus anything the library adds) verifies, and yields the signing principal; a refresh token also carries its `jti` |
| Tokens.ParseTtl | backend/src/utils/jwt.ts:106 | a string accepted by the TTL pattern (digits, then one of ms, s, m, h, d, and nothing else) gives the digits' value and the unit it ends with |
| Tokens.ParseTtlAccepts | backend/src/utils/jwt.ts:106 | every string of the grammar is matched, to its digits' value and its unit |
| Tokens.MsFromTtl | backend/src/utils/jwt.ts:105-116 | outside the grammar one hour (3 600 000 ms); otherwise the count times the unit's length |
| Tokens.SecondsFromTtl | backend/src/utils/jwt.ts:118-129 | outside the grammar 3 600 s; ms counts are floored to seconds but never below 1; other units scale |
| Tokens.MsFromTtlOnGrammar | backend/src/utils/jwt.ts:105-116 | on the grammar, milliseconds are the digits' value times the unit's length |
| Tokens.SecondsFromTtlMsUnit | backend/src/utils/jwt.ts:123 | a millisecond TTL gives max(1, floor(n / 1000)) seconds |
| Tokens.MsAndSecondsAgree | backend/src/utils/jwt.ts:105-129 | except for the ms unit, the two parsers agree: milliseconds are 1000 times seconds |
| Tokens.TtlExamples | backend/src/utils/jwt.ts:105-129 | "", "1w", "-5s" and "5 s" fall back to one hour; "0s" is 0 s; "500ms" is 500 ms but 1 s |
| Tokens.DefaultLifetimes | backend/src/utils/jwt.ts:12-13 | the default lifetimes are 900 s for access tokens and 14 days (1 209 600 s) for refresh tokens |
| Pagination.GetPagination | backend/src/utils/pagination.ts:1-7 | a falsy page gives 1 and a falsy page size gives 10; the page is at least 1, the size is clamped to [1, 100], and limit and offset follow from them |
| Pagination.OffsetIsWholePages | backend/src/utils/pagination.ts:4 | the offset is non-negative and a whole number of pages |
| Pagination.ClampIsIdempotent | backend/src/utils/pagination.ts:2-3 | feeding a result's page and size back in gives the same result |
| Pagination.Window | backend/src/utils/pagination.ts:4-5 | `LIMIT limit OFFSET offset` selects the items from the offset on, at most `limit` of them |
| Pagination.EveryItemOnItsPage | backend/src/utils/pagination.ts:1-7 | item i appears on page i / size + 1, at position i % size |
| Pagination.PaginationExamples | backend/src/utils/pagination.ts:1-7 | page 3 of 25 items shows items 20-24; a page size of 0 falls back to 10, but "0" clamps to 1 |
| Pager.PageCount | frontend/src/components/Pagination.tsx:6 | at least one page, enough pages for all items, and no empty last page |
| Pager.Render | frontend/src/components/Pagination.tsx:6-11 | Prev leads to max(1, page - 1) and is disabled from page 1 on down; Next leads to min(pages, page + 1) and is disabled on the last page |
| Pager.TargetsStayInRange | frontend/src/pages/Dashboard.tsx:1068-1077 | from a page in range, both buttons lead into range and are disabled exactly when they would not move |
| Pager.PagerExamples | frontend/src/components/Pagination.tsx:6-11 | no items make one page; 25 items at ten per page make three |
| Auth.RequireAuth | backend/src/middleware/auth.ts:12-21 | no token gives 401 "Unauthenticated"; a token that fails verification gives 401 "Invalid or expired token"; otherwise the verified principal is attached |
| Auth.RequireRole | backend/src/middleware/auth.ts:23-30 | no user gives 401; a user whose rank is below the required one gives 403; anyone else passes |
| Auth.RoleGateMonotone | backend/src/middleware/auth.ts:26-27 | passing the ADMIN gate implies passing the USER gate; only ADMINs pass the ADMIN gate |
| Auth.AuthorizeRole | backend/src/middleware/auth.ts:12-30 | the chained gates pass exactly an authenticated principal of sufficient rank, and return the first gate's error otherwise |
| Auth.AdminRoutesNeedAdmin | backend/src/middleware/auth.ts:12-30 | an access token whose decoded claims carry an ADMIN's signed claims passes the admin gate; one carrying a USER's is refused with 403 |
| Csrf.AttachCsrfToken | backend/src/middleware/csrf.ts:8-22 | a token cookie is set exactly when none is present, readable by scripts, for one hour, with SameSite none |
| Csrf.AttachKeepsExistingToken | backend/src/middleware/csrf.ts:10-20 | an existing token is never replaced; a missing one becomes the new token |
| Csrf.RequireCsrf | backend/src/middleware/csrf.ts:25-35 | safe methods pass; POST, PUT, PATCH and DELETE pass only when the header and the cookie are present and equal, else 403 |
| Csrf.EchoedTokenPasses | backend/src/middleware/csrf.ts:8-35 | after the cookie is attached, an unsafe request that echoes it passes |
| Csrf.CsrfMethodExamples | backend/src/middleware/csrf.ts:26-27 | method names are compared case-insensitively; GET, HEAD and OPTIONS are exempt |
| RateLimit.Hit | backend/src/middleware/rateLimit.ts:14-27 | an expired or missing window restarts at count 1; otherwise the count grows and more than `limit` answers 429; only this key's record changes |
| RateLimit.RetryAfter | backend/src/middleware/rateLimit.ts:23 | `Retry-After` is the wait rounded up to whole seconds |
| RateLimit.PassedAfterClosedForm | backend/src/middleware/rateLimit.ts:21-22 | of m further requests in a window already holding c, exactly max(0, min(c + m, limit) - c) pass |
| RateLimit.ReplayInsideWindow | backend/src/middleware/rateLimit.ts:16-26 | while a window stays open every request raises its count, rejected ones included |
| RateLimit.WindowAdmitsAtMostLimit | backend/src/middleware/rateLimit.ts:8-28 | within one window exactly min(n, max(limit, 1)) of n requests from a key get through |
| RateLimit.FirstField | backend/src/middleware/rateLimit.ts:12 | `split(",")[0]` is the text before the first comma |
| RateLimit.ClientKey | backend/src/middleware/rateLimit.ts:12 | the key is the trimmed first forwarded address, else the request address, else "unknown"; never empty |
| RateLimit.Limit | backend/src/middleware/rateLimit.ts:11-27 | the request is counted under its client key and no other record changes; without an open window the key gets a fresh record of count 1 ending `windowMs` from now and the request passes; inside one the count grows by one, the reset stays, and the request passes exactly when the new count is at most `limit`; a refusal's `Retry-After` is the wait rounded up to seconds |
| RateLimit.RateLimitExample | backend/src/middleware/rateLimit.ts:16-24 | with limit 1, a second request 400 ms later is refused with `Retry-After` 1, and one after the window opens a new window |
| Validate.CheckRule | backend/src/middleware/validate.ts:11-44 | a required field that is undefined, null or "" is missing; other undefined or null values pass; enum rules compare `String(val)`; on a typed rule the checks run in the source's order and the first that fails is reported: NaN for a number rule, then a `typeof` mismatch for a string or boolean rule, then `String(val).length` in UTF-16 code units below a non-zero minimum, then above a non-zero maximum; a value clearing all of them passes |
| Validate.TypedRuleOnValue | backend/src/middleware/validate.ts:13-44 | a typed rule passes an undefined or null value exactly when it is optional; any other value exactly when it is not a required "", has the rule's type (a non-NaN `Number()` for numbers, `typeof` otherwise) and its UTF-16 length meets each non-zero bound |
| Validate.Utf16LengthExamples | backend/src/middleware/validate.ts:39-42 | two emoji are four UTF-16 code units: they pass a minimum of 3 and fail a maximum of 3 |
| Validate.ValidateBody | backend/src/middleware/validate.ts:7-48 | the body passes exactly when every rule passes; otherwise the first failing rule is answered with its 400 message |
| Text.Utf16Length | backend/src/middleware/validate.ts:39-42 | `String(val).length` counts UTF-16 code units: between the number of characters and twice it, equal to the first exactly when no character lies outside the Basic Multilingual Plane and to the second exactly when all do |
| Validate.NumberRuleOnText | backend/src/middleware/validate.ts:30 | an unbounded number rule passes a string exactly when `Number` reads it as a number |
| Validate.NumericTextAccepts | backend/src/middleware/validate.ts:30 | " 42 ", "0x1F" and "" are numbers to `Number` |
| Validate.NumericTextRejects | backend/src/middleware/validate.ts:30 | "4x2" is NaN |
| Validate.NumberRuleExamples | backend/src/middleware/validate.ts:28-32 | a number rule accepts " 42 " and rejects "4x2" |
| Validate.StringRuleExamples | backend/src/middleware/validate.ts:14-44 | an optional "" still fails a minimum length; a required "" is missing; a bound of 0 is off; "true" is not a boolean |
| Validate.EnumRuleExamples | backend/src/middleware/validate.ts:20-24 | enum membership is case-sensitive |
| Quiz.Ids | backend/src/routes/quiz.ts:21 | the ids are the answers' question ids, in order |
| Quiz.QuestionSetCheck | backend/src/routes/quiz.ts:22-27 | the count check passes exactly when the ids are distinct stored questions of the chosen skill |
| Quiz.Score | backend/src/routes/quiz.ts:30-37 | the score is at most the number of answers |
| Quiz.Rows | backend/src/routes/quiz.ts:32-37 | one answer row per submitted answer, in order, holding the picked text and whether it is correct |
| Quiz.EmptyPickScoresOnlyEmptyKey | backend/src/routes/quiz.ts:33-34 | an answer without a selection is right exactly when its question is matched and its stored correct option is "" |
| Quiz.UnansweredNeverScores | backend/src/routes/quiz.ts:30-37 | when every matched question has a non-empty correct option, no answer without a selection is right, and a submission of only such answers scores 0 |
| Quiz.ScoreIsCorrectRows | backend/src/routes/quiz.ts:34-36 | the score equals the number of rows flagged correct |
| Quiz.Submit | backend/src/routes/quiz.ts:11-63 | the attempt is stored exactly when the store works, the input is present and the question set is valid; each refusal has its 400 message; a failure leaves the store unchanged; success appends the attempt and its rows |
| Quiz.SubmitKeepsStoreInvariants | backend/src/routes/quiz.ts:39-54 | a submission keeps ids fresh and leaves the questions untouched |
| Quiz.SubmittedRowsMatchScore | backend/src/routes/quiz.ts:46-56 | the stored score is the number of correct rows written for the attempt |
| Quiz.ScoringExample | backend/src/routes/quiz.ts:29-56 | five answers with three right store an attempt scoring 3 of 5 |
| Quiz.ListScope | backend/src/routes/quiz.ts:70-79 | a truthy `userId` lists that user (403 for someone else unless ADMIN); otherwise ADMINs list everyone and users themselves |
| Quiz.Visible | backend/src/routes/quiz.ts:72-78 | the `WHERE` clause keeps exactly the attempts of the scope, before the page is cut |
| Quiz.ListAttempts | backend/src/routes/quiz.ts:65-98 | the reply is 403 exactly when the scope is refused; otherwise it holds one page (at most the page size) of the scope's attempts, none of another user's for a non-administrator, and `total` counts the whole scope |
| Quiz.ListingPagesCoverScope | backend/src/routes/quiz.ts:67-89 | the i-th attempt of the scope is on page i / size + 1 at position i % size, and every page reports the same total |
| Quiz.ListingIsScoped | backend/src/routes/quiz.ts:74-79 | a non-administrator's listing only ever holds their own attempts |
| Questions.Create | backend/src/routes/questions.ts:29-43 | a missing field gives 400; `options[correctOption]` must be truthy, which an own option with a non-empty value is and so is an inherited `Object.prototype` name such as "toString", else 400; otherwise the question is stored under the next id, and its correct option is valid exactly when it is one of its own options |
| Questions.CreateKeepsQuestionsValid | backend/src/routes/questions.ts:31-37 | a creation never overwrites a question and keeps ids fresh; it keeps every stored correct option valid exactly when it is refused or its correct option is one of its own options |
| Questions.InheritedNamePassesCreate | backend/src/routes/questions.ts:33 | a question whose correct option is "toString" is stored although "toString" is none of its options |
| Questions.Patch | backend/src/routes/questions.ts:45-58 | with no field supplied nothing is written; otherwise exactly the supplied fields of that question change |
| Questions.PatchIsIdempotent | backend/src/routes/questions.ts:50-54 | applying a patch twice has the effect of applying it once |
| Questions.PatchCanInvalidateCorrectOption | backend/src/routes/questions.ts:52 | a patch can set a correct option that is not among the options |
| Questions.TextPatchKeepsQuestionsValid | backend/src/routes/questions.ts:50 | patching only the text keeps questions valid |
| Questions.Delete | backend/src/routes/questions.ts:60-65 | the question is gone and every other question is unchanged |
| Questions.DeleteKeepsQuestionsValid | backend/src/routes/questions.ts:60-65 | deleting keeps questions valid, and deleting twice is deleting once |
| Questions.Handle | backend/src/routes/questions.ts:29-65 | on the router alone (the CSRF gate mounted before it is `Csrf.RequireCsrf`), every write first passes the authentication and ADMIN gates, whose error is answered otherwise |
| Questions.OnlyAdminsWriteQuestions | backend/src/routes/questions.ts:29-65 | on the router alone, a write whose access token carries a USER's claims is answered 403 and one without a session 401, and neither changes the store |
| Questions.PatchedEmptyKeyScoresBlank | backend/src/routes/questions.ts:52 | a `PATCH` can store "" as the correct option, and then a blank answer to that question scores |
| Reports.ReportAccess | backend/src/routes/reports.ts:31-33 | a report is served exactly to its own user or an ADMIN, otherwise 403 |
| Reports.LowerBound | backend/src/routes/reports.ts:10-20 | `from` wins; otherwise a period of "week" or "month" (any case) starts the range a week or a month back |
| Reports.RangeClause | backend/src/routes/reports.ts:8-26 | the clause has a lower condition exactly when there is a lower bound and an upper one exactly when `to` is truthy, with the parameters in the same order |
| Reports.PlaceholdersMatchParams | backend/src/routes/reports.ts:21-25 | the clause holds exactly one `?` per parameter |
| Reports.FromOverridesPeriod | backend/src/routes/reports.ts:13-20 | with `from` the period is irrelevant; unknown periods add nothing; case does not matter |
| Reports.PerformanceData | backend/src/routes/reports.ts:46-51 | one row per aggregate row, with the rounded percentage (0 for no total) and the summed total |
| Reports.AveragesAreRoundedPercents | backend/src/routes/reports.ts:49 | each average is the nearest integer to 100 · score / total, halves rounding up |
| Reports.PerformanceExample | backend/src/routes/reports.ts:49 | 15 of 20 is 75% |
| Reports.FindLast | backend/src/routes/reports.ts:77-85 | the Map lookup finds the last global row of the skill, or none |
| Reports.GapIsRoundedDifference | backend/src/routes/reports.ts:86-93 | the gap is the nearest integer to the exact difference of the two percentages, and within 1 of the difference of the rounded averages |
| Reports.MissingGlobalMeansZero | backend/src/routes/reports.ts:87 | without global data the global average is 0 and the gap is the user's average |
| Reports.SkillGaps | backend/src/routes/reports.ts:84-95 | one row per user aggregate, sorted ascending by gap, a permutation of the unsorted rows |
| Reports.OneRowPerUserSkill | backend/src/routes/reports.ts:84-95 | every user aggregate row has its gap row in the response and every response row comes from one |
| Reports.GapExamples | backend/src/routes/reports.ts:86-93 | 75% against 80% has gap -5; 12.5% against 2.4% gives 13, 2 and 10 |
| SeedSql.MatchEnd | backend/scripts/seed.ts:13 | a separator starts at a ';' whose following whitespace reaches the end or holds a line feed, and the greedy match ends at the end or just after the last line feed |
| SeedSql.SplitSql | backend/scripts/seed.ts:10-16 | no statement is empty or has surrounding whitespace |
| SeedSql.SameLineSemicolonStays | backend/scripts/seed.ts:13 | a ';' followed by more text on its line does not separate |
| SeedSql.NoSeparatorOneStatement | backend/scripts/seed.ts:12-15 | without a separator the whole trimmed input is the one statement, or none when blank |
| SeedSql.SplitRenderRoundTrip | backend/scripts/seed.ts:10-16 | splitting statements written one per line, each ended by ';', gives them back |
| SeedSql.SameLineExample | backend/scripts/seed.ts:13 | "a; b" stays one statement |
| SeedSql.LineEndExample | backend/scripts/seed.ts:13-15 | "a;\nb" splits into "a" and "b" |
| SeedSql.TrailingSeparatorExample | backend/scripts/seed.ts:13-15 | "a;\nb;\n" also splits into "a" and "b", with no empty statement after the last ';' |
| Dashboard.TickTimer | frontend/src/pages/Dashboard.tsx:126-133 | a tick counts down by one, never below zero, and auto-submits exactly when it reaches zero |
| Dashboard.CountdownClosedForm | frontend/src/pages/Dashboard.tsx:126-133 | n ticks leave max(s - n, 0) seconds |
| Dashboard.AutoSubmitWhenTimeIsUp | frontend/src/pages/Dashboard.tsx:126-133 | started with s seconds, the s-th tick auto-submits and no earlier one does |
| Dashboard.Pad2ReadsBack | frontend/src/pages/Dashboard.tsx:149 | a number below 100 is padded to exactly two digits that read back as the number |
| Dashboard.FormatTime | frontend/src/pages/Dashboard.tsx:146-150 | the display is digits, a colon and two digits |
| Dashboard.FormatTimeReadsBack | frontend/src/pages/Dashboard.tsx:146-150 | below 100 minutes the display is "mm:ss" and reading it back gives the seconds left |
| Dashboard.FormatTimeExamples | frontend/src/pages/Dashboard.tsx:81-150 | the quiz starts at 600 s, shown "10:00"; 59 s show "00:59" |
| Dashboard.AnsweredCount | frontend/src/pages/Dashboard.tsx:153-156 | the answered count never exceeds the number of questions |
| Dashboard.AnsweredCountExtremes | frontend/src/pages/Dashboard.tsx:153-156 | the count is the whole list exactly when every question is answered, and zero exactly when none is |
| Dashboard.ProgressPct | frontend/src/pages/Dashboard.tsx:157 | progress lies in [0, 100] and is 0 without questions |
| Dashboard.ProgressExtremes | frontend/src/pages/Dashboard.tsx:153-157 | below 200 questions the bar is full exactly when all are answered and empty exactly when none is |
| Dashboard.SaveAnswer | frontend/src/pages/Dashboard.tsx:160-162 | only the entry of the given question changes, to the choice |
| Dashboard.SavingNeverLowersProgress | frontend/src/pages/Dashboard.tsx:153-162 | saving a non-empty choice marks the question answered and never lowers the count |
| Dashboard.SaveAndNext | frontend/src/pages/Dashboard.tsx:163-165 | the index advances by one exactly when it is before the last question, and stays in range |
| Dashboard.Prev | frontend/src/pages/Dashboard.tsx:166-168 | the index goes back by one exactly when it is past the first question, and stays non-negative |
| Dashboard.WalkStaysInRange | frontend/src/pages/Dashboard.tsx:163-168 | no sequence of Next and Prev presses leaves the loaded questions |
| Dashboard.NextStopsAtLast | frontend/src/pages/Dashboard.tsx:163-165 | k presses of Next advance k questions and stop at the last |
| Dashboard.Selected | frontend/src/pages/Dashboard.tsx:99 | the sent selection is the recorded choice when answered, else "" |
| Dashboard.AutoSubmitAsWritten | frontend/src/pages/Dashboard.tsx:112-133 | the timed-out quiz is sent with the answers of the render in which Start was clicked, one entry per loaded question |
| Dashboard.AutoSubmitDropsChoices | frontend/src/pages/Dashboard.tsx:93-133 | on a first quiz every auto-submitted selection is empty, and nothing chosen during the quiz changes the payload |
| Dashboard.AutoSubmit | frontend/src/pages/Dashboard.tsx:125-133 | corrected: the timed-out quiz is sent with the current answers, one entry per loaded question, in order |
| Dashboard.TickSends | frontend/src/pages/Dashboard.tsx:125-133 | corrected: only the tick that reaches zero sends, and it sends the current answers |
| Dashboard.TimedOutQuizKeepsChoices | frontend/src/pages/Dashboard.tsx:93-133 | choices A and B left to time out are sent as A and B by the corrected timer, and as two empty selections by the code as written |
| Dashboard.SubmitPayload | frontend/src/pages/Dashboard.tsx:93-100 | nothing is sent without a skill or without questions; otherwise one entry per loaded question, in order, with "" for the unanswered |
| Dashboard.AsSubmitBody | backend/src/routes/quiz.ts:15-33 | the server reads the payload's skill id and answers as sent, an empty selection as falsy |
| Dashboard.LoadedQuizIsSubmitted | frontend/src/pages/Dashboard.tsx:93-100 | a quiz of a skill's distinct questions, submitted by the panel, passes the route's checks and is scored out of every loaded question |
| Dashboard.IsPassIsHalfOrMore | frontend/src/pages/Dashboard.tsx:371 | for a positive total, a pass is exactly `(score / total) * 100 >= 50` on the exact quotient |
| Dashboard.CountPass | frontend/src/pages/Dashboard.tsx:369-376 | the passes are at most the attempts |
| Dashboard.PassFail | frontend/src/pages/Dashboard.tsx:369-376 | every attempt is counted once, as a pass or a fail, and the passes are the attempts meeting the test |
| Dashboard.PassFailExample | frontend/src/pages/Dashboard.tsx:369-376 | 5/10 and 3/0 pass; 4/10 and 0/0 fail |
| Dashboard.IndexOfSkill | frontend/src/pages/Dashboard.tsx:702-703 | the lookup finds the entry of the skill, or reports that none has it |
| Dashboard.AggregateIsPerSkillSums | frontend/src/pages/Dashboard.tsx:701-706 | the loop leaves one entry per skill that occurs, holding that skill's summed scores and totals |
| Dashboard.Ranked | frontend/src/pages/Dashboard.tsx:707-710 | the bars are a permutation of the per-skill averages, highest first |
| Dashboard.BySkill | frontend/src/pages/Dashboard.tsx:700-711 | min(8, number of skills) bars, highest first, each per-skill average used at most once (a sub-multiset of the averages), and none of the dropped bars is higher |
| Dashboard.BarsAreSkillPercents | frontend/src/pages/Dashboard.tsx:707-709 | each bar is a skill's rounded percentage of its points, in [0, 100] when no attempt scores above its total |
| Dashboard.AverageIsSkillPercent | frontend/src/pages/Dashboard.tsx:707-709 | every per-skill average is some skill's rounded percentage of its summed points, and lies in [0, 100] when no attempt scores above its total |
| Dashboard.BySkillExample | frontend/src/pages/Dashboard.tsx:700-711 | SQL at 15 of 20 (75%) ranks above Go at 1 of 2 (50%) |
| AuthSlice.Reduce | frontend/src/store/authSlice.ts:18-21 | each action writes its own field and leaves the other two alone; clearUser empties the user |
| AuthSlice.ClearUserIsSetUserNull | frontend/src/store/authSlice.ts:20-21 | `setUser(null)` and `clearUser` produce the same state |
| AuthSlice.ReducersAreIdempotent | frontend/src/store/authSlice.ts:18-21 | dispatching an action twice is dispatching it once |
| AuthSlice.DifferentFieldsCommute | frontend/src/store/authSlice.ts:18-20 | actions on different fields commute |
| AuthSlice.OnlySetUserSignsIn | frontend/src/store/authSlice.ts:18-21 | from a signed-out state only a `setUser` with a user signs someone in |
| AuthSlice.InitialIsSignedOut | frontend/src/store/authSlice.ts:12 | the initial state has no user, is not loading and has no error |
| UiSlice.Reduce | frontend/src/store/uiSlice.ts:10-11 | `setSidebar` sets the flag to its argument; `toggleSidebar` flips it |
| UiSlice.SetAndToggleLaws | frontend/src/store/uiSlice.ts:10-11 | setting is idempotent and toggling twice is the identity |
| UiSlice.TogglesParity | frontend/src/store/uiSlice.ts:11 | a run of toggles restores the flag exactly when it has even length |
| UiSlice.InitialIsClosed | frontend/src/store/uiSlice.ts:4 | the sidebar starts closed |

## Left out

- JavaScript numbers: all numbers are unbounded integers, or exact rationals where the
  code divides. Floating-point rounding, NaN arithmetic and precision loss on large
  values are not modelled. `Number()` of a string is modelled only as far as whether
  it is NaN.
- Dates: `new Date(...)` and the week and month arithmetic of the range clause are
  opaque `DateParam` values. Invalid date strings are not modelled.
- The SQL itself: `GROUP BY` aggregation, `ORDER BY`, joins and foreign keys are not
  modelled. The report endpoints take the aggregate rows as inputs. The attempt list
  takes the attempts already in `started_at DESC` order as an input. Deleting a
  question that answers refer to does not fail.
- I/O and the frameworks: Express request and response objects, cookies as
  transport, the connection pool, `bcrypt`, `crypto.randomBytes`, `setInterval`,
  React rendering, recharts and axios are left out. Their results become parameters.
- The cookie helpers of backend/src/utils/jwt.ts (`setAccessCookie`,
  `setRefreshCookie`, `clearAuthCookies`) only pass options to Express. The auth,
  users and skills routes are not part of this model.
- Validate.CheckRule: request-body values are undefined, null, strings, numbers,
  booleans and plain objects. Arrays are not modelled, so `Number([5])` being 5 and
  `String([1, 2])` being "1,2" are outside the model.
- Questions.Create: option values are strings and `options` is a plain object.
  Non-string truthy values such as `{"A": 4}` are not modelled. Neither is a string or
  array `options` indexed by position.
- Questions.Patch: a `null` in the patch body is not modelled. The model treats a
  field as either undefined or given.
- Pager.PageCount: a page size of 0 (a division by zero in the source) is excluded by
  its precondition.
- Dashboard.FormatTime: the seconds are a natural number, because the timer never
  holds a negative value; JavaScript's `%` on negatives is not modelled.
- Dashboard.BySkill: the stability of the sort (equal averages keep first-appearance
  order) holds of the insertion sort used, but no contract states it. Which skill
  name labels a bar is not stated either.
- Dashboard.IsPass: attempt totals are natural numbers, so a negative total is not
  modelled.
- Text.AsciiUpper and Text.AsciiLower: case mapping covers ASCII letters only. Other
  letters are not mapped.

## Findings

| source | as written | input that shows it | evidently intended | confidence | as-written member | corrected member |
|---|---|---|---|---|---|---|
| frontend/src/pages/Dashboard.tsx:125-133 | the timer's auto-submit calls the `handleSubmit` of the render in which Start was clicked, so it sends that render's `answers`, from before `setAnswers({})` at line 118 | a first quiz whose two questions are answered "A" and "B" and left to time out is sent with two empty selections (`Dashboard.TimedOutQuizKeepsChoices`) | a timed-out quiz is sent with the answers chosen during it, as a click on Submit would send them | high; not executed | Dashboard.AutoSubmitAsWritten | Dashboard.AutoSubmit |

=== FILE: arith.dfy ===
/** Exact integer versions of the floating-point expressions the portal computes. */
module Arith {

  /** `Math.round(p / q)` for q > 0. JavaScript rounds to the nearest integer and
      breaks ties toward +infinity, so the result is the unique r with
      r - 1/2 <= p/q < r + 1/2. */
  function RoundDiv(p: int, q: int): (r: int)
    requires q > 0
    ensures 2 * q * r <= 2 * p + q < 2 * q * r + 2 * q
  {
    var d := 2 * q;
    var x := 2 * p + q;
    assert x == d * (x / d) + x % d;
    x / d
  }

  /** `Math.ceil(t / q)` for q > 0: the least r with t <= q * r. */
  function CeilDiv(t: int, q: int): (r: int)
    requires q > 0
    ensures q * (r - 1) < t <= q * r
  {
    var f := (-t) / q;
    assert -t == q * f + (-t) % q;
    -f
  }

  /** `Math.round(100 * s / t)`: an integer percentage, 0 when t is 0 (the
      source's `t ? ... : 0` guard). */
  function Percent(s: int, t: int): (r: int)
    requires t >= 0
    ensures t == 0 ==> r == 0
    ensures t > 0 && 0 <= s <= t ==> 0 <= r <= 100
  {
    if t == 0 then 0 else PercentBounds(s, t); RoundDiv(100 * s, t)
  }

  /** The rounded quotient is the only integer within half a step of p / q. */
  lemma RoundDivIs(p: int, q: int, r: int)
    requires q > 0
    requires 2 * q * r <= 2 * p + q < 2 * q * r + 2 * q
    ensures RoundDiv(p, q) == r
  {
    var x := RoundDiv(p, q);
    if x < r {
      MulMonotone(2 * q, x + 1, r);
    } else if x > r {
      MulMonotone(2 * q, r + 1, x);
    }
  }

  /** Cancelling a positive factor from a strict inequality. */
  lemma MulCancelLt(c: int, a: int, b: int)
    requires c > 0 && c * a < c * b
    ensures a < b
  {
    if a >= b {
      MulMonotone(c, b, a);
    }
  }

  lemma MulMonotone(c: int, a: int, b: int)
    requires c > 0 && a <= b
    ensures c * a <= c * b
  {
    assert c * b == c * a + c * (b - a);
  }

  /** Dividing a multiple of a by a is exact. */
  lemma MulDivExact(a: int, q: int)
    requires a > 0
    ensures (a * q) / a == q && (a * q) % a == 0
  {
    var x := a * q;
    var d := x / a;
    var m := x % a;
    assert x == a * d + m && 0 <= m < a;
    assert a * (q - d) == m;
    MulCancelLt(a, q - d, 1);
    MulCancelLt(a, -1, q - d);
  }

  lemma PercentBounds(s: int, t: int)
    requires t > 0
    ensures 0 <= s <= t ==> 0 <= RoundDiv(100 * s, t) <= 100
  {
    var r := RoundDiv(100 * s, t);
    if 0 <= s <= t {
      assert 2 * t * 0 < 2 * t * (r + 1);
      MulCancelLt(2 * t, 0, r + 1);
      assert 2 * t * r < 2 * t * 101;
      MulCancelLt(2 * t, r, 101);
    }
  }

  /** RoundDiv is monotone in its numerator. */
  lemma RoundDivMonotone(p1: int, p2: int, q: int)
    requires q > 0 && p1 <= p2
    ensures RoundDiv(p1, q) <= RoundDiv(p2, q)
  {
    var r1 := RoundDiv(p1, q);
    var r2 := RoundDiv(p2, q);
    assert 2 * q * r1 < 2 * q * (r2 + 1);
    MulCancelLt(2 * q, r1, r2 + 1);
  }

  /** Cancelling a positive factor from a non-strict inequality. */
  lemma MulCancelLe(c: int, a: int, b: int)
    requires c > 0 && c * a <= c * b
    ensures a <= b
  {
    assert c * (b + 1) == c * b + c;
    MulCancelLt(c, a, b + 1);
  }

  // ---- the exact value of a rounded quotient ----

  lemma ToRealMul(a: int, b: int)
    ensures (a * b) as real == (a as real) * (b as real)
  {
  }

  lemma RealCancelLe(d: real, x: real, y: real)
    requires d > 0.0 && d * x <= d * y
    ensures x <= y
  {
  }

  lemma RealCancelLt(d: real, x: real, y: real)
    requires d > 0.0 && d * x < d * y
    ensures x < y
  {
  }

  lemma NearestFromBounds(d: real, n: real, k: real)
    requires d > 0.0 && 2.0 * d * k <= 2.0 * n + d < 2.0 * d * k + 2.0 * d
    ensures k - 0.5 <= n / d < k + 0.5
  {
    var v := n / d;
    assert n == d * v;
    RealCancelLe(d, k - 0.5, v);
    RealCancelLt(d, v, k + 0.5);
  }

  /** `RoundDiv(p, q)` is the integer nearest to the exact quotient p / q, a half
      going up. */
  lemma RoundDivIsNearest(p: int, q: int)
    requires q > 0
    ensures RoundDiv(p, q) as real - 0.5 <= p as real / q as real < RoundDiv(p, q) as real + 0.5
  {
    var r := RoundDiv(p, q);
    ToRealMul(2 * q, r);
    NearestFromBounds(q as real, p as real, r as real);
  }

  /** a/p - b/q over the common denominator p*q. */
  lemma RealSubFractions(a: real, p: real, b: real, q: real)
    requires p > 0.0 && q > 0.0
    ensures (a * q - b * p) / (p * q) == a / p - b / q
  {
    var u := a / p;
    var w := b / q;
    assert a == p * u && b == q * w;
    assert a * q - b * p == (p * q) * (u - w);
  }
}

=== FILE: auth.dfy ===
/** Session gates (backend/src/middleware/auth.ts): `requireAuth` turns the `auth`
    cookie into a principal, `requireRole` compares role ranks. */
module Auth {
  import opened Common
  import opened Tokens

  const Unauthenticated := HttpError(401, "Unauthenticated")
  const InvalidToken := HttpError(401, "Invalid or expired token")
  const Forbidden := HttpError(403, "Forbidden")

  /** `requireAuth`'s three outcomes: a principal attached to the request (and
      `next()` called once), or a 401 answer. */
  datatype AuthOutcome = Authenticated(user: Principal) | Refused(error: HttpError)

  /** The access token the request carries, when it carries a truthy one. */
  predicate HasToken(cookies: map<string, string>) {
    "auth" in cookies && cookies["auth"] != ""
  }

  /** `requireAuth`: no (or an empty) `auth` cookie is "Unauthenticated"; a token the
      access verifier rejects is "Invalid or expired token"; otherwise the request
      proceeds with the verified payload's principal. */
  function RequireAuth(cookies: map<string, string>, verify: Verifier): (r: AuthOutcome)
    ensures !HasToken(cookies) <==> r == Refused(Unauthenticated)
    ensures r == Refused(InvalidToken) <==> HasToken(cookies) && Verify(verify, Access, cookies["auth"]).Err?
    ensures r.Authenticated? <==> HasToken(cookies) && Verify(verify, Access, cookies["auth"]).Ok?
    ensures r.Authenticated? ==> r.user == PrincipalOf(Verify(verify, Access, cookies["auth"]).value)
  {
    if !HasToken(cookies) then Refused(Unauthenticated)
    else
      match Verify(verify, Access, cookies["auth"])
      case Err(_) => Refused(InvalidToken)
      case Ok(payload) => Authenticated(PrincipalOf(payload))
  }

  /** The rank table of `requireRole`. */
  function Rank(r: Role): int {
    match r
    case USER => 1
    case ADMIN => 2
  }

  /** `requireRole(required)` run on the request's attached user, if any. */
  function RequireRole(user: Option<Principal>, required: Role): (g: Gate)
    ensures user.None? ==> g == Stop(Unauthenticated)
    ensures user.Some? ==> (g == Stop(Forbidden) <==> Rank(user.value.role) < Rank(required))
    ensures user.Some? ==> (g == Next <==> Rank(user.value.role) >= Rank(required))
  {
    match user
    case None => Stop(Unauthenticated)
    case Some(p) => if Rank(p.role) < Rank(required) then Stop(Forbidden) else Next
  }

  /** Passing the ADMIN gate implies passing the USER gate; a USER never passes the
      ADMIN gate; the ADMIN gate admits exactly administrators. */
  lemma RoleGateMonotone(p: Principal)
    ensures RequireRole(Some(p), ADMIN) == Next ==> RequireRole(Some(p), USER) == Next
    ensures p.role == USER ==> RequireRole(Some(p), ADMIN) == Stop(Forbidden)
    ensures RequireRole(Some(p), ADMIN) == Next <==> p.role == ADMIN
    ensures RequireRole(Some(p), USER) == Next
  {
  }

  /** `requireAuth` followed by `requireRole(required)`, as the admin routes mount them. */
  function AuthorizeRole(cookies: map<string, string>, verify: Verifier, required: Role): (r: Result<Principal, HttpError>)
    ensures r.Ok? <==> RequireAuth(cookies, verify).Authenticated? && Rank(RequireAuth(cookies, verify).user.role) >= Rank(required)
    ensures r.Ok? ==> r.value == RequireAuth(cookies, verify).user
    ensures RequireAuth(cookies, verify).Refused? ==> r == Err(RequireAuth(cookies, verify).error)
    ensures RequireAuth(cookies, verify).Authenticated? && r.Err? ==> r == Err(Forbidden)
  {
    match RequireAuth(cookies, verify)
    case Refused(e) => Err(e)
    case Authenticated(p) =>
      match RequireRole(Some(p), required)
      case Next => Ok(p)
      case Stop(e) => Err(e)
  }

  /** The reports' and attempt list's rule: administrators see anyone, others only themselves. */
  predicate SelfOrAdmin(me: Principal, userId: int) {
    me.role == ADMIN || me.sub == userId
  }

  /** A request whose `auth` cookie carries an access token for p (its decoded
      claims carry p's, whatever else the library added) reaches the admin
      handlers exactly when p is an administrator; otherwise it is answered 403. */
  lemma AdminRoutesNeedAdmin(cookies: map<string, string>, verify: Verifier, p: Principal, fields: map<string, Json>)
    requires HasToken(cookies) && p.username != ""
    requires verify(Access, cookies["auth"]) == Some(DClaims(JObj(fields)))
    requires CarriesClaims(fields, ClaimsOf(p))
    ensures AuthorizeRole(cookies, verify, ADMIN) == (if p.role == ADMIN then Ok(p) else Err(Forbidden))
  {
    CarriedClaimsRead(p, fields);
  }
}

=== FILE: authslice.dfy ===
/** The client's session state (frontend/src/store/authSlice.ts): the signed-in user,
    a loading flag and the last error, with one reducer per action. */
module AuthSlice {
  import opened Common
  import opened Tokens

  /** `User`: the decoded identity, or None for `null`. */
  datatype AuthState = AuthState(user: Option<Principal>, loading: bool, error: Option<string>)

  const Initial := AuthState(None, false, None)

  datatype Action =
    | SetLoading(loading: bool)
    | SetError(error: Option<string>)
    | SetUser(user: Option<Principal>)
    | ClearUser

  /** The slice's reducer: each action writes its own field and nothing else. */
  function Reduce(st: AuthState, action: Action): (r: AuthState)
    ensures action.SetLoading? ==> r.loading == action.loading && r.user == st.user && r.error == st.error
    ensures action.SetError? ==> r.error == action.error && r.user == st.user && r.loading == st.loading
    ensures action.SetUser? ==> r.user == action.user && r.loading == st.loading && r.error == st.error
    ensures action.ClearUser? ==> r.user.None? && r.loading == st.loading && r.error == st.error
  {
    match action
    case SetLoading(b) => st.(loading := b)
    case SetError(e) => st.(error := e)
    case SetUser(u) => st.(user := u)
    case ClearUser => st.(user := None)
  }

  /** The state after a sequence of dispatched actions. */
  function Run(st: AuthState, actions: seq<Action>): AuthState
    decreases |actions|
  {
    if actions == [] then st else Run(Reduce(st, actions[0]), actions[1..])
  }

  /** `setUser(null)` and `clearUser` have the same effect: the user is gone and the
      loading flag and error stay. */
  lemma ClearUserIsSetUserNull(st: AuthState)
    ensures Reduce(st, SetUser(None)) == Reduce(st, ClearUser)
    ensures Reduce(st, ClearUser) == st.(user := None)
  {
  }

  /** Reducing the same action twice is reducing it once. */
  lemma ReducersAreIdempotent(st: AuthState, action: Action)
    ensures Reduce(Reduce(st, action), action) == Reduce(st, action)
  {
  }

  /** Actions that write different fields commute. */
  lemma DifferentFieldsCommute(st: AuthState, b: bool, e: Option<string>, u: Option<Principal>)
    ensures Reduce(Reduce(st, SetLoading(b)), SetUser(u)) == Reduce(Reduce(st, SetUser(u)), SetLoading(b))
    ensures Reduce(Reduce(st, SetLoading(b)), SetError(e)) == Reduce(Reduce(st, SetError(e)), SetLoading(b))
    ensures Reduce(Reduce(st, SetError(e)), SetUser(u)) == Reduce(Reduce(st, SetUser(u)), SetError(e))
  {
  }

  /** Only `setUser` signs someone in: a run without a `setUser` carrying a user
      never leaves a user in a state that started without one. */
  lemma {:induction false} OnlySetUserSignsIn(st: AuthState, actions: seq<Action>)
    requires st.user.None?
    requires forall i :: 0 <= i < |actions| ==> !(actions[i].SetUser? && actions[i].user.Some?)
    ensures Run(st, actions).user.None?
    decreases |actions|
  {
    if actions != [] {
      OnlySetUserSignsIn(Reduce(st, actions[0]), actions[1..]);
    }
  }

  /** The store starts signed out, idle and without an error. */
  lemma InitialIsSignedOut()
    ensures Initial.user.None? && !Initial.loading && Initial.error.None?
    ensures Reduce(Initial, ClearUser) == Initial
  {
  }
}

=== FILE: common.dfy ===
/** Failure-carrying values shared by every module of the portal model. */
module Common {

  /** A value that may be missing: JavaScript's `undefined` (or an absent key). */
  datatype Option<+T> = None | Some(value: T) {
    function GetOr(default: T): T {
      match this
      case Some(v) => v
      case None => default
    }
  }

  /** The outcome of an operation that may fail with an error of type E. */
  datatype Result<+T, +E> = Ok(value: T) | Err(error: E)

  /** An HTTP error response: status code and the JSON `message` the route sends. */
  datatype HttpError = HttpError(status: int, message: string)

  /** The outcome of an Express middleware: call `next()` or answer the request itself. */
  datatype Gate = Next | Stop(error: HttpError)

  function Max(a: int, b: int): int { if a >= b then a else b }
  function Min(a: int, b: int): int { if a <= b then a else b }
}

=== FILE: csrf.dfy ===
/** Double-submit CSRF protection (backend/src/middleware/csrf.ts). */
module Csrf {
  import opened Common
  import opened Text

  const CookieName := "XSRF-TOKEN"
  const CsrfInvalid := HttpError(403, "CSRF token invalid")

  /** The cookie `attachCsrfToken` sets: readable by script, one hour, SameSite=None,
      Secure only in production. */
  datatype CsrfCookie = CsrfCookie(value: string, httpOnly: bool, secure: bool, sameSite: string, maxAgeMs: int)

  predicate HasCsrfCookie(cookies: map<string, string>) {
    CookieName in cookies && cookies[CookieName] != ""
  }

  /** `attachCsrfToken`: a newToken token cookie only when the request has no (truthy)
      one. `newToken` stands for `crypto.randomBytes(20).toString("hex")`. The
      middleware always continues, so only the cookie is modelled. */
  function AttachCsrfToken(cookies: map<string, string>, newToken: string, isProd: bool): (setCookie: Option<CsrfCookie>)
    ensures setCookie.Some? <==> !HasCsrfCookie(cookies)
    ensures setCookie.Some? ==> setCookie.value == CsrfCookie(newToken, false, isProd, "none", 3_600_000)
  {
    if HasCsrfCookie(cookies) then None else Some(CsrfCookie(newToken, false, isProd, "none", 60 * 60 * 1000))
  }

  /** The browser's cookie jar after the response: a set cookie replaces the old value. */
  function AfterResponse(cookies: map<string, string>, setCookie: Option<CsrfCookie>): map<string, string> {
    match setCookie
    case None => cookies
    case Some(c) => cookies[CookieName := c.value]
  }

  /** An existing token is never replaced; a missing one becomes the newToken token. */
  lemma AttachKeepsExistingToken(cookies: map<string, string>, newToken: string, isProd: bool)
    ensures var jar := AfterResponse(cookies, AttachCsrfToken(cookies, newToken, isProd));
      && (HasCsrfCookie(cookies) ==> jar == cookies)
      && (!HasCsrfCookie(cookies) ==> jar[CookieName] == newToken)
      && (forall k :: k in cookies && k != CookieName ==> k in jar && jar[k] == cookies[k])
  {
  }

  const UnsafeMethods: seq<string> := ["POST", "PUT", "PATCH", "DELETE"]

  predicate IsUnsafe(verb: string) {
    AsciiUpper(verb) in UnsafeMethods
  }

  /** `requireCsrf`: safe methods pass; an unsafe one passes only when the
      `x-xsrf-token` header and the cookie are both non-empty and equal. Nothing
      about the session is consulted. */
  function RequireCsrf(verb: string, header: Option<string>, cookies: map<string, string>): (g: Gate)
    ensures !IsUnsafe(verb) ==> g == Next
    ensures IsUnsafe(verb) ==>
      (g == Next <==> header.Some? && header.value != "" && HasCsrfCookie(cookies) && header.value == cookies[CookieName])
    ensures g == Next || g == Stop(CsrfInvalid)
  {
    if !IsUnsafe(verb) then Next
    else if header.None? || header.value == "" || !HasCsrfCookie(cookies) || header.value != cookies[CookieName] then
      Stop(CsrfInvalid)
    else Next
  }

  /** After the token cookie is attached, an unsafe request echoing that cookie's
      value in the header passes, and one with any other header value is refused. */
  lemma EchoedTokenPasses(cookies: map<string, string>, newToken: string, isProd: bool, verb: string, header: string)
    requires newToken != "" && IsUnsafe(verb)
    ensures var jar := AfterResponse(cookies, AttachCsrfToken(cookies, newToken, isProd));
      RequireCsrf(verb, Some(header), jar) == Next <==> header == jar[CookieName]
  {
  }

  /** Method names are compared case-insensitively; GET, HEAD and OPTIONS are exempt. */
  lemma CsrfMethodExamples(header: Option<string>, cookies: map<string, string>)
    ensures RequireCsrf("post", header, cookies) == RequireCsrf("POST", header, cookies)
    ensures RequireCsrf("Delete", None, cookies) == Stop(CsrfInvalid)
    ensures RequireCsrf("GET", header, cookies) == Next
    ensures RequireCsrf("head", header, cookies) == Next
    ensures RequireCsrf("OPTIONS", header, cookies) == Next
  {
    assert AsciiUpper("post") == "POST" == AsciiUpper("POST");
    assert IsUnsafe("post") && IsUnsafe("POST");
    assert AsciiUpper("Delete") == "DELETE";
    assert AsciiUpper("GET") == "GET";
    assert AsciiUpper("head") == "HEAD";
    assert AsciiUpper("OPTIONS") == "OPTIONS";
  }
}

=== FILE: dashboard.dfy ===
/** The quiz panel and the two charts of the user's dashboard
    (frontend/src/pages/Dashboard.tsx): the countdown timer and its display, the
    answered count and progress bar, question navigation, the payload sent on
    submit, the pass / fail split and the per-skill averages. */
module Dashboard {
  import opened Common
  import opened Text
  import opened Arith
  import opened Sorting
  import Store
  import Quiz

  // ---- timer ----

  const QuizMinutes := 10
  const InitialSeconds: nat := QuizMinutes * 60

  /** The seconds left after a tick, and whether the tick auto-submits. */
  datatype Tick = Tick(seconds: nat, autoSubmit: bool)

  /** The interval callback: with more than one second left it counts down; otherwise
      it stops at zero and submits. */
  function TickTimer(prev: nat): (t: Tick)
    ensures t.autoSubmit <==> t.seconds == 0
    ensures prev > 0 ==> t.seconds == prev - 1
    ensures t.seconds <= prev
  {
    if prev <= 1 then Tick(0, true) else Tick(prev - 1, false)
  }

  /** The seconds left after n ticks. */
  function Countdown(seconds: nat, n: nat): nat {
    if n == 0 then seconds else Countdown(TickTimer(seconds).seconds, n - 1)
  }

  /** n ticks take n seconds off the clock, stopping at zero. */
  lemma {:induction false} CountdownClosedForm(seconds: nat, n: nat)
    ensures Countdown(seconds, n) == Max(seconds - n, 0)
  {
    if n > 0 {
      CountdownClosedForm(TickTimer(seconds).seconds, n - 1);
    }
  }

  /** Started with s >= 1 seconds, the timer auto-submits on its s-th tick and on no
      earlier one: from ten minutes, on tick 600. */
  lemma AutoSubmitWhenTimeIsUp(seconds: nat, n: nat)
    requires seconds >= 1
    ensures TickTimer(Countdown(seconds, n)).autoSubmit <==> n + 1 >= seconds
  {
    CountdownClosedForm(seconds, n);
  }

  /** A count of at most 99 written with two digits (`String(n).padStart(2, "0")`). */
  function Pad2(n: nat): (r: string)
    ensures |r| >= 2 && IsDigits(r)
  {
    PadStart2(NatToDecimal(n))
  }

  /** Reading back a two-digit field gives the number written. */
  lemma Pad2ReadsBack(n: nat)
    requires n < 100
    ensures |Pad2(n)| == 2 && DigitsValue(Pad2(n)) == n
  {
    var d := NatToDecimal(n);
    DecimalRoundTrip(n);
    if n < 10 {
      LeadingZeroValue(d);
      assert Pad2(n) == "0" + d;
    } else {
      assert d == NatToDecimal(n / 10) + [DigitChar(n % 10)];
      assert |d| == 2;
    }
  }

  /** `timeStr`: minutes and seconds, each at least two digits, around a colon. */
  function FormatTime(seconds: nat): (r: string)
    ensures |r| >= 5 && r[|r| - 3] == ':'
    ensures IsDigits(r[..|r| - 3]) && IsDigits(r[|r| - 2..])
  {
    var m := Pad2(seconds / 60);
    var s := Pad2(seconds % 60);
    Pad2ReadsBack(seconds % 60);
    assert (m + ":" + s)[..|m|] == m && (m + ":" + s)[|m| + 1..] == s;
    m + ":" + s
  }

  /** Below 100 minutes the display is "mm:ss", and reading it back gives the seconds
      left: distinct times never look alike. */
  lemma FormatTimeReadsBack(seconds: nat)
    requires seconds < 6000
    ensures var r := FormatTime(seconds);
      && |r| == 5 && r[2] == ':'
      && DigitsValue(r[..2]) * 60 + DigitsValue(r[3..]) == seconds
  {
    Pad2ReadsBack(seconds / 60);
    Pad2ReadsBack(seconds % 60);
    var r := FormatTime(seconds);
    assert r[..2] == Pad2(seconds / 60);
    assert r[3..] == Pad2(seconds % 60);
  }

  lemma PadExamples()
    ensures Pad2(0) == "00" && Pad2(10) == "10" && Pad2(59) == "59"
  {
    assert DigitChar(0) == '0' && DigitChar(1) == '1' && DigitChar(5) == '5' && DigitChar(9) == '9';
    assert NatToDecimal(0) == "0";
    assert NatToDecimal(10) == NatToDecimal(1) + [DigitChar(0)] == "10";
    assert NatToDecimal(59) == NatToDecimal(5) + [DigitChar(9)] == "59";
  }

  /** The timer starts at "10:00" and shows "00:59" with 59 seconds left. */
  lemma FormatTimeExamples()
    ensures InitialSeconds == 600
    ensures FormatTime(InitialSeconds) == "10:00"
    ensures FormatTime(59) == "00:59"
  {
    PadExamples();
    assert FormatTime(600) == Pad2(10) + ":" + Pad2(0);
    assert FormatTime(59) == Pad2(0) + ":" + Pad2(59);
  }

  // ---- answers and progress ----

  /** `answers[q.id]` is truthy: the question has a non-empty recorded choice. */
  predicate Answered(answers: map<int, string>, qid: int) {
    qid in answers && answers[qid] != ""
  }

  /** `answeredCount`: the loaded questions (by id) that have an answer. */
  function AnsweredCount(questions: seq<int>, answers: map<int, string>): (n: nat)
    ensures n <= |questions|
  {
    if questions == [] then 0
    else
      AnsweredCount(questions[..|questions| - 1], answers)
        + (if Answered(answers, questions[|questions| - 1]) then 1 else 0)
  }

  /** The count is the whole list exactly when every question is answered, and zero
      exactly when none is. */
  lemma {:induction false} AnsweredCountExtremes(questions: seq<int>, answers: map<int, string>)
    ensures AnsweredCount(questions, answers) == |questions| <==>
      forall i :: 0 <= i < |questions| ==> Answered(answers, questions[i])
    ensures AnsweredCount(questions, answers) == 0 <==>
      forall i :: 0 <= i < |questions| ==> !Answered(answers, questions[i])
  {
    if questions != [] {
      var n := |questions|;
      var pre := questions[..n - 1];
      AnsweredCountExtremes(pre, answers);
      assert forall i :: 0 <= i < n - 1 ==> pre[i] == questions[i];
    }
  }

  /** `progressPct`: the rounded percentage of questions answered, 0 without questions. */
  function ProgressPct(questions: seq<int>, answers: map<int, string>): (p: int)
    ensures 0 <= p <= 100
    ensures |questions| == 0 ==> p == 0
  {
    Percent(AnsweredCount(questions, answers), |questions|)
  }

  /** For quizzes shorter than 200 questions (the panel loads at most ten) the bar is
      full exactly when every question is answered, and empty exactly when none is.
      From 200 questions on, one missing answer already rounds to 100%. */
  lemma ProgressExtremes(questions: seq<int>, answers: map<int, string>)
    requires 0 < |questions| < 200
    ensures ProgressPct(questions, answers) == 100 <==>
      forall i :: 0 <= i < |questions| ==> Answered(answers, questions[i])
    ensures ProgressPct(questions, answers) == 0 <==>
      forall i :: 0 <= i < |questions| ==> !Answered(answers, questions[i])
  {
    var n := |questions|;
    var a := AnsweredCount(questions, answers);
    AnsweredCountExtremes(questions, answers);
    assert ProgressPct(questions, answers) == RoundDiv(100 * a, n);
    if a == n {
      RoundDivIs(100 * a, n, 100);
    }
    if a == 0 {
      RoundDivIs(100 * a, n, 0);
    }
  }

  /** `saveAnswer`: records the choice for one question and keeps every other entry. */
  function SaveAnswer(answers: map<int, string>, qid: int, choice: string): (a: map<int, string>)
    ensures qid in a && a[qid] == choice
    ensures forall k :: k != qid ==> (k in a <==> k in answers)
    ensures forall k :: k != qid && k in a ==> a[k] == answers[k]
  {
    answers[qid := choice]
  }

  /** Saving a non-empty choice never lowers the answered count, and the question
      saved counts as answered afterwards. */
  lemma {:induction false} SavingNeverLowersProgress(questions: seq<int>, answers: map<int, string>, qid: int, choice: string)
    requires choice != ""
    ensures Answered(SaveAnswer(answers, qid, choice), qid)
    ensures AnsweredCount(questions, SaveAnswer(answers, qid, choice)) >= AnsweredCount(questions, answers)
  {
    if questions != [] {
      SavingNeverLowersProgress(questions[..|questions| - 1], answers, qid, choice);
    }
  }

  // ---- navigation ----

  /** `saveAndNext`: moves to the next question unless on the last one. */
  function SaveAndNext(idx: int, count: int): (i: int)
    ensures 0 <= idx < count ==> 0 <= i < count
    ensures i == idx + 1 <==> idx < count - 1
    ensures i != idx + 1 ==> i == idx
  {
    if idx < count - 1 then idx + 1 else idx
  }

  /** `prev`: moves to the previous question unless on the first one. */
  function Prev(idx: int): (i: int)
    ensures 0 <= idx ==> 0 <= i <= idx
    ensures i == idx - 1 <==> idx > 0
    ensures i != idx - 1 ==> i == idx
  {
    if idx > 0 then idx - 1 else idx
  }

  datatype Move = Forward | Backward

  /** The question shown after a sequence of button presses. */
  function Walk(idx: int, count: int, moves: seq<Move>): int
    decreases |moves|
  {
    if moves == [] then idx
    else
      var i := if moves[0] == Forward then SaveAndNext(idx, count) else Prev(idx);
      Walk(i, count, moves[1..])
  }

  /** No sequence of presses leaves the loaded questions. */
  lemma {:induction false} WalkStaysInRange(idx: int, count: int, moves: seq<Move>)
    requires 0 <= idx < count
    ensures 0 <= Walk(idx, count, moves) < count
    decreases |moves|
  {
    if moves != [] {
      var i := if moves[0] == Forward then SaveAndNext(idx, count) else Prev(idx);
      WalkStaysInRange(i, count, moves[1..]);
    }
  }

  /** k presses of "Next" advance k questions, stopping at the last one. */
  lemma {:induction false} NextStopsAtLast(idx: int, count: int, k: nat)
    requires 0 <= idx < count
    ensures Walk(idx, count, seq(k, _ => Forward)) == Min(idx + k, count - 1)
    decreases k
  {
    if k > 0 {
      var moves := seq(k, _ => Forward);
      assert moves[0] == Forward;
      assert moves[1..] == seq(k - 1, _ => Forward);
      NextStopsAtLast(SaveAndNext(idx, count), count, k - 1);
    }
  }

  // ---- submit ----

  /** One entry of the submit payload. */
  datatype PayloadAnswer = PayloadAnswer(questionId: int, selected: string)

  datatype Payload = Payload(skillId: int, answers: seq<PayloadAnswer>)

  /** `answers[q.id] || ""`. */
  function Selected(answers: map<int, string>, qid: int): (s: string)
    ensures s != "" <==> Answered(answers, qid)
    ensures s != "" ==> s == answers[qid]
  {
    if Answered(answers, qid) then answers[qid] else ""
  }

  /** `handleSubmit`: nothing is sent without a chosen skill (`skillId` is None when
      falsy) or without questions; otherwise one entry per loaded question, in order. */
  function SubmitPayload(skillId: Option<int>, questions: seq<int>, answers: map<int, string>): (p: Option<Payload>)
    ensures p.Some? <==> skillId.Some? && skillId.value != 0 && |questions| > 0
    ensures p.Some? ==>
      && p.value.skillId == skillId.value
      && |p.value.answers| == |questions|
      && forall i :: 0 <= i < |questions| ==>
           && p.value.answers[i].questionId == questions[i]
           && (p.value.answers[i].selected != "" <==> Answered(answers, questions[i]))
           && (Answered(answers, questions[i]) ==> p.value.answers[i].selected == answers[questions[i]])
  {
    if skillId.None? || skillId.value == 0 || |questions| == 0 then None
    else
      Some(Payload(skillId.value,
        seq(|questions|, i requires 0 <= i < |questions| => PayloadAnswer(questions[i], Selected(answers, questions[i])))))
  }

  /** How the attempts route reads the payload: a non-zero skill id, and every
      empty selection falsy. */
  function AsSubmitBody(p: Payload): (b: Quiz.SubmitBody)
    ensures b.skillId == (if p.skillId == 0 then None else Some(p.skillId))
    ensures b.answers.Some? && |b.answers.value| == |p.answers|
    ensures forall i :: 0 <= i < |p.answers| ==>
      && b.answers.value[i].questionId == p.answers[i].questionId
      && Quiz.Picked(b.answers.value[i]) == p.answers[i].selected
  {
    var answers := seq(|p.answers|, i requires 0 <= i < |p.answers| =>
      Quiz.AnswerIn(p.answers[i].questionId, if p.answers[i].selected == "" then None else Some(p.answers[i].selected)));
    Quiz.SubmitBody(if p.skillId == 0 then None else Some(p.skillId), Some(answers))
  }

  /** A quiz loaded for a skill (its distinct stored questions) and submitted by the
      panel passes the route's checks and is scored over every loaded question,
      answered or not. */
  lemma LoadedQuizIsSubmitted(db: Store.Db, userId: int, skillId: int, questions: seq<int>, answers: map<int, string>)
    requires skillId != 0 && |questions| > 0
    requires Quiz.Distinct(questions)
    requires forall i :: 0 <= i < |questions| ==> questions[i] in db.questions && db.questions[questions[i]].skillId == skillId
    ensures SubmitPayload(Some(skillId), questions, answers).Some?
    ensures var r := Quiz.Submit(db, userId, AsSubmitBody(SubmitPayload(Some(skillId), questions, answers).value), Quiz.NoFault);
      && r.outcome.Submitted?
      && r.outcome.attempt.skillId == skillId
      && r.outcome.attempt.total == |questions|
  {
    var p := SubmitPayload(Some(skillId), questions, answers).value;
    var b := AsSubmitBody(p);
    assert Quiz.Ids(b.answers.value) == questions;
    Quiz.QuestionSetCheck(db, questions, skillId);
  }

  // ---- the timer's auto-submit ----

  /** What one render of the panel closes over: the chosen skill and the answers. */
  datatype Panel = Panel(skillId: Option<int>, answers: map<int, string>)

  /** The auto-submit as written. The interval callback is created by
      `loadQuestionsAndStart` and calls the `handleSubmit` of the render in which
      Start was clicked (`atStart`), passing only the loaded questions afresh. That
      render's `answers` predate the start's `setAnswers({})`, so what the user
      chooses during the quiz (`now`) never reaches the payload. */
  function AutoSubmitAsWritten(atStart: Panel, loaded: seq<int>, now: Panel): (p: Option<Payload>)
    ensures p.Some? <==> atStart.skillId.Some? && atStart.skillId.value != 0 && |loaded| > 0
    ensures p.Some? ==>
      && |p.value.answers| == |loaded|
      && forall i :: 0 <= i < |loaded| ==> p.value.answers[i].selected == Selected(atStart.answers, loaded[i])
  {
    SubmitPayload(atStart.skillId, loaded, atStart.answers)
  }

  /** On a first quiz (nothing answered before Start) a timed-out quiz is sent with
      every selection empty, whatever was chosen meanwhile; and no choice made
      during the quiz changes what is sent. */
  lemma AutoSubmitDropsChoices(skillId: int, loaded: seq<int>, now: Panel, later: Panel)
    requires skillId != 0 && |loaded| > 0
    ensures var p := AutoSubmitAsWritten(Panel(Some(skillId), map[]), loaded, now);
      p.Some? && forall i :: 0 <= i < |loaded| ==> p.value.answers[i].selected == ""
    ensures AutoSubmitAsWritten(Panel(Some(skillId), map[]), loaded, now)
      == AutoSubmitAsWritten(Panel(Some(skillId), map[]), loaded, later)
  {
  }

  /** The auto-submit as intended: the payload of the current render, as a click on
      Submit at that moment would send it. */
  function AutoSubmit(loaded: seq<int>, now: Panel): (p: Option<Payload>)
    ensures p.Some? <==> now.skillId.Some? && now.skillId.value != 0 && |loaded| > 0
    ensures p.Some? ==>
      && |p.value.answers| == |loaded|
      && forall i :: 0 <= i < |loaded| ==>
           && p.value.answers[i].questionId == loaded[i]
           && p.value.answers[i].selected == Selected(now.answers, loaded[i])
  {
    SubmitPayload(now.skillId, loaded, now.answers)
  }

  /** One tick of the corrected timer: the tick that reaches zero sends the current
      answers, and no other tick sends anything. */
  function TickSends(prev: nat, loaded: seq<int>, now: Panel): (sent: Option<Payload>)
    ensures sent.Some? ==> TickTimer(prev).autoSubmit && sent == AutoSubmit(loaded, now)
    ensures TickTimer(prev).autoSubmit && now.skillId.Some? && now.skillId.value != 0 && |loaded| > 0 ==> sent.Some?
  {
    if TickTimer(prev).autoSubmit then AutoSubmit(loaded, now) else None
  }

  /** Corrected, every choice made before time runs out is sent: a quiz answered
      "A" then "B" and left to time out sends both choices, where the code as
      written sends two empty selections. */
  lemma TimedOutQuizKeepsChoices()
    ensures var now := Panel(Some(7), map[1 := "A", 2 := "B"]);
      && TickSends(1, [1, 2], now) == Some(Payload(7, [PayloadAnswer(1, "A"), PayloadAnswer(2, "B")]))
      && AutoSubmitAsWritten(Panel(Some(7), map[]), [1, 2], now) == Some(Payload(7, [PayloadAnswer(1, ""), PayloadAnswer(2, "")]))
  {
    var now := Panel(Some(7), map[1 := "A", 2 := "B"]);
    var p := TickSends(1, [1, 2], now).value;
    assert Selected(now.answers, 1) == "A" && Selected(now.answers, 2) == "B";
    assert p.answers == [PayloadAnswer(1, "A"), PayloadAnswer(2, "B")];
    var q := AutoSubmitAsWritten(Panel(Some(7), map[]), [1, 2], now).value;
    assert q.answers == [PayloadAnswer(1, ""), PayloadAnswer(2, "")];
  }

  // ---- pass / fail chart ----

  /** One row of the attempts list as the dashboard sees it. */
  datatype AttemptRow = AttemptRow(skillId: int, skill: string, score: int, total: nat)

  /** `(score / total) * 100 >= 50` over integers: half the questions or more. A
      zero total divides to +Infinity (a pass) for a positive score and to NaN or
      -Infinity (a fail) otherwise. */
  predicate IsPass(a: AttemptRow) {
    if a.total == 0 then a.score > 0 else 2 * a.score >= a.total
  }

  lemma QuotientAtLeastHalf(s: real, t: real)
    requires t > 0.0
    ensures s / t >= 0.5 <==> 2.0 * s >= t
  {
    var v := s / t;
    assert t * v == s;
    if 2.0 * s >= t {
      RealCancelLe(t, 0.5, v);
    } else {
      RealCancelLt(t, v, 0.5);
    }
  }

  /** For a positive total, the predicate agrees with the percentage test on the
      exact quotient. */
  lemma IsPassIsHalfOrMore(a: AttemptRow)
    requires a.total > 0
    ensures IsPass(a) <==> (a.score as real / a.total as real) * 100.0 >= 50.0
  {
    QuotientAtLeastHalf(a.score as real, a.total as real);
    assert (2 * a.score) as real == 2.0 * (a.score as real);
  }

  /** The number of passing rows. */
  function CountPass(items: seq<AttemptRow>): (n: nat)
    ensures n <= |items|
  {
    if items == [] then 0
    else CountPass(items[..|items| - 1]) + (if IsPass(items[|items| - 1]) then 1 else 0)
  }

  /** `passFail`: every attempt is counted once, as a pass or as a fail. */
  method PassFail(items: seq<AttemptRow>) returns (pass: nat, fail: nat)
    ensures pass + fail == |items|
    ensures pass == CountPass(items)
  {
    pass, fail := 0, 0;
    var i := 0;
    while i < |items|
      invariant 0 <= i <= |items|
      invariant pass == CountPass(items[..i])
      invariant pass + fail == i
    {
      assert items[..i + 1][..i] == items[..i];
      if IsPass(items[i]) {
        pass := pass + 1;
      } else {
        fail := fail + 1;
      }
      i := i + 1;
    }
    assert items[..i] == items;
  }

  /** All passes, all fails, and a mixed list. */
  method PassFailExample() returns (pass: nat, fail: nat)
    ensures pass == 2 && fail == 2
  {
    var items := [AttemptRow(1, "SQL", 5, 10), AttemptRow(1, "SQL", 4, 10), AttemptRow(2, "Go", 0, 0), AttemptRow(2, "Go", 3, 0)];
    assert items[..1] == [items[0]] && items[..2] == items[..1] + [items[1]];
    assert items[..3] == items[..2] + [items[2]] && items[..4] == items;
    assert CountPass(items[..1]) == 1;
    assert CountPass(items[..2]) == 1;
    assert CountPass(items[..3]) == 1;
    assert CountPass(items) == 2;
    pass, fail := PassFail(items);
  }

  // ---- per-skill chart ----

  /** One entry of the `agg` map: skill id, the first name seen, score and total sums. */
  datatype SkillAgg = SkillAgg(skillId: int, skill: string, s: int, t: nat)

  /** One bar of the chart. */
  datatype SkillAvg = SkillAvg(skill: string, avg: int)

  /** Where skill `id` sits in the map's entries, or -1. */
  function IndexOfSkill(agg: seq<SkillAgg>, id: int): (k: int)
    ensures -1 <= k < |agg|
    ensures k >= 0 ==> agg[k].skillId == id
    ensures k < 0 ==> forall i :: 0 <= i < |agg| ==> agg[i].skillId != id
  {
    if agg == [] then -1
    else if agg[0].skillId == id then 0
    else
      var k := IndexOfSkill(agg[1..], id);
      if k < 0 then -1 else k + 1
  }

  /** One loop step: add the attempt to its skill's entry, or append a new entry. */
  function AddAttempt(agg: seq<SkillAgg>, a: AttemptRow): seq<SkillAgg> {
    var k := IndexOfSkill(agg, a.skillId);
    if k < 0 then agg + [SkillAgg(a.skillId, a.skill, a.score, a.total)]
    else agg[k := agg[k].(s := agg[k].s + a.score, t := agg[k].t + a.total)]
  }

  /** The entries of `agg` after the loop, in insertion order. */
  function Aggregate(items: seq<AttemptRow>): seq<SkillAgg> {
    if items == [] then []
    else AddAttempt(Aggregate(items[..|items| - 1]), items[|items| - 1])
  }

  // The reference the entries are checked against.

  function SkillIds(items: seq<AttemptRow>): set<int> {
    set i | 0 <= i < |items| :: items[i].skillId
  }

  function AggIds(agg: seq<SkillAgg>): set<int> {
    set i | 0 <= i < |agg| :: agg[i].skillId
  }

  predicate DistinctSkills(agg: seq<SkillAgg>) {
    forall i, j :: 0 <= i < j < |agg| ==> agg[i].skillId != agg[j].skillId
  }

  /** The scores of skill `id`'s attempts, summed. */
  function SumScore(items: seq<AttemptRow>, id: int): int {
    if items == [] then 0
    else SumScore(items[..|items| - 1], id) + (if items[|items| - 1].skillId == id then items[|items| - 1].score else 0)
  }

  /** The totals of skill `id`'s attempts, summed. */
  function SumTotal(items: seq<AttemptRow>, id: int): nat {
    if items == [] then 0
    else SumTotal(items[..|items| - 1], id) + (if items[|items| - 1].skillId == id then items[|items| - 1].total else 0)
  }

  lemma {:induction false} AbsentSkillSumsZero(items: seq<AttemptRow>, id: int)
    requires id !in SkillIds(items)
    ensures SumScore(items, id) == 0 && SumTotal(items, id) == 0
  {
    if items != [] {
      var pre := items[..|items| - 1];
      assert SkillIds(pre) <= SkillIds(items) by {
        forall x | x in SkillIds(pre) ensures x in SkillIds(items) {
          var i :| 0 <= i < |pre| && pre[i].skillId == x;
          assert items[i].skillId == x;
        }
      }
      assert items[|items| - 1].skillId in SkillIds(items);
      AbsentSkillSumsZero(pre, id);
    }
  }

  lemma SkillIdsSnoc(items: seq<AttemptRow>)
    requires items != []
    ensures SkillIds(items) == SkillIds(items[..|items| - 1]) + {items[|items| - 1].skillId}
  {
    var pre := items[..|items| - 1];
    forall x ensures x in SkillIds(items) <==> x in SkillIds(pre) + {items[|items| - 1].skillId} {
      if x in SkillIds(items) {
        var i :| 0 <= i < |items| && items[i].skillId == x;
        if i < |items| - 1 {
          assert pre[i].skillId == x;
        }
      }
      if x in SkillIds(pre) {
        var i :| 0 <= i < |pre| && pre[i].skillId == x;
        assert items[i].skillId == x;
      }
    }
  }

  /** The loop leaves one entry per skill that occurs, holding the sum of that
      skill's scores and the sum of its totals. */
  lemma AggIdsSnoc(agg: seq<SkillAgg>, e: SkillAgg)
    ensures AggIds(agg + [e]) == AggIds(agg) + {e.skillId}
  {
    var r := agg + [e];
    forall x ensures x in AggIds(r) <==> x in AggIds(agg) + {e.skillId} {
      if x in AggIds(r) {
        var i :| 0 <= i < |r| && r[i].skillId == x;
        if i < |agg| {
          assert agg[i].skillId == x;
        }
      }
      if x == e.skillId {
        assert r[|agg|].skillId == x;
      }
      if x in AggIds(agg) {
        var i :| 0 <= i < |agg| && agg[i].skillId == x;
        assert r[i].skillId == x;
      }
    }
  }

  lemma AggIdsSameSkills(agg0: seq<SkillAgg>, agg: seq<SkillAgg>)
    requires |agg| == |agg0| && forall i :: 0 <= i < |agg| ==> agg[i].skillId == agg0[i].skillId
    ensures AggIds(agg) == AggIds(agg0)
  {
    forall x ensures x in AggIds(agg) <==> x in AggIds(agg0) {
      if x in AggIds(agg) {
        var i :| 0 <= i < |agg| && agg[i].skillId == x;
        assert agg0[i].skillId == x;
      }
      if x in AggIds(agg0) {
        var i :| 0 <= i < |agg0| && agg0[i].skillId == x;
        assert agg[i].skillId == x;
      }
    }
  }

  lemma {:induction false} AggregateIsPerSkillSums(items: seq<AttemptRow>)
    ensures var agg := Aggregate(items);
      && DistinctSkills(agg)
      && AggIds(agg) == SkillIds(items)
      && forall i :: 0 <= i < |agg| ==> agg[i].s == SumScore(items, agg[i].skillId) && agg[i].t == SumTotal(items, agg[i].skillId)
  {
    if items != [] {
      var pre := items[..|items| - 1];
      var a := items[|items| - 1];
      AggregateIsPerSkillSums(pre);
      SkillIdsSnoc(items);
      var agg0 := Aggregate(pre);
      var agg := Aggregate(items);
      assert agg == AddAttempt(agg0, a);
      var k := IndexOfSkill(agg0, a.skillId);
      if k < 0 {
        assert a.skillId !in AggIds(agg0);
        AbsentSkillSumsZero(pre, a.skillId);
        assert agg == agg0 + [SkillAgg(a.skillId, a.skill, a.score, a.total)];
        AggIdsSnoc(agg0, SkillAgg(a.skillId, a.skill, a.score, a.total));
      } else {
        AggIdsSameSkills(agg0, agg);
        assert a.skillId in AggIds(agg0);
      }
    }
  }

  /** The bar for an entry: `t ? Math.round((s / t) * 100) : 0`. */
  function Average(r: SkillAgg): SkillAvg {
    SkillAvg(r.skill, Percent(r.s, r.t))
  }

  function Averages(agg: seq<SkillAgg>): (r: seq<SkillAvg>)
    ensures |r| == |agg| && forall i :: 0 <= i < |agg| ==> r[i] == Average(agg[i])
  {
    seq(|agg|, i requires 0 <= i < |agg| => Average(agg[i]))
  }

  /** The sort key of `(a, b) => b.avg - a.avg`: higher averages first. */
  function Descending(r: SkillAvg): int {
    -r.avg
  }

  /** Every bar, highest average first (ties keep the order skills first appeared). */
  function Ranked(items: seq<AttemptRow>): (r: seq<SkillAvg>)
    ensures forall i, j :: 0 <= i < j < |r| ==> r[i].avg >= r[j].avg
    ensures multiset(r) == multiset(Averages(Aggregate(items)))
  {
    var r := SortBy(Averages(Aggregate(items)), Descending);
    assert forall i, j :: 0 <= i < j < |r| ==> Descending(r[i]) <= Descending(r[j]);
    r
  }

  /** `bySkill`: the first eight bars of the ranking. */
  function BySkill(items: seq<AttemptRow>): (r: seq<SkillAvg>)
    ensures |r| == Min(8, |Aggregate(items)|)
    ensures forall i, j :: 0 <= i < j < |r| ==> r[i].avg >= r[j].avg
    ensures forall i :: 0 <= i < |r| ==> r[i] in Averages(Aggregate(items))
    ensures forall i, j :: 0 <= i < |r| <= j < |Ranked(items)| ==> r[i].avg >= Ranked(items)[j].avg
    ensures multiset(r) <= multiset(Averages(Aggregate(items)))
  {
    var ranked := Ranked(items);
    PrefixOfPermutation(ranked, Averages(Aggregate(items)), Min(8, |ranked|));
    ranked[..Min(8, |ranked|)]
  }

  /** A prefix of a permutation of t holds a sub-multiset of t, so each of its
      elements is in t. */
  lemma PrefixOfPermutation<T>(s: seq<T>, t: seq<T>, n: nat)
    requires multiset(s) == multiset(t) && n <= |s|
    ensures |s| == |t|
    ensures multiset(s[..n]) <= multiset(t)
    ensures forall i :: 0 <= i < n ==> s[i] in t
  {
    assert |multiset(s)| == |multiset(t)|;
    assert s == s[..n] + s[n..];
    assert multiset(s) == multiset(s[..n]) + multiset(s[n..]);
    forall i | 0 <= i < n ensures s[i] in t {
      assert s[i] in multiset(s);
    }
  }

  /** When no attempt scores above its total, neither does any skill's sum. */
  lemma {:induction false} SumsBounded(items: seq<AttemptRow>, id: int)
    requires forall i :: 0 <= i < |items| ==> 0 <= items[i].score <= items[i].total
    ensures 0 <= SumScore(items, id) <= SumTotal(items, id)
  {
    if items != [] {
      SumsBounded(items[..|items| - 1], id);
    }
  }

  /** Each bar is its skill's rounded percentage of all points, and lies in [0, 100]
      when no attempt scores above its total. */
  lemma BarsAreSkillPercents(items: seq<AttemptRow>)
    requires forall i :: 0 <= i < |items| ==> 0 <= items[i].score <= items[i].total
    ensures forall i :: 0 <= i < |BySkill(items)| ==>
      exists id :: id in SkillIds(items) && BySkill(items)[i].avg == Percent(SumScore(items, id), SumTotal(items, id))
    ensures forall i :: 0 <= i < |BySkill(items)| ==> 0 <= BySkill(items)[i].avg <= 100
  {
    var r := BySkill(items);
    forall i | 0 <= i < |r|
      ensures exists id :: id in SkillIds(items) && r[i].avg == Percent(SumScore(items, id), SumTotal(items, id))
      ensures 0 <= r[i].avg <= 100
    {
      AverageIsSkillPercent(items, r[i]);
    }
  }

  /** Any per-skill average is some skill's percentage of its summed points. */
  lemma {:induction false} AverageIsSkillPercent(items: seq<AttemptRow>, b: SkillAvg)
    requires forall i :: 0 <= i < |items| ==> 0 <= items[i].score <= items[i].total
    requires b in Averages(Aggregate(items))
    ensures exists id :: id in SkillIds(items) && b.avg == Percent(SumScore(items, id), SumTotal(items, id))
    ensures 0 <= b.avg <= 100
  {
    var agg := Aggregate(items);
    AggregateIsPerSkillSums(items);
    var avgs := Averages(agg);
    var j :| 0 <= j < |avgs| && avgs[j] == b;
    var id := agg[j].skillId;
    assert id in AggIds(agg);
    SumsBounded(items, id);
  }

  /** Two SQL attempts and one Go attempt give SQL 75% (15 of 20) above Go 50%. */
  lemma BySkillExample()
    ensures BySkill([AttemptRow(2, "Go", 1, 2), AttemptRow(1, "SQL", 5, 10), AttemptRow(1, "SQL", 10, 10)])
      == [SkillAvg("SQL", 75), SkillAvg("Go", 50)]
  {
    var items := [AttemptRow(2, "Go", 1, 2), AttemptRow(1, "SQL", 5, 10), AttemptRow(1, "SQL", 10, 10)];
    var one := [SkillAgg(2, "Go", 1, 2)];
    var two := one + [SkillAgg(1, "SQL", 5, 10)];
    assert items[..|items| - 1] == [items[0], items[1]];
    assert [items[0], items[1]][..1] == [items[0]];
    assert Aggregate([items[0]]) == one by {
      assert [items[0]][..0] == [];
    }
    assert IndexOfSkill(one, 1) == -1;
    assert Aggregate([items[0], items[1]]) == two;
    assert IndexOfSkill(two, 1) == 1 by {
      assert two[1..] == [SkillAgg(1, "SQL", 5, 10)];
    }
    assert Aggregate(items) == [SkillAgg(2, "Go", 1, 2), SkillAgg(1, "SQL", 15, 20)];
    RoundDivIs(100, 2, 50);
    RoundDivIs(1500, 20, 75);
    assert Averages(Aggregate(items)) == [SkillAvg("Go", 50), SkillAvg("SQL", 75)];
  }
}

=== FILE: pager.dfy ===
/** The client's pager (frontend/src/components/Pagination.tsx, repeated as `Pager`
    in frontend/src/pages/Dashboard.tsx): page count and the Prev / Next buttons. */
module Pager {
  import opened Common
  import opened Arith

  /** What the pager shows: the page count, and for each button its target page
      and whether it is disabled. */
  datatype View = View(pages: int, prevTarget: int, prevDisabled: bool, nextTarget: int, nextDisabled: bool)

  /** `Math.max(1, Math.ceil(total / pageSize))`: enough pages for every item, at least one. */
  function PageCount(total: int, pageSize: int): (pages: int)
    requires pageSize > 0
    ensures pages >= 1
    ensures total <= pages * pageSize
    ensures total > 0 ==> (pages - 1) * pageSize < total
    ensures total <= pageSize ==> pages == 1
  {
    var c := CeilDiv(total, pageSize);
    assert total <= pageSize ==> c <= 1 by {
      if total <= pageSize {
        MulCancelLt(pageSize, c - 1, 1);
      }
    }
    assert c < 1 ==> total <= pageSize * 0 by {
      if c < 1 {
        MulMonotone(pageSize, c, 0);
      }
    }
    Max(1, c)
  }

  /** The pager for `page` of `total` items shown `pageSize` at a time. */
  function Render(page: int, pageSize: int, total: int): (v: View)
    requires pageSize > 0
    ensures v.pages == PageCount(total, pageSize)
    ensures v.prevTarget == Max(1, page - 1) && (v.prevDisabled <==> page <= 1)
    ensures v.nextTarget == Min(v.pages, page + 1) && (v.nextDisabled <==> page >= v.pages)
  {
    var pages := PageCount(total, pageSize);
    View(pages, Max(1, page - 1), page <= 1, Min(pages, page + 1), page >= pages)
  }

  /** From a page in range, both buttons lead to pages in range, and a button is
      disabled exactly when it would lead back to the current page. */
  lemma TargetsStayInRange(page: int, pageSize: int, total: int)
    requires pageSize > 0
    requires 1 <= page <= PageCount(total, pageSize)
    ensures var v := Render(page, pageSize, total);
      && 1 <= v.prevTarget <= v.pages && 1 <= v.nextTarget <= v.pages
      && (v.prevDisabled <==> v.prevTarget == page)
      && (v.nextDisabled <==> v.nextTarget == page)
      && (!v.prevDisabled ==> v.prevTarget == page - 1)
      && (!v.nextDisabled ==> v.nextTarget == page + 1)
  {
  }

  /** No items still make one page; 25 items at ten per page make three. */
  lemma PagerExamples()
    ensures PageCount(0, 10) == 1
    ensures PageCount(25, 10) == 3
    ensures PageCount(30, 10) == 3
    ensures Render(1, 10, 25) == View(3, 1, true, 2, false)
    ensures Render(3, 10, 25) == View(3, 2, false, 3, true)
  {
  }
}

=== FILE: pagination.dfy ===
/** `getPagination` (backend/src/utils/pagination.ts): turning the `page` and
    `pageSize` query values into a clamped page, page size, SQL OFFSET and LIMIT. */
module Pagination {
  import opened Common
  import opened Arith

  /** A query value as `getPagination` sees it: missing, the empty string, a number,
      or a non-empty numeric string such as "0" (truthy, unlike the number 0). */
  datatype QueryValue = Absent | EmptyText | Num(n: int) | NumText(n: int)

  /** JavaScript falsiness of a query value: what makes `q.page || 1` take the default. */
  predicate Falsy(v: QueryValue) {
    v.Absent? || v.EmptyText? || v == Num(0)
  }

  /** `Number(v || fallback)`. */
  function NumberOr(v: QueryValue, fallback: int): int {
    if Falsy(v) then fallback else v.n
  }

  datatype Page = Page(page: int, pageSize: int, offset: int, limit: int)

  const MaxPageSize := 100
  const DefaultPageSize := 10

  /** `getPagination(q)`. */
  function GetPagination(page: QueryValue, pageSize: QueryValue): (r: Page)
    ensures r.page >= 1 && 1 <= r.pageSize <= MaxPageSize
    ensures r.limit == r.pageSize && r.offset == (r.page - 1) * r.pageSize
    ensures Falsy(page) ==> r.page == 1
    ensures !Falsy(page) && page.n >= 1 ==> r.page == page.n
    ensures !Falsy(page) && page.n < 1 ==> r.page == 1
    ensures Falsy(pageSize) ==> r.pageSize == DefaultPageSize
    ensures !Falsy(pageSize) && 1 <= pageSize.n <= MaxPageSize ==> r.pageSize == pageSize.n
    ensures !Falsy(pageSize) && pageSize.n < 1 ==> r.pageSize == 1
    ensures !Falsy(pageSize) && pageSize.n > MaxPageSize ==> r.pageSize == MaxPageSize
  {
    var p := Max(1, NumberOr(page, 1));
    var size := Min(MaxPageSize, Max(1, NumberOr(pageSize, DefaultPageSize)));
    Page(p, size, (p - 1) * size, size)
  }

  /** The offset is never negative and always a whole number of pages. */
  lemma OffsetIsWholePages(page: QueryValue, pageSize: QueryValue)
    ensures var r := GetPagination(page, pageSize);
      r.offset >= 0 && r.offset % r.limit == 0 && r.offset / r.limit == r.page - 1
  {
    var r := GetPagination(page, pageSize);
    var q := r.page - 1;
    assert r.offset == r.limit * q;
    MulDivExact(r.limit, q);
    MulMonotone(r.limit, 0, q);
  }

  /** Feeding a result's page and page size back in reproduces the result. */
  lemma ClampIsIdempotent(page: QueryValue, pageSize: QueryValue)
    ensures var r := GetPagination(page, pageSize);
      GetPagination(Num(r.page), Num(r.pageSize)) == r
  {
  }

  /** The rows `LIMIT limit OFFSET offset` selects from an ordered result. */
  function Window<T>(items: seq<T>, r: Page): (w: seq<T>)
    requires r.offset >= 0 && r.limit >= 0
    ensures |w| == Max(0, Min(r.limit, |items| - r.offset))
    ensures forall i :: 0 <= i < |w| ==> w[i] == items[r.offset + i]
  {
    if r.offset >= |items| then [] else items[r.offset..Min(r.offset + r.limit, |items|)]
  }

  /** The item at position i is shown on page i / pageSize + 1, at position i % pageSize. */
  lemma EveryItemOnItsPage<T>(items: seq<T>, i: nat, size: int)
    requires i < |items| && 1 <= size <= MaxPageSize
    ensures var r := GetPagination(Num(i / size + 1), Num(size));
      var w := Window(items, r);
      i % size < |w| && w[i % size] == items[i]
  {
    var q := i / size;
    DivModSplit(i, size);
    var r := GetPagination(Num(q + 1), Num(size));
    assert r.page == q + 1 && r.pageSize == size;
    assert r.offset == q * size;
  }

  /** i is q whole pages of `size` items plus m more, with m < size. */
  lemma DivModSplit(i: nat, size: int)
    requires size >= 1
    ensures i / size >= 0 && 0 <= i % size < size
    ensures i == (i / size) * size + i % size
  {
  }

  /** Pages 1 and 3 of 25 items, ten per page: a full page, then the last five items;
      a numeric 0 page size means the default, the text "0" means one item per page. */
  lemma PaginationExamples()
    ensures GetPagination(Num(3), Num(10)) == Page(3, 10, 20, 10)
    ensures |Window(seq(25, i => i), GetPagination(Num(1), Num(10)))| == 10
    ensures Window(seq(25, i => i), GetPagination(Num(3), Num(10))) == [20, 21, 22, 23, 24]
    ensures GetPagination(Absent, Num(0)).pageSize == 10
    ensures GetPagination(Absent, NumText(0)).pageSize == 1
    ensures GetPagination(Absent, Absent) == Page(1, 10, 0, 10)
  {
  }
}

=== FILE: questions.dfy ===
/** The administrators' question routes (backend/src/routes/questions.ts): create
    with field and correct-option validation, partial update, delete. */
module Questions {
  import opened Common
  import opened Tokens
  import opened Auth
  import opened Store
  import Quiz

  const MissingFields := HttpError(400, "missing fields")
  const CorrectOptionMissing := HttpError(400, "correctOption must exist in options")

  /** The create body. A field is None when it is absent or falsy; Some("") for the
      text or the correct option is falsy as well. `skillId` is the `Number` of a
      truthy value and `correctOption` its `String`. */
  datatype CreateBody = CreateBody(
    skillId: Option<int>,
    text: Option<string>,
    options: Option<map<string, string>>,
    correctOption: Option<string>)

  /** The patch body. Each field is None when it is `undefined`. */
  datatype PatchBody = PatchBody(text: Option<string>, options: Option<map<string, string>>, correctOption: Option<string>)

  /** A route's answer: an error, the (re-read) question row, or a message. */
  datatype Reply = Denied(error: HttpError) | Row(question: Option<Question>) | Note(message: string)

  datatype Change = Change(db: Db, reply: Reply)

  /** `!skillId || !text || !options || !correctOption` does not hold. */
  predicate FieldsPresent(b: CreateBody) {
    && b.skillId.Some?
    && b.text.Some? && b.text.value != ""
    && b.options.Some?
    && b.correctOption.Some? && b.correctOption.value != ""
  }

  /** The properties a plain object parsed from JSON inherits from `Object.prototype`.
      Reading any of them gives a function or, for `__proto__`, an object: a truthy value. */
  const InheritedNames: set<string> := {
    "constructor", "hasOwnProperty", "isPrototypeOf", "propertyIsEnumerable",
    "toLocaleString", "toString", "valueOf", "__proto__",
    "__defineGetter__", "__defineSetter__", "__lookupGetter__", "__lookupSetter__"}

  /** `options[key]` is truthy: an own option with non-empty text, or, when there is
      no own option of that name, a property inherited from `Object.prototype`. */
  predicate OptionTruthy(options: map<string, string>, key: string) {
    if key in options then options[key] != "" else key in InheritedNames
  }

  /** `POST /`: 400 for a missing field, 400 when reading the correct option from the
      options gives a falsy value; otherwise the question is inserted under the next id. */
  function Create(db: Db, b: CreateBody): (r: Change)
    ensures !FieldsPresent(b) ==> r == Change(db, Denied(MissingFields))
    ensures FieldsPresent(b) && !OptionTruthy(b.options.value, b.correctOption.value) ==>
      r == Change(db, Denied(CorrectOptionMissing))
    ensures r.reply.Row? <==> FieldsPresent(b) && OptionTruthy(b.options.value, b.correctOption.value)
    ensures r.reply.Row? ==>
      var q := Question(b.skillId.value, b.text.value, b.options.value, b.correctOption.value);
      && r.reply.question == Some(q)
      && (CorrectOptionValid(q) <==> q.correctOption in q.options)
      && r.db == db.(questions := db.questions[db.nextQuestionId := q], nextQuestionId := db.nextQuestionId + 1)
  {
    if !FieldsPresent(b) then Change(db, Denied(MissingFields))
    else if !OptionTruthy(b.options.value, b.correctOption.value) then Change(db, Denied(CorrectOptionMissing))
    else
      var q := Question(b.skillId.value, b.text.value, b.options.value, b.correctOption.value);
      Change(db.(questions := db.questions[db.nextQuestionId := q], nextQuestionId := db.nextQuestionId + 1), Row(Some(q)))
  }

  /** Create never overwrites a stored question and keeps ids fresh. It keeps every
      stored correct option valid exactly when the question it inserts names one of
      its own options: an inherited name passes the truthiness check but is no option. */
  lemma CreateKeepsQuestionsValid(db: Db, b: CreateBody)
    requires QuestionsValid(db) && FreshIds(db)
    ensures var r := Create(db, b);
      && FreshIds(r.db)
      && (forall id :: id in db.questions ==> id in r.db.questions && r.db.questions[id] == db.questions[id])
      && (QuestionsValid(r.db) <==> (r.reply.Row? ==> b.correctOption.value in b.options.value))
  {
    var r := Create(db, b);
    if r.reply.Row? {
      assert r.db.questions[db.nextQuestionId] == r.reply.question.value;
    }
  }

  /** A correct option named after an inherited property, such as "toString", passes
      the check and is stored although no option has that name. */
  lemma InheritedNamePassesCreate()
    ensures var db := Db(map[], 1, [], [], 1);
      var r := Create(db, CreateBody(Some(1), Some("q"), Some(map["A" := "4"]), Some("toString")));
      && QuestionsValid(db)
      && r.reply == Row(Some(Question(1, "q", map["A" := "4"], "toString")))
      && !QuestionsValid(r.db)
  {
    var b := CreateBody(Some(1), Some("q"), Some(map["A" := "4"]), Some("toString"));
    assert "toString" !in map["A" := "4"];
    assert OptionTruthy(b.options.value, b.correctOption.value);
    var r := Create(Db(map[], 1, [], [], 1), b);
    assert !CorrectOptionValid(r.db.questions[1]);
  }

  predicate NoUpdates(b: PatchBody) {
    b.text.None? && b.options.None? && b.correctOption.None?
  }

  /** `PATCH /:id`: without any of the three fields nothing is written; otherwise
      exactly the supplied fields of question `id` change, and the row is re-read
      (none when the id is unknown, in which case nothing changes). */
  function Patch(db: Db, id: int, b: PatchBody): (r: Change)
    ensures NoUpdates(b) ==> r == Change(db, Note("nothing to update"))
    ensures !NoUpdates(b) && id !in db.questions ==> r == Change(db, Row(None))
    ensures !NoUpdates(b) && id in db.questions ==>
      var old_ := db.questions[id];
      && r.db.questions.Keys == db.questions.Keys
      && r.reply == Row(Some(r.db.questions[id]))
      && (forall k :: k in db.questions && k != id ==> r.db.questions[k] == db.questions[k])
      && r.db.questions[id].skillId == old_.skillId
      && r.db.questions[id].text == (if b.text.Some? then b.text.value else old_.text)
      && r.db.questions[id].options == (if b.options.Some? then b.options.value else old_.options)
      && r.db.questions[id].correctOption == (if b.correctOption.Some? then b.correctOption.value else old_.correctOption)
      && r.db == db.(questions := r.db.questions)
  {
    if NoUpdates(b) then Change(db, Note("nothing to update"))
    else if id !in db.questions then Change(db, Row(None))
    else
      var q := db.questions[id];
      var q' := q.(
        text := if b.text.Some? then b.text.value else q.text,
        options := if b.options.Some? then b.options.value else q.options,
        correctOption := if b.correctOption.Some? then b.correctOption.value else q.correctOption);
      Change(db.(questions := db.questions[id := q']), Row(Some(q')))
  }

  /** Applying the same patch twice has the effect of applying it once. */
  lemma PatchIsIdempotent(db: Db, id: int, b: PatchBody)
    ensures Patch(Patch(db, id, b).db, id, b).db == Patch(db, id, b).db
  {
  }

  /** The patch does not re-check the correct option: a valid store and a patch
      naming an option key that does not exist leave a question whose correct option
      is not among its options. */
  lemma PatchCanInvalidateCorrectOption()
    ensures var db := Db(map[1 := Question(3, "2+2?", map["A" := "4", "B" := "5"], "A")], 2, [], [], 1);
      && QuestionsValid(db)
      && !QuestionsValid(Patch(db, 1, PatchBody(None, None, Some("Z"))).db)
  {
    var db := Db(map[1 := Question(3, "2+2?", map["A" := "4", "B" := "5"], "A")], 2, [], [], 1);
    assert CorrectOptionValid(db.questions[1]);
    var r := Patch(db, 1, PatchBody(None, None, Some("Z")));
    assert r.db.questions[1].correctOption == "Z";
    assert "Z" !in r.db.questions[1].options;
  }

  /** `POST` refuses an empty correct option but `PATCH` stores one, and then an
      unanswered question scores: a submission leaving question 1 blank gets 1 of 1. */
  lemma PatchedEmptyKeyScoresBlank()
    ensures var db := Db(map[1 := Question(3, "2+2?", map["A" := "4", "B" := "5"], "A")], 2, [], [], 1);
      var patched := Patch(db, 1, PatchBody(None, None, Some(""))).db;
      && Quiz.Score(db, [1], 3, [Quiz.AnswerIn(1, None)]) == 0
      && Quiz.Score(patched, [1], 3, [Quiz.AnswerIn(1, None)]) == 1
  {
    var db := Db(map[1 := Question(3, "2+2?", map["A" := "4", "B" := "5"], "A")], 2, [], [], 1);
    var patched := Patch(db, 1, PatchBody(None, None, Some(""))).db;
    assert patched.questions[1].correctOption == "";
    assert 1 in Quiz.Matching(db, [1], 3) && 1 in Quiz.Matching(patched, [1], 3);
    Quiz.EmptyPickScoresOnlyEmptyKey(db, [1], 3, Quiz.AnswerIn(1, None));
    Quiz.EmptyPickScoresOnlyEmptyKey(patched, [1], 3, Quiz.AnswerIn(1, None));
  }

  /** A patch that supplies no correct option and no options keeps a valid question valid. */
  lemma TextPatchKeepsQuestionsValid(db: Db, id: int, text: string)
    requires QuestionsValid(db)
    ensures QuestionsValid(Patch(db, id, PatchBody(Some(text), None, None)).db)
  {
  }

  /** `DELETE /:id`: the question is gone and nothing else changes (the answer is the
      same whether or not it existed). */
  function Delete(db: Db, id: int): (r: Change)
    ensures id !in r.db.questions
    ensures forall k :: k != id ==> (k in r.db.questions <==> k in db.questions)
    ensures forall k :: k in r.db.questions ==> r.db.questions[k] == db.questions[k]
    ensures r.db == db.(questions := r.db.questions) && r.reply == Note("deleted")
  {
    Change(db.(questions := db.questions - {id}), Note("deleted"))
  }

  /** Deleting keeps stored questions valid; deleting twice is deleting once. */
  lemma DeleteKeepsQuestionsValid(db: Db, id: int)
    requires QuestionsValid(db)
    ensures QuestionsValid(Delete(db, id).db)
    ensures Delete(Delete(db, id).db, id) == Delete(db, id)
  {
  }

  // ---- the routes behind `requireAuth, requireRole("ADMIN")` ----

  datatype Request = CreateReq(body: CreateBody) | PatchReq(id: int, patch: PatchBody) | DeleteReq(id: int)

  /** A write request on the question routes, gated for administrators. */
  function Handle(cookies: map<string, string>, verify: Verifier, db: Db, req: Request): (r: Change)
    ensures AuthorizeRole(cookies, verify, ADMIN).Err? ==>
      r == Change(db, Denied(AuthorizeRole(cookies, verify, ADMIN).error))
    ensures AuthorizeRole(cookies, verify, ADMIN).Ok? ==>
      r == match req
        case CreateReq(b) => Create(db, b)
        case PatchReq(id, b) => Patch(db, id, b)
        case DeleteReq(id) => Delete(db, id)
  {
    match AuthorizeRole(cookies, verify, ADMIN)
    case Err(e) => Change(db, Denied(e))
    case Ok(_) =>
      match req
      case CreateReq(b) => Create(db, b)
      case PatchReq(id, b) => Patch(db, id, b)
      case DeleteReq(id) => Delete(db, id)
  }

  /** A signed-in USER's create, patch or delete is answered 403 and changes nothing;
      without a session it is answered 401. */
  lemma OnlyAdminsWriteQuestions(cookies: map<string, string>, verify: Verifier, db: Db, req: Request, p: Principal,
                                 fields: map<string, Json>)
    requires HasToken(cookies) && p.username != "" && p.role == USER
    requires verify(Access, cookies["auth"]) == Some(DClaims(JObj(fields)))
    requires CarriesClaims(fields, ClaimsOf(p))
    ensures Handle(cookies, verify, db, req) == Change(db, Denied(Forbidden))
    ensures Handle(map[], verify, db, req) == Change(db, Denied(Unauthenticated))
  {
    AdminRoutesNeedAdmin(cookies, verify, p, fields);
  }
}

=== FILE: quiz.dfy ===
/** `POST /attempts` and the scoping rule of `GET /attempts`
    (backend/src/routes/quiz.ts). */
module Quiz {
  import opened Common
  import opened Tokens
  import opened Auth
  import opened Store
  import opened Pagination

  const MissingInput := HttpError(400, "skillId and answers[] required")
  const InvalidQuestionSet := HttpError(400, "invalid question set")

  /** One submitted answer. `selected` is None for every falsy value, otherwise the
      `String` of the value. */
  datatype AnswerIn = AnswerIn(questionId: int, selected: Option<string>)

  /** The request body: `skillId` is None when falsy, otherwise its `Number`;
      `answers` is None when it is not an array. */
  datatype SubmitBody = SubmitBody(skillId: Option<int>, answers: Option<seq<AnswerIn>>)

  /** Where the store can fail: acquiring the connection (before anything is checked),
      or any statement of the write transaction (which is then rolled back). */
  datatype Fault = NoFault | ConnectionFails | WriteFails

  datatype Outcome = Rejected(error: HttpError) | Failed | Submitted(attempt: Attempt)

  datatype Submission = Submission(db: Db, outcome: Outcome)

  // ---- sequences of ids ----

  function Elems(xs: seq<int>): set<int> {
    set x | x in xs
  }

  predicate Distinct(xs: seq<int>) {
    forall i, j :: 0 <= i < j < |xs| ==> xs[i] != xs[j]
  }

  /** A sequence has at most as many distinct values as entries, and exactly as many
      when no value repeats. */
  lemma {:induction false} ElemsCard(xs: seq<int>)
    ensures |Elems(xs)| <= |xs|
    ensures |Elems(xs)| == |xs| <==> Distinct(xs)
  {
    if xs != [] {
      var rest := xs[1..];
      ElemsCard(rest);
      assert Elems(xs) == {xs[0]} + Elems(rest) by {
        forall x ensures x in Elems(xs) <==> x in {xs[0]} + Elems(rest) {
          if x in xs && x != xs[0] {
            var i :| 0 <= i < |xs| && xs[i] == x;
            assert rest[i - 1] == x;
          }
        }
      }
      if xs[0] in rest {
        var k :| 0 <= k < |rest| && rest[k] == xs[0];
        assert xs[k + 1] == xs[0];
        assert !Distinct(xs);
      } else {
        assert |Elems(xs)| == 1 + |Elems(rest)|;
        assert Distinct(xs) <==> Distinct(rest) by {
          if Distinct(rest) {
            forall i, j | 0 <= i < j < |xs| ensures xs[i] != xs[j] {
              if i == 0 { assert xs[j] == rest[j - 1]; } else { assert xs[i] == rest[i - 1] && xs[j] == rest[j - 1]; }
            }
          }
          if Distinct(xs) {
            forall i, j | 0 <= i < j < |rest| ensures rest[i] != rest[j] {
              assert rest[i] == xs[i + 1] && rest[j] == xs[j + 1];
            }
          }
        }
      }
    }
  }

  lemma SubsetSameCardEqual(a: set<int>, b: set<int>)
    requires a <= b && |a| == |b|
    ensures a == b
  {
    assert b == a + (b - a);
    assert |b - a| == 0;
    assert b - a == {};
  }

  // ---- validation and the question-set check ----

  /** `!skillId || !Array.isArray(answers) || !answers.length` fails. */
  predicate InputPresent(body: SubmitBody) {
    body.skillId.Some? && body.answers.Some? && |body.answers.value| > 0
  }

  function Ids(answers: seq<AnswerIn>): (ids: seq<int>)
    ensures |ids| == |answers| && forall i :: 0 <= i < |ids| ==> ids[i] == answers[i].questionId
  {
    seq(|answers|, i requires 0 <= i < |answers| => answers[i].questionId)
  }

  /** The ids the `WHERE id IN (...) AND skill_id = ?` query returns, each once. */
  function Matching(db: Db, ids: seq<int>, skillId: int): set<int> {
    set id | id in db.questions && id in ids && db.questions[id].skillId == skillId
  }

  predicate QuestionSetOk(db: Db, ids: seq<int>, skillId: int) {
    |Matching(db, ids, skillId)| == |ids|
  }

  /** The question-set check passes exactly when the submitted ids are pairwise
      distinct and each names a stored question of the chosen skill: unknown ids,
      other skills' ids and repeated ids are all refused. */
  lemma QuestionSetCheck(db: Db, ids: seq<int>, skillId: int)
    ensures QuestionSetOk(db, ids, skillId) <==>
      Distinct(ids) && forall i :: 0 <= i < |ids| ==> ids[i] in db.questions && db.questions[ids[i]].skillId == skillId
  {
    var m := Matching(db, ids, skillId);
    assert m <= Elems(ids);
    ElemsCard(ids);
    if QuestionSetOk(db, ids, skillId) {
      assert |m| <= |Elems(ids)| by { SubsetCard(m, Elems(ids)); }
      SubsetSameCardEqual(m, Elems(ids));
      forall i | 0 <= i < |ids| ensures ids[i] in db.questions && db.questions[ids[i]].skillId == skillId {
        assert ids[i] in Elems(ids);
      }
    }
    if Distinct(ids) && forall i :: 0 <= i < |ids| ==> ids[i] in db.questions && db.questions[ids[i]].skillId == skillId {
      assert m == Elems(ids) by {
        forall x | x in Elems(ids) ensures x in m {
          var i :| 0 <= i < |ids| && ids[i] == x;
        }
      }
    }
  }

  lemma SubsetCard(a: set<int>, b: set<int>)
    requires a <= b
    ensures |a| <= |b|
  {
    assert b == a + (b - a);
  }

  // ---- scoring ----

  /** `String(a.selected || "")`. */
  function Picked(a: AnswerIn): string {
    if a.selected.Some? then a.selected.value else ""
  }

  /** `map.get(questionId)` over the matched questions: their correct option. */
  function CorrectFor(db: Db, ids: seq<int>, skillId: int, questionId: int): Option<string> {
    if questionId in Matching(db, ids, skillId) then Some(db.questions[questionId].correctOption) else None
  }

  predicate AnswerOk(db: Db, ids: seq<int>, skillId: int, a: AnswerIn) {
    CorrectFor(db, ids, skillId, a.questionId) == Some(Picked(a))
  }

  /** How many of `answers` match their question's correct option. */
  function Score(db: Db, ids: seq<int>, skillId: int, answers: seq<AnswerIn>): (n: nat)
    ensures n <= |answers|
  {
    if answers == [] then 0
    else (if AnswerOk(db, ids, skillId, answers[0]) then 1 else 0) + Score(db, ids, skillId, answers[1..])
  }

  /** The `quiz_answers` rows: one per answer, in submission order. */
  function Rows(db: Db, ids: seq<int>, skillId: int, attemptId: int, answers: seq<AnswerIn>): (rows: seq<AnswerRow>)
    ensures |rows| == |answers|
    ensures forall i :: 0 <= i < |rows| ==>
      rows[i] == AnswerRow(attemptId, answers[i].questionId, Picked(answers[i]), AnswerOk(db, ids, skillId, answers[i]))
  {
    seq(|answers|, i requires 0 <= i < |answers| =>
      AnswerRow(attemptId, answers[i].questionId, Picked(answers[i]), AnswerOk(db, ids, skillId, answers[i])))
  }

  function CountCorrect(rows: seq<AnswerRow>): nat {
    if rows == [] then 0 else (if rows[0].isCorrect then 1 else 0) + CountCorrect(rows[1..])
  }

  /** The attempt's score is the number of its answer rows flagged correct. */
  lemma {:induction false} ScoreIsCorrectRows(db: Db, ids: seq<int>, skillId: int, attemptId: int, answers: seq<AnswerIn>)
    ensures Score(db, ids, skillId, answers) == CountCorrect(Rows(db, ids, skillId, attemptId, answers))
  {
    if answers != [] {
      ScoreIsCorrectRows(db, ids, skillId, attemptId, answers[1..]);
      assert Rows(db, ids, skillId, attemptId, answers)[1..] == Rows(db, ids, skillId, attemptId, answers[1..]);
    }
  }

  /** An answer without a selection (none, or "") is right exactly when its question
      is matched and that question's correct option is itself "": the comparison is
      of `String(a.selected || "")` with the stored key. */
  lemma EmptyPickScoresOnlyEmptyKey(db: Db, ids: seq<int>, skillId: int, a: AnswerIn)
    requires Picked(a) == ""
    ensures AnswerOk(db, ids, skillId, a) <==>
      a.questionId in Matching(db, ids, skillId) && db.questions[a.questionId].correctOption == ""
  {
  }

  /** Every matched question has a non-empty correct option, as `POST /questions`
      demands (a `PATCH` can still store ""). */
  predicate KeysNonEmpty(db: Db, ids: seq<int>, skillId: int) {
    forall id :: id in Matching(db, ids, skillId) ==> db.questions[id].correctOption != ""
  }

  /** With non-empty correct options, unanswered questions never score: no answer
      without a selection is right, and a submission of only such answers scores 0. */
  lemma {:induction false} UnansweredNeverScores(db: Db, ids: seq<int>, skillId: int, answers: seq<AnswerIn>)
    requires KeysNonEmpty(db, ids, skillId)
    ensures forall i :: 0 <= i < |answers| && Picked(answers[i]) == "" ==> !AnswerOk(db, ids, skillId, answers[i])
    ensures (forall i :: 0 <= i < |answers| ==> Picked(answers[i]) == "") ==> Score(db, ids, skillId, answers) == 0
  {
    if answers != [] {
      UnansweredNeverScores(db, ids, skillId, answers[1..]);
      assert forall i :: 1 <= i < |answers| ==> answers[i] == answers[1..][i - 1];
    }
  }

  // ---- the handler ----

  /** `POST /attempts` for the authenticated user `userId`: validation and the
      question-set check answer 400 before anything is written; on success the
      attempt and all its answer rows are written together; a failing write rolls
      back to the store as it was. */
  function Submit(db: Db, userId: int, body: SubmitBody, fault: Fault): (r: Submission)
    ensures r.outcome.Submitted? <==>
      fault == NoFault && InputPresent(body) && QuestionSetOk(db, Ids(body.answers.value), body.skillId.value)
    ensures !r.outcome.Submitted? ==> r.db == db
    ensures fault != ConnectionFails && !InputPresent(body) ==> r.outcome == Rejected(MissingInput)
    ensures fault != ConnectionFails && InputPresent(body) && !QuestionSetOk(db, Ids(body.answers.value), body.skillId.value) ==>
      r.outcome == Rejected(InvalidQuestionSet)
    ensures r.outcome.Submitted? ==>
      var answers := body.answers.value;
      var ids := Ids(answers);
      var skillId := body.skillId.value;
      var a := r.outcome.attempt;
      && a == Attempt(db.nextAttemptId, userId, skillId, Score(db, ids, skillId, answers), |answers|)
      && 0 <= a.score <= a.total
      && r.db.questions == db.questions && r.db.nextQuestionId == db.nextQuestionId
      && r.db.attempts == db.attempts + [a]
      && r.db.answers == db.answers + Rows(db, ids, skillId, a.id, answers)
      && r.db.nextAttemptId == db.nextAttemptId + 1
  {
    if fault == ConnectionFails then Submission(db, Failed)
    else if !InputPresent(body) then Submission(db, Rejected(MissingInput))
    else
      var answers := body.answers.value;
      var ids := Ids(answers);
      var skillId := body.skillId.value;
      if |Matching(db, ids, skillId)| != |ids| then Submission(db, Rejected(InvalidQuestionSet))
      else if fault == WriteFails then Submission(db, Failed)
      else
        assert fault == NoFault && QuestionSetOk(db, ids, skillId);
        var a := Attempt(db.nextAttemptId, userId, skillId, Score(db, ids, skillId, answers), |Matching(db, ids, skillId)|);
        var written := db.(
          attempts := db.attempts + [a],
          answers := db.answers + Rows(db, ids, skillId, a.id, answers),
          nextAttemptId := db.nextAttemptId + 1);
        Submission(written, Submitted(a))
  }

  /** A successful submission keeps auto-increment ids fresh and stored questions
      valid, and its answer rows all point at the new attempt. */
  lemma SubmitKeepsStoreInvariants(db: Db, userId: int, body: SubmitBody, fault: Fault)
    requires FreshIds(db) && QuestionsValid(db)
    ensures var r := Submit(db, userId, body, fault);
      && FreshIds(r.db) && QuestionsValid(r.db)
      && (r.outcome.Submitted? ==>
            && r.outcome.attempt.id !in (set i | 0 <= i < |db.attempts| :: db.attempts[i].id)
            && forall k :: |db.answers| <= k < |r.db.answers| ==> r.db.answers[k].attemptId == r.outcome.attempt.id)
  {
  }

  /** The attempt's score counts correct rows and the answer rows are the answers in
      order; the score never exceeds the number of answers. */
  lemma SubmittedRowsMatchScore(db: Db, userId: int, body: SubmitBody)
    requires Submit(db, userId, body, NoFault).outcome.Submitted?
    ensures var r := Submit(db, userId, body, NoFault);
      var a := r.outcome.attempt;
      var written := r.db.answers[|db.answers|..];
      && |written| == a.total == |body.answers.value|
      && a.score == CountCorrect(written)
      && forall i :: 0 <= i < |written| ==> written[i].questionId == body.answers.value[i].questionId
  {
    var r := Submit(db, userId, body, NoFault);
    var answers := body.answers.value;
    var rows := Rows(db, Ids(answers), body.skillId.value, r.outcome.attempt.id, answers);
    assert r.db.answers[|db.answers|..] == rows;
    ScoreIsCorrectRows(db, Ids(answers), body.skillId.value, r.outcome.attempt.id, answers);
  }

  /** Five questions of skill 7, keyed A, A, B, C and D. */
  const ExampleDb := Db(map[1 := Question(7, "q1", map["A" := "a"], "A"),
                            2 := Question(7, "q2", map["A" := "a"], "A"),
                            3 := Question(7, "q3", map["B" := "b"], "B"),
                            4 := Question(7, "q4", map["C" := "c"], "C"),
                            5 := Question(7, "q5", map["D" := "d"], "D")], 6, [], [], 1)

  /** One answer per example question; the first, third and fourth are right. */
  const ExampleAnswers := [AnswerIn(1, Some("A")), AnswerIn(2, Some("B")), AnswerIn(3, Some("B")),
                           AnswerIn(4, Some("C")), AnswerIn(5, Some("X"))]

  lemma ExampleQuestionSetOk()
    ensures Ids(ExampleAnswers) == [1, 2, 3, 4, 5]
    ensures QuestionSetOk(ExampleDb, [1, 2, 3, 4, 5], 7)
  {
    var ids := Ids(ExampleAnswers);
    assert ids == [1, 2, 3, 4, 5];
    assert Distinct(ids);
    QuestionSetCheck(ExampleDb, ids, 7);
  }

  lemma ExampleScore()
    ensures Score(ExampleDb, [1, 2, 3, 4, 5], 7, ExampleAnswers) == 3
  {
    var ids := [1, 2, 3, 4, 5];
    var answers := ExampleAnswers;
    assert Score(ExampleDb, ids, 7, answers[4..]) == 0;
    assert Score(ExampleDb, ids, 7, answers[3..]) == 1;
    assert Score(ExampleDb, ids, 7, answers[2..]) == 2;
    assert Score(ExampleDb, ids, 7, answers[1..]) == 2;
  }

  /** The five example questions answered A, B, B, C and X are stored as an attempt
      scoring 3 of 5. */
  lemma ScoringExample()
    ensures Submit(ExampleDb, 42, SubmitBody(Some(7), Some(ExampleAnswers)), NoFault).outcome == Submitted(Attempt(1, 42, 7, 3, 5))
  {
    ExampleQuestionSetOk();
    ExampleScore();
  }

  // ---- GET /attempts scoping ----

  /** Which attempts a listing covers. */
  datatype Scope = OnlyUser(userId: int) | Everyone

  /** `GET /attempts`: `userId` is None when the query value is missing or not a
      number; the number 0 is falsy too. */
  function ListScope(me: Principal, userId: Option<int>): (r: Result<Scope, HttpError>)
    ensures (userId.None? || userId == Some(0)) ==>
      r == Ok(if me.role == ADMIN then Everyone else OnlyUser(me.sub))
    ensures userId.Some? && userId.value != 0 ==>
      (r.Err? <==> !SelfOrAdmin(me, userId.value)) && (r.Err? ==> r.error == Forbidden)
      && (r.Ok? ==> r.value == OnlyUser(userId.value))
  {
    if userId.Some? && userId.value != 0 then
      if me.role != ADMIN && me.sub != userId.value then Err(Forbidden) else Ok(OnlyUser(userId.value))
    else if me.role != ADMIN then Ok(OnlyUser(me.sub))
    else Ok(Everyone)
  }

  /** The attempts a scope selects, in store order. */
  function Visible(scope: Scope, attempts: seq<Attempt>): (v: seq<Attempt>)
    ensures forall a :: a in v <==> a in attempts && (scope.OnlyUser? ==> a.userId == scope.userId)
    ensures |v| <= |attempts|
  {
    if attempts == [] then []
    else
      var rest := Visible(scope, attempts[1..]);
      if scope.Everyone? || attempts[0].userId == scope.userId then [attempts[0]] + rest else rest
  }

  /** A non-administrator's listing holds only their own attempts, whatever they ask
      for; an administrator without a user filter sees every attempt. */
  lemma ListingIsScoped(me: Principal, userId: Option<int>, attempts: seq<Attempt>)
    ensures me.role != ADMIN && ListScope(me, userId).Ok? ==>
      forall a :: a in Visible(ListScope(me, userId).value, attempts) ==> a.userId == me.sub
    ensures me.role != ADMIN && ListScope(me, userId).Err? ==>
      ListScope(me, userId).error == Forbidden && userId.Some? && userId.value != me.sub
    ensures me.role == ADMIN && (userId.None? || userId == Some(0)) ==> Visible(ListScope(me, userId).value, attempts) == attempts
  {
    if me.role == ADMIN && (userId.None? || userId == Some(0)) {
      VisibleEveryone(attempts);
    }
  }

  lemma {:induction false} VisibleEveryone(attempts: seq<Attempt>)
    ensures Visible(Everyone, attempts) == attempts
  {
    if attempts != [] {
      VisibleEveryone(attempts[1..]);
      assert [attempts[0]] + attempts[1..] == attempts;
    }
  }

  /** The body of a `GET /attempts` reply: one page of the scope's attempts, and the
      number of attempts in the whole scope. */
  datatype Listing = Listing(items: seq<Attempt>, total: nat)

  /** `GET /attempts`. `ordered` holds the store's attempts in the order of the
      query's `ORDER BY started_at DESC`, which the model takes as given. The page is
      cut with `LIMIT ? OFFSET ?` from `getPagination`; the count covers the whole
      scope. */
  function ListAttempts(me: Principal, userId: Option<int>, page: QueryValue, pageSize: QueryValue,
                        ordered: seq<Attempt>): (r: Result<Listing, HttpError>)
    ensures r.Err? <==> ListScope(me, userId).Err?
    ensures r.Err? ==> r.error == Forbidden
    ensures r.Ok? ==> |r.value.items| <= GetPagination(page, pageSize).pageSize
    ensures r.Ok? ==> |r.value.items| <= r.value.total <= |ordered|
    ensures r.Ok? ==> forall a :: a in r.value.items ==> a in ordered && (me.role != ADMIN ==> a.userId == me.sub)
    ensures r.Ok? ==> r.value.total == |Visible(ListScope(me, userId).value, ordered)|
  {
    match ListScope(me, userId)
    case Err(e) => Err(e)
    case Ok(scope) =>
      var all := Visible(scope, ordered);
      var p := GetPagination(page, pageSize);
      OffsetIsWholePages(page, pageSize);
      ListingIsScoped(me, userId, ordered);
      var items := Window(all, p);
      assert forall a :: a in items ==> a in all by {
        forall a | a in items ensures a in all {
          var i :| 0 <= i < |items| && items[i] == a;
          assert a == all[p.offset + i];
        }
      }
      Ok(Listing(items, |all|))
  }

  /** Paging through a listing finds every attempt of the scope: the i-th one (in the
      listing's order) is on page i / size + 1 at position i % size, and every page
      reports the same total. */
  lemma ListingPagesCoverScope(me: Principal, userId: Option<int>, ordered: seq<Attempt>, i: nat, size: int, other: QueryValue)
    requires ListScope(me, userId).Ok?
    requires i < |Visible(ListScope(me, userId).value, ordered)| && 1 <= size <= MaxPageSize
    ensures var r := ListAttempts(me, userId, Num(i / size + 1), Num(size), ordered);
      r.Ok? && i % size < |r.value.items|
      && r.value.items[i % size] == Visible(ListScope(me, userId).value, ordered)[i]
      && r.value.total == ListAttempts(me, userId, other, Num(size), ordered).value.total
  {
    var all := Visible(ListScope(me, userId).value, ordered);
    EveryItemOnItsPage(all, i, size);
    OffsetIsWholePages(Num(i / size + 1), Num(size));
  }
}

=== FILE: ratelimit.dfy ===
/** The in-memory per-IP fixed-window rate limiter (backend/src/middleware/rateLimit.ts)
    as a state machine over its map of hit records; the clock reading is a parameter. */
module RateLimit {
  import opened Common
  import opened Text

  /** Requests counted in the current window, and the time the window ends. */
  datatype Record = Record(count: int, reset: int)

  type Hits = map<string, Record>

  datatype Options = Options(windowMs: int, limit: int)

  const DefaultOptions := Options(60_000, 100)

  /** Let the request through, or answer 429 with a `Retry-After` in seconds. */
  datatype Verdict = Allowed | TooMany(retryAfter: int)

  datatype Step = Step(hits: Hits, verdict: Verdict)

  /** A window that ended strictly before now is over; at `now == reset` it still applies. */
  predicate WindowOpen(hits: Hits, ip: string, now: int) {
    ip in hits && now <= hits[ip].reset
  }

  /** One request from key `ip` at time `now`. */
  function Hit(o: Options, hits: Hits, ip: string, now: int): (r: Step)
    ensures r.hits.Keys == hits.Keys + {ip}
    ensures forall k :: k in hits && k != ip ==> r.hits[k] == hits[k]
    ensures !WindowOpen(hits, ip, now) ==> r.hits[ip] == Record(1, now + o.windowMs) && r.verdict == Allowed
    ensures WindowOpen(hits, ip, now) ==>
      && r.hits[ip] == Record(hits[ip].count + 1, hits[ip].reset)
      && (r.verdict == Allowed <==> hits[ip].count + 1 <= o.limit)
    ensures r.verdict.TooMany? ==>
      var wait := hits[ip].reset - now;
      r.verdict.retryAfter >= 0 && 1000 * (r.verdict.retryAfter - 1) < wait <= 1000 * r.verdict.retryAfter
  {
    if !WindowOpen(hits, ip, now) then
      Step(hits[ip := Record(1, now + o.windowMs)], Allowed)
    else
      var rec := Record(hits[ip].count + 1, hits[ip].reset);
      var verdict := if rec.count > o.limit then TooMany(RetryAfter(rec.reset - now)) else Allowed;
      Step(hits[ip := rec], verdict)
  }

  /** `Math.ceil(wait / 1000)` for a non-negative wait in milliseconds. */
  function RetryAfter(wait: int): (s: int)
    requires wait >= 0
    ensures s >= 0 && 1000 * (s - 1) < wait <= 1000 * s
  {
    (wait + 999) / 1000
  }

  /** Requests from one key at the given times, in order: the final map and how many
      were let through. */
  function Replay(o: Options, hits: Hits, ip: string, times: seq<int>): (Hits, nat)
    decreases |times|
  {
    if times == [] then (hits, 0)
    else
      var step := Hit(o, hits, ip, times[0]);
      var (h, n) := Replay(o, step.hits, ip, times[1..]);
      (h, n + (if step.verdict == Allowed then 1 else 0))
  }

  /** How many of m further requests pass when the window already holds c. */
  function PassedAfter(c: int, m: nat, limit: int): nat
    decreases m
  {
    if m == 0 then 0 else (if c + 1 <= limit then 1 else 0) + PassedAfter(c + 1, m - 1, limit)
  }

  lemma {:induction false} PassedAfterClosedForm(c: int, m: nat, limit: int)
    ensures PassedAfter(c, m, limit) == Max(0, Min(c + m, limit) - c)
    decreases m
  {
    if m > 0 {
      PassedAfterClosedForm(c + 1, m - 1, limit);
    }
  }

  /** While a window stays open, every request increments its count (rejected ones
      too) and passes exactly when the count it brings is within the limit. */
  lemma {:induction false} ReplayInsideWindow(o: Options, hits: Hits, ip: string, times: seq<int>)
    requires ip in hits
    requires forall i :: 0 <= i < |times| ==> times[i] <= hits[ip].reset
    ensures var (h, n) := Replay(o, hits, ip, times);
      && ip in h && h[ip] == Record(hits[ip].count + |times|, hits[ip].reset)
      && n == PassedAfter(hits[ip].count, |times|, o.limit)
    decreases |times|
  {
    if times != [] {
      var step := Hit(o, hits, ip, times[0]);
      ReplayInsideWindow(o, step.hits, ip, times[1..]);
    }
  }

  /** Within one window at most max(limit, 1) requests from a key get through: the
      one that opens the window always does, even with a limit of 0, and then
      requests pass until the count exceeds the limit. */
  lemma WindowAdmitsAtMostLimit(o: Options, hits: Hits, ip: string, times: seq<int>)
    requires |times| >= 1 && !WindowOpen(hits, ip, times[0])
    requires forall i :: 1 <= i < |times| ==> times[i] <= times[0] + o.windowMs
    ensures Replay(o, hits, ip, times).1 == Min(|times|, Max(o.limit, 1))
  {
    var step := Hit(o, hits, ip, times[0]);
    assert step.hits[ip] == Record(1, times[0] + o.windowMs);
    var rest := times[1..];
    assert forall i :: 0 <= i < |rest| ==> rest[i] <= step.hits[ip].reset by {
      forall i | 0 <= i < |rest| ensures rest[i] <= step.hits[ip].reset {
        assert rest[i] == times[i + 1];
      }
    }
    ReplayInsideWindow(o, step.hits, ip, rest);
    PassedAfterClosedForm(1, |rest|, o.limit);
  }

  /** The text before the first comma of s (`s.split(",")[0]`). */
  function FirstField(s: string): (r: string)
    ensures |r| <= |s| && r == s[..|r|]
    ensures forall i :: 0 <= i < |r| ==> r[i] != ','
    ensures |r| < |s| ==> s[|r|] == ','
  {
    if s == [] || s[0] == ',' then []
    else
      var rest := FirstField(s[1..]);
      assert s[..1 + |rest|] == [s[0]] + rest;
      [s[0]] + rest
  }

  /** The limiter's key: the trimmed first entry of `x-forwarded-for` when that is
      non-empty, else `req.ip` when that is non-empty, else "unknown". */
  function ClientKey(forwardedFor: Option<string>, reqIp: Option<string>): (k: string)
    ensures k != ""
    ensures forwardedFor.Some? && Trim(FirstField(forwardedFor.value)) != "" ==>
      k == Trim(FirstField(forwardedFor.value)) && IsTrimmed(k) && forall i :: 0 <= i < |k| ==> k[i] != ','
    ensures (forwardedFor.None? || Trim(FirstField(forwardedFor.value)) == "") ==>
      k == (if reqIp.Some? && reqIp.value != "" then reqIp.value else "unknown")
  {
    var fromHeader := if forwardedFor.Some? then Trim(FirstField(forwardedFor.value)) else "";
    if fromHeader != "" then
      TrimIsInfix(FirstField(forwardedFor.value));
      fromHeader
    else if reqIp.Some? && reqIp.value != "" then reqIp.value
    else "unknown"
  }

  /** The middleware: key the request, count it under that key, decide. */
  function Limit(o: Options, hits: Hits, forwardedFor: Option<string>, reqIp: Option<string>, now: int): (r: Step)
    ensures var k := ClientKey(forwardedFor, reqIp);
      && r.hits.Keys == hits.Keys + {k}
      && (forall other :: other in hits && other != k ==> r.hits[other] == hits[other])
      && (!WindowOpen(hits, k, now) ==> r.hits[k] == Record(1, now + o.windowMs) && r.verdict == Allowed)
      && (WindowOpen(hits, k, now) ==>
            && r.hits[k] == Record(hits[k].count + 1, hits[k].reset)
            && (r.verdict == Allowed <==> r.hits[k].count <= o.limit))
      && (r.verdict.TooMany? ==>
            var wait := hits[k].reset - now;
            r.verdict.retryAfter >= 0 && 1000 * (r.verdict.retryAfter - 1) < wait <= 1000 * r.verdict.retryAfter)
  {
    Hit(o, hits, ClientKey(forwardedFor, reqIp), now)
  }

  /** Two requests on a fresh limiter with limit 1: the second, 400 ms later, is
      refused and told to retry in one second; a third after the window is allowed. */
  lemma RateLimitExample()
    ensures var s1 := Hit(Options(1000, 1), map[], "1.2.3.4", 0);
      var s2 := Hit(Options(1000, 1), s1.hits, "1.2.3.4", 400);
      var s3 := Hit(Options(1000, 1), s2.hits, "1.2.3.4", 1001);
      && s1.verdict == Allowed && s2.verdict == TooMany(1) && s3.verdict == Allowed
      && s2.hits["1.2.3.4"] == Record(2, 1000) && s3.hits["1.2.3.4"] == Record(1, 2001)
  {
  }
}

=== FILE: reports.dfy ===
/** The report endpoints (backend/src/routes/reports.ts): who may read a report,
    the date-range clause, the per-skill performance mapping and the skill gaps. */
module Reports {
  import opened Common
  import opened Text
  import opened Arith
  import opened Sorting
  import opened Tokens
  import opened Auth

  // ---- access ----

  /** Both endpoints: a non-administrator may only read their own report. `userId`
      is `Number(req.params.userId)`. */
  function ReportAccess(me: Principal, userId: int): (g: Gate)
    ensures g == Next <==> SelfOrAdmin(me, userId)
    ensures g != Next ==> g == Stop(Forbidden) && me.role == USER
  {
    if me.role != ADMIN && me.sub != userId then Stop(Forbidden) else Next
  }

  // ---- rangeClause ----

  /** A bound of the range. Dates are opaque: an explicit bound keeps its query text;
      the period bounds are "now minus 7 days" and "now minus one month". */
  datatype DateParam = Given(text: string) | WeekAgo | MonthAgo

  datatype Range = Range(clause: string, params: seq<DateParam>)

  const LowerClause := " AND qa.started_at >= ?"
  const UpperClause := " AND qa.started_at <= ?"

  /** A query value is truthy when present and non-empty. */
  predicate Truthy(v: Option<string>) {
    v.Some? && v.value != ""
  }

  /** `String(q.period || "").toLowerCase()`. */
  function PeriodOf(period: Option<string>): string {
    if Truthy(period) then AsciiLower(period.value) else ""
  }

  /** The lower bound `rangeClause` picks: `from`, else the period's start. */
  function LowerBound(from: Option<string>, period: Option<string>): (b: Option<DateParam>)
    ensures Truthy(from) ==> b == Some(Given(from.value))
    ensures !Truthy(from) ==> (b.Some? <==> PeriodOf(period) == "week" || PeriodOf(period) == "month")
    ensures !Truthy(from) && b.Some? ==> b.value == (if PeriodOf(period) == "week" then WeekAgo else MonthAgo)
  {
    if Truthy(from) then Some(Given(from.value))
    else if PeriodOf(period) == "week" then Some(WeekAgo)
    else if PeriodOf(period) == "month" then Some(MonthAgo)
    else None
  }

  function CountChar(s: string, c: char): nat {
    if s == [] then 0 else (if s[0] == c then 1 else 0) + CountChar(s[1..], c)
  }

  lemma {:induction false} CountCharAppend(a: string, b: string, c: char)
    ensures CountChar(a + b, c) == CountChar(a, c) + CountChar(b, c)
  {
    if a == [] {
      assert a + b == b;
    } else {
      CountCharAppend(a[1..], b, c);
      assert (a + b)[0] == a[0];
      assert (a + b)[1..] == a[1..] + b;
    }
  }

  lemma {:induction false} CountCharAbsent(s: string, c: char)
    requires forall i :: 0 <= i < |s| ==> s[i] != c
    ensures CountChar(s, c) == 0
  {
    if s != [] {
      CountCharAbsent(s[1..], c);
    }
  }

  /** `rangeClause(q)`: a lower-bound condition when there is a lower bound, then an
      upper-bound condition when `to` is truthy, with one parameter per placeholder
      in the same order. */
  function RangeClause(from: Option<string>, to: Option<string>, period: Option<string>): (r: Range)
    ensures var lower := LowerBound(from, period);
      && r.clause == (if lower.Some? then LowerClause else "") + (if Truthy(to) then UpperClause else "")
      && |r.params| == (if lower.Some? then 1 else 0) + (if Truthy(to) then 1 else 0)
      && (lower.Some? ==> r.params[0] == lower.value)
      && (Truthy(to) ==> r.params[|r.params| - 1] == Given(to.value))
  {
    var lower := LowerBound(from, period);
    var lowerPart := if lower.Some? then Range(LowerClause, [lower.value]) else Range("", []);
    var upperPart := if Truthy(to) then Range(UpperClause, [Given(to.value)]) else Range("", []);
    Range(lowerPart.clause + upperPart.clause, lowerPart.params + upperPart.params)
  }

  /** A condition text without `?` followed by one `?` holds one placeholder. */
  lemma PlaceholderOnce(text: string)
    requires forall i :: 0 <= i < |text| ==> text[i] != '?'
    ensures CountChar(text + "?", '?') == 1
  {
    CountCharAbsent(text, '?');
    CountCharAppend(text, "?", '?');
  }

  lemma LowerClausePlaceholder()
    ensures CountChar(LowerClause, '?') == 1
  {
    var text := " AND qa.started_at >= ";
    assert forall i :: 0 <= i < |text| ==> text[i] != '?';
    assert LowerClause == text + "?";
    PlaceholderOnce(text);
  }

  lemma UpperClausePlaceholder()
    ensures CountChar(UpperClause, '?') == 1
  {
    var text := " AND qa.started_at <= ";
    assert forall i :: 0 <= i < |text| ==> text[i] != '?';
    assert UpperClause == text + "?";
    PlaceholderOnce(text);
  }

  lemma ClausePlaceholders()
    ensures CountChar(LowerClause, '?') == 1 && CountChar(UpperClause, '?') == 1
  {
    LowerClausePlaceholder();
    UpperClausePlaceholder();
  }

  /** The clause has exactly one `?` per parameter. */
  lemma PlaceholdersMatchParams(from: Option<string>, to: Option<string>, period: Option<string>)
    ensures var r := RangeClause(from, to, period);
      CountChar(r.clause, '?') == |r.params|
  {
    ClausePlaceholders();
    var lower := LowerBound(from, period);
    PlaceholdersOfParts(lower.Some?, Truthy(to), LowerClause, UpperClause);
  }

  /** Joining optional conditions of one `?` each gives one `?` per included condition. */
  lemma PlaceholdersOfParts(lowerOn: bool, upperOn: bool, lower: string, upper: string)
    requires CountChar(lower, '?') == 1 && CountChar(upper, '?') == 1
    ensures CountChar((if lowerOn then lower else "") + (if upperOn then upper else ""), '?') ==
      (if lowerOn then 1 else 0) + (if upperOn then 1 else 0)
  {
    CountCharAppend(if lowerOn then lower else "", if upperOn then upper else "", '?');
  }

  /** An explicit `from` makes `period` irrelevant; without `from` and `to` and with
      an unrecognised period there is no condition at all; the period is compared
      case-insensitively. */
  lemma FromOverridesPeriod(from: Option<string>, to: Option<string>, p1: Option<string>, p2: Option<string>)
    ensures Truthy(from) ==> RangeClause(from, to, p1) == RangeClause(from, to, p2)
    ensures RangeClause(None, None, Some("year")) == Range("", [])
    ensures RangeClause(None, None, Some("Week")) == Range(LowerClause, [WeekAgo])
    ensures RangeClause(None, Some("2024-01-31"), Some("MONTH")) == Range(LowerClause + UpperClause, [MonthAgo, Given("2024-01-31")])
  {
    assert AsciiLower("year") == "year";
    assert AsciiLower("Week") == "week";
    assert AsciiLower("MONTH") == "month";
  }

  // ---- performance ----

  /** A row of the per-skill `SUM(score)`, `SUM(total)` query. */
  datatype SkillSum = SkillSum(skillId: int, skill: string, sumScore: int, sumTotal: nat)

  datatype Performance = Performance(skillId: int, skill: string, avgPercent: int, attemptsTotal: nat)

  /** The response rows of the performance endpoint, in query order. */
  function PerformanceData(rows: seq<SkillSum>): (data: seq<Performance>)
    ensures |data| == |rows|
    ensures forall i :: 0 <= i < |data| ==>
      && data[i].skillId == rows[i].skillId && data[i].skill == rows[i].skill
      && data[i].attemptsTotal == rows[i].sumTotal
      && data[i].avgPercent == Percent(rows[i].sumScore, rows[i].sumTotal)
  {
    seq(|rows|, i requires 0 <= i < |rows| =>
      Performance(rows[i].skillId, rows[i].skill, Percent(rows[i].sumScore, rows[i].sumTotal), rows[i].sumTotal))
  }

  /** Each average is the nearest integer to 100 * sumScore / sumTotal (halves up),
      lies in [0, 100] when the score does not exceed the total, and is 0 for a zero total. */
  lemma AveragesAreRoundedPercents(rows: seq<SkillSum>, i: nat)
    requires i < |rows|
    ensures var d := PerformanceData(rows)[i];
      var s := rows[i].sumScore;
      var t := rows[i].sumTotal;
      && (t == 0 ==> d.avgPercent == 0)
      && (t > 0 ==> 2 * t * d.avgPercent <= 200 * s + t < 2 * t * d.avgPercent + 2 * t)
      && (0 <= s <= t ==> 0 <= d.avgPercent <= 100)
  {
  }

  /** 15 of 20 questions is 75%. */
  lemma PerformanceExample()
    ensures PerformanceData([SkillSum(1, "SQL", 15, 20)]) == [Performance(1, "SQL", 75, 20)]
  {
  }

  // ---- skill gaps ----

  /** A row of the per-skill aggregate: summed score and summed total. */
  datatype Agg = Agg(skillId: int, s: int, t: nat)

  datatype GapRow = GapRow(skillId: int, skill: string, userAvg: int, globalAvg: int, gap: int)

  /** The index of the last row with skill id `id`, or -1. */
  function LastIndex(aggs: seq<Agg>, id: int): (k: int)
    ensures -1 <= k < |aggs|
    ensures k >= 0 ==> aggs[k].skillId == id
    ensures forall j :: k < j < |aggs| ==> aggs[j].skillId != id
  {
    if aggs == [] then -1
    else if aggs[|aggs| - 1].skillId == id then |aggs| - 1
    else LastIndex(aggs[..|aggs| - 1], id)
  }

  /** `new Map(globalAgg.map(g => [g.skillId, g])).get(id)`: a later row with the
      same id overwrites an earlier one. */
  function FindLast(aggs: seq<Agg>, id: int): (g: Option<Agg>)
    ensures g.None? <==> forall i :: 0 <= i < |aggs| ==> aggs[i].skillId != id
    ensures g.Some? ==> g.value.skillId == id && g.value == aggs[LastIndex(aggs, id)]
  {
    var k := LastIndex(aggs, id);
    if k < 0 then None else Some(aggs[k])
  }

  /** An exact rational num / den with den > 0. */
  datatype Ratio = Ratio(num: int, den: int)

  /** `t ? (s / t) * 100 : 0` as an exact ratio. */
  function Pct(s: int, t: nat): (r: Ratio)
    ensures r.den > 0
    ensures t == 0 ==> r.num == 0
    ensures t > 0 ==> r.num * t == 100 * s * r.den
  {
    if t == 0 then Ratio(0, 1) else Ratio(100 * s, t)
  }

  /** `g && g.t ? (g.s / g.t) * 100 : 0`. */
  function GlobalPct(g: Option<Agg>): (r: Ratio)
    ensures r.den > 0
  {
    if g.Some? then Pct(g.value.s, g.value.t) else Ratio(0, 1)
  }

  /** The exact difference a - b. */
  function Minus(a: Ratio, b: Ratio): (r: Ratio)
    requires a.den > 0 && b.den > 0
    ensures r.den > 0
  {
    Ratio(a.num * b.den - b.num * a.den, a.den * b.den)
  }

  function Value(r: Ratio): real
    requires r.den > 0
  {
    r.num as real / r.den as real
  }

  lemma MinusValue(a: Ratio, b: Ratio)
    requires a.den > 0 && b.den > 0
    ensures Value(Minus(a, b)) == Value(a) - Value(b)
  {
    ToRealMul(a.num, b.den);
    ToRealMul(b.num, a.den);
    ToRealMul(a.den, b.den);
    RealSubFractions(a.num as real, a.den as real, b.num as real, b.den as real);
  }

  /** `Math.round` of a ratio. */
  function Round(r: Ratio): int
    requires r.den > 0
  {
    RoundDiv(r.num, r.den)
  }

  /** The rounded value is within one half of the exact one (a half rounds up). */
  lemma RoundIsNearest(r: Ratio)
    requires r.den > 0
    ensures Round(r) as real - 0.5 <= Value(r) < Round(r) as real + 0.5
  {
    RoundDivIsNearest(r.num, r.den);
  }

  /** One response row for the user's aggregate row u. */
  function Gap(u: Agg, global: seq<Agg>, names: map<int, string>): (row: GapRow)
    ensures row.skillId == u.skillId
  {
    var up := Pct(u.s, u.t);
    var gp := GlobalPct(FindLast(global, u.skillId));
    GapRow(u.skillId, if u.skillId in names then names[u.skillId] else "", Round(up), Round(gp), Round(Minus(up, gp)))
  }

  /** The gap is rounded from the exact difference of the two percentages, so it is
      the integer nearest to it and differs from `userAvg - globalAvg` by at most one. */
  lemma GapIsRoundedDifference(u: Agg, global: seq<Agg>, names: map<int, string>)
    ensures var row := Gap(u, global, names);
      var up := Pct(u.s, u.t);
      var gp := GlobalPct(FindLast(global, u.skillId));
      && row.gap as real - 0.5 <= Value(up) - Value(gp) < row.gap as real + 0.5
      && -1 <= row.gap - (row.userAvg - row.globalAvg) <= 1
  {
    var up := Pct(u.s, u.t);
    var gp := GlobalPct(FindLast(global, u.skillId));
    RoundIsNearest(up);
    RoundIsNearest(gp);
    RoundIsNearest(Minus(up, gp));
    MinusValue(up, gp);
  }

  /** The global percentage is 0 when the skill is missing from the global aggregate
      or its global total is 0, and then the gap is the user's rounded percentage. */
  lemma MissingGlobalMeansZero(u: Agg, global: seq<Agg>, names: map<int, string>)
    requires FindLast(global, u.skillId).None? || FindLast(global, u.skillId).value.t == 0
    ensures Value(GlobalPct(FindLast(global, u.skillId))) == 0.0
    ensures Gap(u, global, names).globalAvg == 0
    ensures Gap(u, global, names).gap == Gap(u, global, names).userAvg
  {
    var up := Pct(u.s, u.t);
    var gp := GlobalPct(FindLast(global, u.skillId));
    assert gp == Ratio(0, 1);
    assert Minus(up, gp) == up;
  }

  function GapKey(row: GapRow): int { row.gap }

  /** The skill-gap rows in user-aggregate order, before sorting. */
  function GapRows(users: seq<Agg>, global: seq<Agg>, names: map<int, string>): (rows: seq<GapRow>)
    ensures |rows| == |users|
    ensures forall i :: 0 <= i < |rows| ==> rows[i] == Gap(users[i], global, names)
  {
    seq(|users|, i requires 0 <= i < |users| => Gap(users[i], global, names))
  }

  /** The skill-gaps response: one row per user-aggregate row, ascending by gap. */
  function SkillGaps(users: seq<Agg>, global: seq<Agg>, names: map<int, string>): (data: seq<GapRow>)
    ensures |data| == |users|
    ensures SortedBy(data, GapKey)
    ensures multiset(data) == multiset(GapRows(users, global, names))
  {
    SortBy(GapRows(users, global, names), GapKey)
  }

  /** Every skill of the user's aggregate has its row in the response, and every
      response row belongs to one of them. */
  lemma OneRowPerUserSkill(users: seq<Agg>, global: seq<Agg>, names: map<int, string>)
    ensures var data := SkillGaps(users, global, names);
      && (forall i :: 0 <= i < |users| ==> Gap(users[i], global, names) in data)
      && (forall row :: row in data ==> exists i :: 0 <= i < |users| && row == Gap(users[i], global, names))
  {
    var data := SkillGaps(users, global, names);
    var rows := GapRows(users, global, names);
    forall i | 0 <= i < |users| ensures Gap(users[i], global, names) in data {
      assert rows[i] in multiset(rows);
    }
    forall row | row in data ensures exists i :: 0 <= i < |users| && row == Gap(users[i], global, names) {
      assert row in multiset(data);
      assert row in rows;
    }
  }

  /** A user at 75% against a global 80% has gap -5; a user at 12.5% against a global
      2.4% has averages 13 and 2 but gap 10, not 11. */
  lemma GapExamples()
    ensures Gap(Agg(1, 15, 20), [Agg(1, 80, 100)], map[1 := "SQL"]) == GapRow(1, "SQL", 75, 80, -5)
    ensures Gap(Agg(2, 1, 8), [Agg(2, 3, 125)], map[]) == GapRow(2, "", 13, 2, 10)
  {
    assert FindLast([Agg(1, 80, 100)], 1) == Some(Agg(1, 80, 100));
    assert FindLast([Agg(2, 3, 125)], 2) == Some(Agg(2, 3, 125));
  }
}

=== FILE: seed.dfy ===
/** `splitSql` (backend/scripts/seed.ts): a seed file split into statements at
    every match of `/;\s*(?:\r?\n|$)/g`, each piece trimmed, empty pieces dropped. */
module SeedSql {
  import opened Common
  import opened Text

  /** t holds no line feed. */
  predicate NoLineFeed(t: string) {
    forall i :: 0 <= i < |t| ==> t[i] != '\n'
  }

  /** The end of the whitespace run of s that starts at i. */
  function RunEnd(s: string, i: nat): (e: nat)
    requires i <= |s|
    ensures i <= e <= |s|
    ensures AllSpace(s[i..e])
    ensures e < |s| ==> !IsSpace(s[e])
    decreases |s| - i
  {
    if i < |s| && IsSpace(s[i]) then
      var e := RunEnd(s, i + 1);
      assert s[i..e] == [s[i]] + s[i + 1..e];
      e
    else i
  }

  /** The last line feed of s[lo..hi], if any. */
  function LastLineFeed(s: string, lo: nat, hi: nat): (j: Option<nat>)
    requires lo <= hi <= |s|
    ensures j.None? <==> NoLineFeed(s[lo..hi])
    ensures j.Some? ==> lo <= j.value < hi && s[j.value] == '\n' && NoLineFeed(s[j.value + 1..hi])
    decreases hi - lo
  {
    if hi == lo then None
    else if s[hi - 1] == '\n' then
      assert s[lo..hi][hi - 1 - lo] == '\n';
      Some(hi - 1)
    else
      var j := LastLineFeed(s, lo, hi - 1);
      assert s[lo..hi] == s[lo..hi - 1] + [s[hi - 1]];
      assert j.Some? ==> s[j.value + 1..hi] == s[j.value + 1..hi - 1] + [s[hi - 1]];
      j
  }

  /** Where a match of the separator pattern starting at index k ends, if one starts
      there. The pattern needs a ';' whose following whitespace run reaches the end of
      the input or holds a line feed; the greedy `\s*` then stretches the match to the
      end of the input, or else to just past the run's last line feed. */
  function MatchEnd(s: string, k: nat): (e: Option<nat>)
    requires k < |s|
    ensures e.Some? <==> s[k] == ';' && (RunEnd(s, k + 1) == |s| || !NoLineFeed(s[k + 1..RunEnd(s, k + 1)]))
    ensures e.Some? ==> k < e.value <= |s| && AllSpace(s[k + 1..e.value])
    ensures e.Some? && RunEnd(s, k + 1) == |s| ==> e.value == |s|
    ensures e.Some? && RunEnd(s, k + 1) < |s| ==>
      e.value <= RunEnd(s, k + 1) && s[e.value - 1] == '\n' && NoLineFeed(s[e.value..RunEnd(s, k + 1)])
  {
    if s[k] != ';' then None
    else
      var run := RunEnd(s, k + 1);
      if run == |s| then Some(|s|)
      else
        match LastLineFeed(s, k + 1, run)
        case None => None
        case Some(j) =>
          assert s[k + 1..j + 1] == s[k + 1..run][..j - k];
          Some(j + 1)
  }

  /** `String.prototype.split` with the separator pattern: the pieces of s[start..],
      scanning for a match from index k on. */
  function Pieces(s: string, start: nat, k: nat): (ps: seq<string>)
    requires start <= k <= |s|
    ensures |ps| >= 1
    decreases |s| - k
  {
    if k == |s| then [s[start..]]
    else
      match MatchEnd(s, k)
      case None => Pieces(s, start, k + 1)
      case Some(e) => [s[start..k]] + Pieces(s, e, e)
  }

  /** Every entry is a non-empty trimmed statement. */
  predicate Statements(r: seq<string>) {
    forall i :: 0 <= i < |r| ==> r[i] != "" && IsTrimmed(r[i])
  }

  lemma StatementsCons(t: string, rest: seq<string>)
    requires t != "" && IsTrimmed(t) && Statements(rest)
    ensures Statements([t] + rest)
  {
    var r := [t] + rest;
    forall i | 0 <= i < |r| ensures r[i] != "" && IsTrimmed(r[i]) {
      if i > 0 {
        assert r[i] == rest[i - 1];
      }
    }
  }

  /** `.map(s => s.trim()).filter(Boolean)`. */
  function Clean(pieces: seq<string>): (r: seq<string>)
    ensures Statements(r)
    ensures |r| <= |pieces|
  {
    if pieces == [] then []
    else
      var t := Trim(pieces[0]);
      var rest := Clean(pieces[1..]);
      if t == "" then rest
      else
        StatementsCons(t, rest);
        [t] + rest
  }

  /** `splitSql(sql)`: never an empty statement, never surrounding whitespace. */
  function SplitSql(sql: string): (r: seq<string>)
    ensures forall i :: 0 <= i < |r| ==> r[i] != "" && IsTrimmed(r[i])
  {
    Clean(Pieces(sql, 0, 0))
  }

  /** A ';' with other text after it on the same line is not a separator. */
  lemma SameLineSemicolonStays(s: string, k: nat, j: nat)
    requires k < j < |s| && s[k] == ';' && !IsSpace(s[j])
    requires forall m :: k < m < j ==> s[m] != '\n'
    ensures MatchEnd(s, k).None?
  {
    var run := RunEnd(s, k + 1);
    assert run <= j;
    assert NoLineFeed(s[k + 1..run]);
  }

  /** Without any separator the whole input is one trimmed statement, or none when it
      is blank. */
  lemma NoSeparatorOneStatement(s: string)
    requires forall k :: 0 <= k < |s| ==> MatchEnd(s, k).None?
    ensures SplitSql(s) == if AllSpace(s) then [] else [Trim(s)]
  {
    PiecesWithoutMatch(s, 0, 0);
  }

  lemma {:induction false} PiecesWithoutMatch(s: string, start: nat, k: nat)
    requires start <= k <= |s|
    requires forall m :: k <= m < |s| ==> MatchEnd(s, m).None?
    ensures Pieces(s, start, k) == [s[start..]]
    decreases |s| - k
  {
    if k < |s| {
      PiecesWithoutMatch(s, start, k + 1);
    }
  }

  // ---- round trip: statements written one per line, each ended by ';' ----

  /** A statement that survives the round trip: non-empty, trimmed, and without ';'. */
  predicate PlainStatement(st: string) {
    st != "" && IsTrimmed(st) && forall i :: 0 <= i < |st| ==> st[i] != ';'
  }

  /** The seed file that lists the statements, each followed by ";" and a line feed. */
  function Render(stmts: seq<string>): string {
    if stmts == [] then "" else stmts[0] + ";\n" + Render(stmts[1..])
  }

  lemma {:induction false} PiecesSkipStatement(s: string, start: nat, k: nat, m: nat)
    requires start <= k <= m <= |s|
    requires forall x :: k <= x < m ==> s[x] != ';'
    ensures Pieces(s, start, k) == Pieces(s, start, m)
    decreases m - k
  {
    if k < m {
      PiecesSkipStatement(s, start, k + 1, m);
    }
  }

  /** From index k to its end, s holds the statements, each followed by ";" and a
      line feed. */
  predicate RenderedAt(s: string, k: nat, stmts: seq<string>)
    decreases |stmts|
  {
    if stmts == [] then k == |s|
    else
      var n := |stmts[0]|;
      && k + n + 2 <= |s|
      && s[k..k + n] == stmts[0]
      && s[k + n] == ';' && s[k + n + 1] == '\n'
      && RenderedAt(s, k + n + 2, stmts[1..])
  }

  lemma {:induction false} RenderIsRenderedAt(s: string, k: nat, stmts: seq<string>)
    requires k <= |s| && s[k..] == Render(stmts)
    ensures RenderedAt(s, k, stmts)
    decreases |stmts|
  {
    if stmts != [] {
      var st := stmts[0];
      var n := |st|;
      assert s[k..] == st + ";\n" + Render(stmts[1..]);
      assert s[k..][..n] == st;
      assert s[k..][n] == ';' && s[k..][n + 1] == '\n';
      assert s[k + n + 2..] == s[k..][n + 2..] == Render(stmts[1..]);
      RenderIsRenderedAt(s, k + n + 2, stmts[1..]);
    }
  }

  /** The ';' and line feed after a rendered statement are one separator match, since
      the next statement (if any) starts with a character that is not whitespace. */
  lemma SeparatorAfterStatement(s: string, j: nat, rest: seq<string>)
    requires j + 2 <= |s| && s[j] == ';' && s[j + 1] == '\n' && RenderedAt(s, j + 2, rest)
    requires forall i :: 0 <= i < |rest| ==> PlainStatement(rest[i])
    ensures MatchEnd(s, j) == Some(j + 2)
  {
    if rest != [] {
      assert PlainStatement(rest[0]);
      assert s[j + 2] == s[j + 2..j + 2 + |rest[0]|][0] == rest[0][0];
      assert RunEnd(s, j + 1) == j + 2;
    } else {
      assert RunEnd(s, j + 1) == |s|;
    }
  }

  /** A stretch s[k..k + n] without ';' followed by a separator match is one piece. */
  lemma PiecesOfStatement(s: string, k: nat, n: nat)
    requires k + n + 2 <= |s|
    requires forall x :: k <= x < k + n ==> s[x] != ';'
    requires MatchEnd(s, k + n) == Some(k + n + 2)
    ensures Pieces(s, k, k) == [s[k..k + n]] + Pieces(s, k + n + 2, k + n + 2)
  {
    PiecesSkipStatement(s, k, k, k + n);
    PiecesAtMatch(s, k, k + n, k + n + 2);
  }

  /** A copy of a statement without ';' holds no ';' either. */
  lemma NoSemicolonInCopy(s: string, k: nat, st: string)
    requires k + |st| <= |s| && s[k..k + |st|] == st
    requires forall i :: 0 <= i < |st| ==> st[i] != ';'
    ensures forall x :: k <= x < k + |st| ==> s[x] != ';'
  {
    forall x | k <= x < k + |st| ensures s[x] != ';' {
      assert s[x] == st[x - k];
    }
  }

  /** The first rendered statement is the first piece. */
  lemma PiecesOfRenderedHead(s: string, k: nat, stmts: seq<string>)
    requires stmts != [] && RenderedAt(s, k, stmts)
    requires forall i :: 0 <= i < |stmts| ==> PlainStatement(stmts[i])
    ensures var n := |stmts[0]|;
      k + n + 2 <= |s| && Pieces(s, k, k) == [stmts[0]] + Pieces(s, k + n + 2, k + n + 2)
  {
    var st := stmts[0];
    var n := |st|;
    assert PlainStatement(st);
    assert forall i :: 0 <= i < |stmts[1..]| ==> PlainStatement(stmts[1..][i]) by {
      forall i | 0 <= i < |stmts[1..]| ensures PlainStatement(stmts[1..][i]) {
        assert stmts[1..][i] == stmts[i + 1];
      }
    }
    SeparatorAfterStatement(s, k + n, stmts[1..]);
    NoSemicolonInCopy(s, k, st);
    PiecesOfStatement(s, k, n);
  }

  lemma {:induction false} PiecesOfRender(s: string, k: nat, stmts: seq<string>)
    requires k <= |s| && RenderedAt(s, k, stmts)
    requires forall i :: 0 <= i < |stmts| ==> PlainStatement(stmts[i])
    ensures Pieces(s, k, k) == stmts + [""]
    decreases |stmts|
  {
    if stmts == [] {
      assert k == |s| && s[k..] == "";
    } else {
      var st := stmts[0];
      var n := |st|;
      var rest := stmts[1..];
      assert RenderedAt(s, k + n + 2, rest);
      assert forall i :: 0 <= i < |rest| ==> PlainStatement(rest[i]) by {
        forall i | 0 <= i < |rest| ensures PlainStatement(rest[i]) {
          assert rest[i] == stmts[i + 1];
        }
      }
      PiecesOfRenderedHead(s, k, stmts);
      PiecesOfRender(s, k + n + 2, rest);
      assert stmts + [""] == [st] + (rest + [""]);
    }
  }

  /** A separator match at k closes the piece that began at start. */
  lemma PiecesAtMatch(s: string, start: nat, k: nat, e: nat)
    requires start <= k < |s| && MatchEnd(s, k) == Some(e)
    ensures Pieces(s, start, k) == [s[start..k]] + Pieces(s, e, e)
  {
  }

  lemma {:induction false} CleanOfPlain(stmts: seq<string>)
    requires forall i :: 0 <= i < |stmts| ==> PlainStatement(stmts[i])
    ensures Clean(stmts + [""]) == stmts
  {
    if stmts == [] {
      assert Clean([""]) == [] by { assert AllSpace(""); }
    } else {
      TrimOfTrimmed(stmts[0]);
      assert (stmts + [""])[1..] == stmts[1..] + [""];
      CleanOfPlain(stmts[1..]);
    }
  }

  /** Splitting a file written as one `statement;` per line gives back the statements. */
  lemma SplitRenderRoundTrip(stmts: seq<string>)
    requires forall i :: 0 <= i < |stmts| ==> PlainStatement(stmts[i])
    ensures SplitSql(Render(stmts)) == stmts
  {
    var s := Render(stmts);
    assert s[0..] == s;
    RenderIsRenderedAt(s, 0, stmts);
    PiecesOfRender(s, 0, stmts);
    CleanOfPlain(stmts);
  }

  lemma NoMatchInSameLineExample()
    ensures forall k :: 0 <= k < |"a; b"| ==> MatchEnd("a; b", k).None?
  {
    var s := "a; b";
    forall k | 0 <= k < |s| ensures MatchEnd(s, k).None? {
      if k == 1 {
        SameLineSemicolonStays(s, 1, 3);
      } else {
        assert s[k] != ';';
      }
    }
  }

  lemma SameLineSplit()
    ensures SplitSql("a; b") == if AllSpace("a; b") then [] else [Trim("a; b")]
  {
    NoMatchInSameLineExample();
    NoSeparatorOneStatement("a; b");
  }

  lemma SameLineIsTrimmed()
    ensures !AllSpace("a; b") && Trim("a; b") == "a; b"
  {
    assert !IsSpace("a; b"[0]);
    TrimOfTrimmed("a; b");
  }

  /** A ';' followed on its line by more text stays inside the statement. */
  lemma SameLineExample()
    ensures SplitSql("a; b") == ["a; b"]
  {
    SameLineSplit();
    SameLineIsTrimmed();
  }

  /** In "a;\nb" the ';' and the line feed form a separator. */
  lemma LineEndMatch()
    ensures MatchEnd("a;\nb", 1) == Some(3)
  {
    var s := "a;\nb";
    assert RunEnd(s, 3) == 3;
    assert RunEnd(s, 2) == 3;
    assert LastLineFeed(s, 2, 3) == Some(2);
  }

  lemma LineEndPieces()
    ensures Pieces("a;\nb", 0, 0) == ["a", "b"]
  {
    var s := "a;\nb";
    LineEndMatch();
    PiecesSkipStatement(s, 0, 0, 1);
    PiecesAtMatch(s, 0, 1, 3);
    assert MatchEnd(s, 3).None?;
    PiecesWithoutMatch(s, 3, 3);
    assert s[0..1] == "a" && s[3..] == "b";
  }

  /** Trimming and dropping empty entries leaves a list of statements unchanged. */
  lemma {:induction false} CleanKeepsStatements(r: seq<string>)
    requires Statements(r)
    ensures Clean(r) == r
  {
    if r != [] {
      TrimOfTrimmed(r[0]);
      assert Statements(r[1..]) by {
        forall i | 0 <= i < |r[1..]| ensures r[1..][i] != "" && IsTrimmed(r[1..][i]) {
          assert r[1..][i] == r[i + 1];
        }
      }
      CleanKeepsStatements(r[1..]);
    }
  }

  lemma CleanOfAB()
    ensures Clean(["a", "b"]) == ["a", "b"]
  {
    var r := ["a", "b"];
    assert r[0] == "a" && r[1] == "b";
    assert IsTrimmed("a") && IsTrimmed("b");
    CleanKeepsStatements(r);
  }

  /** A ';' at the end of a line separates. */
  lemma LineEndExample()
    ensures SplitSql("a;\nb") == ["a", "b"]
  {
    LineEndPieces();
    CleanOfAB();
  }

  /** A final ';' and line feed leave no empty statement behind. */
  lemma TrailingSeparatorExample()
    ensures SplitSql("a;\nb;\n") == ["a", "b"]
  {
    assert Render(["a", "b"]) == "a;\nb;\n" by {
      assert ["a", "b"][1..] == ["b"];
      assert Render(["b"][1..]) == "";
    }
    SplitRenderRoundTrip(["a", "b"]);
  }
}

=== FILE: sorting.dfy ===
/** `Array.prototype.sort` with a numeric comparator `(a, b) => key(a) - key(b)`,
    as a stable insertion sort over sequences. */
module Sorting {

  predicate SortedBy<T>(xs: seq<T>, key: T -> int) {
    forall i, j :: 0 <= i < j < |xs| ==> key(xs[i]) <= key(xs[j])
  }

  /** Every element of xs has a key of at least b. */
  predicate AtLeast<T>(b: int, xs: seq<T>, key: T -> int) {
    forall k :: 0 <= k < |xs| ==> b <= key(xs[k])
  }

  /** Places x in front of the first element of ys whose key is not smaller,
      so that x stays ahead of every element with the same key. */
  function Insert<T(==)>(x: T, ys: seq<T>, key: T -> int): (r: seq<T>)
    requires SortedBy(ys, key)
    ensures SortedBy(r, key)
    ensures multiset(r) == multiset(ys) + multiset{x}
    ensures |r| == |ys| + 1
    ensures forall b :: AtLeast(b, ys, key) && b <= key(x) ==> AtLeast(b, r, key)
  {
    if ys == [] || key(x) <= key(ys[0]) then
      ConsSorted(x, ys, key);
      [x] + ys
    else
      var rest := Insert(x, ys[1..], key);
      ConsSorted(ys[0], rest, key);
      assert ys == [ys[0]] + ys[1..];
      [ys[0]] + rest
  }

  /** Putting y in front of a sorted sequence whose keys are all at least key(y)
      keeps it sorted, and a bound on both carries over to the whole. */
  lemma ConsSorted<T>(y: T, rest: seq<T>, key: T -> int)
    requires SortedBy(rest, key) && AtLeast(key(y), rest, key)
    ensures SortedBy([y] + rest, key)
    ensures forall b :: b <= key(y) && AtLeast(b, rest, key) ==> AtLeast(b, [y] + rest, key)
  {
    var r := [y] + rest;
    assert forall k :: 1 <= k < |r| ==> r[k] == rest[k - 1];
  }

  /** The ascending, stable order of xs by key. */
  function SortBy<T(==)>(xs: seq<T>, key: T -> int): (r: seq<T>)
    ensures SortedBy(r, key)
    ensures multiset(r) == multiset(xs)
    ensures |r| == |xs|
  {
    if xs == [] then []
    else
      assert xs == [xs[0]] + xs[1..];
      Insert(xs[0], SortBy(xs[1..], key), key)
  }
}

=== FILE: store.dfy ===
/** The relational store the quiz and question routes read and write, as in-memory
    relations: the `questions`, `quiz_attempts` and `quiz_answers` tables with
    their auto-increment counters. */
module Store {

  /** A `questions` row: its skill, text, option map (`options_json`) and the key
      of the correct option. */
  datatype Question = Question(skillId: int, text: string, options: map<string, string>, correctOption: string)

  /** A `quiz_attempts` row (timestamps are not modelled). */
  datatype Attempt = Attempt(id: int, userId: int, skillId: int, score: int, total: int)

  /** A `quiz_answers` row. */
  datatype AnswerRow = AnswerRow(attemptId: int, questionId: int, selected: string, isCorrect: bool)

  datatype Db = Db(
    questions: map<int, Question>,
    nextQuestionId: int,
    attempts: seq<Attempt>,
    answers: seq<AnswerRow>,
    nextAttemptId: int)

  /** The correct option names an option with non-empty text. */
  predicate CorrectOptionValid(q: Question) {
    q.correctOption in q.options && q.options[q.correctOption] != ""
  }

  /** Every stored question's correct option is valid. */
  predicate QuestionsValid(db: Db) {
    forall id :: id in db.questions ==> CorrectOptionValid(db.questions[id])
  }

  /** Auto-increment ids are never reused. */
  predicate FreshIds(db: Db) {
    && (forall id :: id in db.questions ==> id < db.nextQuestionId)
    && (forall i :: 0 <= i < |db.attempts| ==> db.attempts[i].id < db.nextAttemptId)
  }
}

=== FILE: text.dfy ===
/** String helpers with JavaScript's meaning: the whitespace of `\s` and `trim`,
    decimal digit strings, `padStart` and ASCII case mapping. */
module Text {

  /** JavaScript's WhiteSpace and LineTerminator code points: exactly what the
      regular-expression class `\s` matches and what `String.prototype.trim` removes.
      Below U+00A0 these are the space and tab to carriage return (U+0009 to U+000D). */
  predicate IsSpace(c: char) {
    if c < '\U{A0}' then c == ' ' || '\t' <= c <= '\r' else IsWideSpace(c)
  }

  /** The whitespace code points from U+00A0 on. */
  predicate IsWideSpace(c: char) {
    || c == '\U{A0}' || c == '\U{1680}' || ('\U{2000}' <= c <= '\U{200A}')
    || c == '\U{2028}' || c == '\U{2029}' || c == '\U{202F}' || c == '\U{205F}'
    || c == '\U{3000}' || c == '\U{FEFF}'
  }

  predicate AllSpace(s: string) {
    forall i :: 0 <= i < |s| ==> IsSpace(s[i])
  }

  /** Neither end of s is whitespace. */
  predicate IsTrimmed(s: string) {
    s == [] || (!IsSpace(s[0]) && !IsSpace(s[|s| - 1]))
  }

  /** s with its leading whitespace removed. */
  function TrimStart(s: string): (r: string)
    ensures |r| <= |s| && r == s[|s| - |r|..]
    ensures AllSpace(s[..|s| - |r|])
    ensures r == [] || !IsSpace(r[0])
  {
    if s != [] && IsSpace(s[0]) then TrimStart(s[1..]) else s
  }

  /** s with its trailing whitespace removed. */
  function TrimEnd(s: string): (r: string)
    ensures |r| <= |s| && r == s[..|r|]
    ensures AllSpace(s[|r|..])
    ensures r == [] || !IsSpace(r[|r| - 1])
  {
    if s != [] && IsSpace(s[|s| - 1]) then TrimEnd(s[..|s| - 1]) else s
  }

  /** How many whitespace characters `trim` removes from the front of s. */
  function LeadingSpace(s: string): nat
  {
    |s| - |TrimStart(s)|
  }

  /** `String.prototype.trim`: s without its leading and trailing whitespace. */
  function Trim(s: string): (r: string)
    ensures IsTrimmed(r)
    ensures r == [] <==> AllSpace(s)
  {
    var t := TrimStart(s);
    var r := TrimEnd(t);
    assert r == [] ==> AllSpace(s) by {
      if r == [] {
        assert s == s[..|s| - |t|] + t;
      }
    }
    r
  }

  /** What `trim` keeps is a contiguous middle part of s, and everything it drops is whitespace. */
  lemma TrimIsInfix(s: string)
    ensures var r := Trim(s); var a := LeadingSpace(s);
      a + |r| <= |s| && r == s[a..a + |r|] && AllSpace(s[..a]) && AllSpace(s[a + |r|..])
  {
    var t := TrimStart(s);
    var r := TrimEnd(t);
    var a := |s| - |t|;
    assert t == s[a..];
    assert r == s[a..a + |r|] by {
      assert r == t[..|r|];
    }
    assert s[a + |r|..] == t[|r|..];
  }

  lemma {:induction false} TrimStartSkipsLeadingSpace(w: string, s: string)
    requires AllSpace(w)
    ensures TrimStart(w + s) == TrimStart(s)
  {
    if w != [] {
      assert (w + s)[1..] == w[1..] + s;
      TrimStartSkipsLeadingSpace(w[1..], s);
    } else {
      assert w + s == s;
    }
  }

  /** Leading whitespace never changes the trimmed text. */
  lemma TrimSkipsLeadingSpace(w: string, s: string)
    requires AllSpace(w)
    ensures Trim(w + s) == Trim(s)
  {
    TrimStartSkipsLeadingSpace(w, s);
  }

  lemma {:induction false} TrimEndSkipsTrailingSpace(s: string, w: string)
    requires AllSpace(w)
    ensures TrimEnd(s + w) == TrimEnd(s)
    decreases |w|
  {
    if w != [] {
      assert (s + w)[..|s + w| - 1] == s + w[..|w| - 1];
      TrimEndSkipsTrailingSpace(s, w[..|w| - 1]);
    } else {
      assert s + w == s;
    }
  }

  /** `trim` removes exactly the whitespace around a string whose ends are not
      whitespace. */
  lemma TrimOfPadded(w1: string, s: string, w2: string)
    requires AllSpace(w1) && AllSpace(w2) && IsTrimmed(s)
    ensures Trim(w1 + s + w2) == s
  {
    if s == [] {
      assert AllSpace(w1 + s + w2);
    } else {
      assert w1 + s + w2 == w1 + (s + w2);
      TrimStartSkipsLeadingSpace(w1, s + w2);
      assert TrimStart(s + w2) == s + w2 by {
        assert (s + w2)[0] == s[0];
      }
      TrimEndSkipsTrailingSpace(s, w2);
    }
  }

  /** A string that is already trimmed is its own trim. */
  lemma TrimOfTrimmed(s: string)
    requires IsTrimmed(s)
    ensures Trim(s) == s
  {
  }

  /** A character outside the Basic Multilingual Plane, which UTF-16 stores as a
      surrogate pair. */
  predicate IsAstral(c: char) { c as int >= 0x1_0000 }

  /** JavaScript's `s.length`: the number of UTF-16 code units of s, two for every
      character outside the Basic Multilingual Plane and one for every other. */
  function Utf16Length(s: string): (n: nat)
    ensures |s| <= n <= 2 * |s|
    ensures n == |s| <==> forall i :: 0 <= i < |s| ==> !IsAstral(s[i])
    ensures n == 2 * |s| <==> forall i :: 0 <= i < |s| ==> IsAstral(s[i])
  {
    if s == [] then 0
    else
      var init := s[..|s| - 1];
      var n := Utf16Length(init) + (if IsAstral(s[|s| - 1]) then 2 else 1);
      assert forall i :: 0 <= i < |init| ==> init[i] == s[i];
      n
  }

  predicate IsDigit(c: char) { '0' <= c <= '9' }

  predicate IsDigits(s: string) {
    forall i :: 0 <= i < |s| ==> IsDigit(s[i])
  }

  function DigitValue(c: char): nat
    requires IsDigit(c)
  {
    (c as int) - ('0' as int)
  }

  function DigitChar(d: nat): (c: char)
    requires d < 10
    ensures IsDigit(c) && DigitValue(c) == d
  {
    ('0' as int + d) as char
  }

  /** The number a decimal digit string denotes (`Number` of a `\d+` match). */
  function DigitsValue(s: string): nat
    requires IsDigits(s)
  {
    if s == [] then 0 else 10 * DigitsValue(s[..|s| - 1]) + DigitValue(s[|s| - 1])
  }

  /** `String(n)` for a non-negative integer: its shortest decimal spelling. */
  function NatToDecimal(n: nat): (r: string)
    ensures |r| >= 1 && IsDigits(r)
    ensures |r| > 1 ==> r[0] != '0'
    ensures n < 10 <==> |r| == 1
    decreases n
  {
    if n < 10 then [DigitChar(n)] else NatToDecimal(n / 10) + [DigitChar(n % 10)]
  }

  /** Reading back the decimal spelling of n gives n. */
  lemma {:induction false} DecimalRoundTrip(n: nat)
    ensures DigitsValue(NatToDecimal(n)) == n
    decreases n
  {
    if n >= 10 {
      var r := NatToDecimal(n);
      assert r[..|r| - 1] == NatToDecimal(n / 10);
      DecimalRoundTrip(n / 10);
    }
  }

  /** Leading zeros do not change the value of a digit string. */
  lemma {:induction false} LeadingZeroValue(s: string)
    requires IsDigits(s)
    ensures IsDigits("0" + s) && DigitsValue("0" + s) == DigitsValue(s)
    decreases |s|
  {
    if s != [] {
      assert ("0" + s)[..|"0" + s| - 1] == "0" + s[..|s| - 1];
      LeadingZeroValue(s[..|s| - 1]);
    }
  }

  /** `String(n)` for any integer. */
  function IntToDecimal(n: int): (r: string)
    ensures |r| >= 1
    ensures n >= 0 ==> IsDigits(r) && DigitsValue(r) == n
    ensures n < 0 ==> r[0] == '-' && IsDigits(r[1..]) && DigitsValue(r[1..]) == -n
  {
    DecimalRoundTrip(if n < 0 then -n else n);
    if n < 0 then
      var d := NatToDecimal(-n);
      assert ("-" + d)[1..] == d;
      "-" + d
    else NatToDecimal(n)
  }

  /** `s.padStart(2, "0")`: s itself when it has two or more characters, otherwise
      left-filled with '0' to length two. */
  function PadStart2(s: string): (r: string)
    ensures |s| >= 2 ==> r == s
    ensures |s| < 2 ==> |r| == 2 && r[2 - |s|..] == s && forall i :: 0 <= i < 2 - |s| ==> r[i] == '0'
  {
    if |s| >= 2 then s else seq(2 - |s|, _ => '0') + s
  }

  /** `toUpperCase` restricted to ASCII letters. */
  function AsciiUpper(s: string): (r: string)
    ensures |r| == |s|
    ensures forall i :: 0 <= i < |s| ==> r[i] == (if 'a' <= s[i] <= 'z' then (s[i] as int - 32) as char else s[i])
  {
    seq(|s|, i requires 0 <= i < |s| => if 'a' <= s[i] <= 'z' then (s[i] as int - 32) as char else s[i])
  }

  /** `toLowerCase` restricted to ASCII letters. */
  function AsciiLower(s: string): (r: string)
    ensures |r| == |s|
    ensures forall i :: 0 <= i < |s| ==> r[i] == (if 'A' <= s[i] <= 'Z' then (s[i] as int + 32) as char else s[i])
  {
    seq(|s|, i requires 0 <= i < |s| => if 'A' <= s[i] <= 'Z' then (s[i] as int + 32) as char else s[i])
  }
}

=== FILE: tokens.dfy ===
/** Access and refresh tokens (backend/src/utils/jwt.ts): the payload shape guard,
    the verify helpers around an abstract `jwt.verify`, the claims each signing
    helper hands to `jwt.sign`, and the TTL strings that set token lifetimes. */
module Tokens {
  import opened Common
  import opened Text

  datatype Role = USER | ADMIN

  /** The identity a token carries: `AppJwtPayload` without its optional `jti`. */
  datatype Principal = Principal(sub: int, username: string, role: Role)

  /** A decoded JSON value. Numbers are integers in this model. */
  datatype Json =
    | JNull
    | JBool(b: bool)
    | JNum(n: int)
    | JStr(s: string)
    | JArr(elems: seq<Json>)
    | JObj(fields: map<string, Json>)

  function RoleName(r: Role): string {
    match r
    case USER => "USER"
    case ADMIN => "ADMIN"
  }

  /** The role a JSON string names, if it names one (`o.role === "USER" || o.role === "ADMIN"`). */
  function ParseRole(s: string): (r: Option<Role>)
    ensures r.Some? <==> s == "USER" || s == "ADMIN"
    ensures r.Some? ==> RoleName(r.value) == s
  {
    if s == "USER" then Some(USER) else if s == "ADMIN" then Some(ADMIN) else None
  }

  /** `isAppJwtPayload`: a (truthy) object whose `sub` is a number, whose `username`
      is a non-empty string and whose `role` is "USER" or "ADMIN". Arrays are objects
      to `typeof` but have none of these properties; `jti` is never looked at. */
  predicate IsAppJwtPayload(v: Json) {
    && v.JObj?
    && "sub" in v.fields && v.fields["sub"].JNum?
    && "username" in v.fields && v.fields["username"].JStr? && |v.fields["username"].s| > 0
    && "role" in v.fields && v.fields["role"].JStr? && ParseRole(v.fields["role"].s).Some?
  }

  /** The principal a payload accepted by the guard describes. */
  function PrincipalOf(v: Json): (p: Principal)
    requires IsAppJwtPayload(v)
    ensures v.fields["sub"] == JNum(p.sub)
    ensures v.fields["username"] == JStr(p.username) && p.username != ""
    ensures v.fields["role"] == JStr(RoleName(p.role))
  {
    Principal(v.fields["sub"].n, v.fields["username"].s, ParseRole(v.fields["role"].s).value)
  }

  /** The object `{ sub, username, role }` the auth routes pass to the signing helpers. */
  function ClaimsOf(p: Principal): Json {
    JObj(map["sub" := JNum(p.sub), "username" := JStr(p.username), "role" := JStr(RoleName(p.role))])
  }

  /** The guard accepts the claims of a principal exactly when its username is
      non-empty, and reads the same principal back out of them. */
  lemma ClaimsRoundTrip(p: Principal)
    ensures IsAppJwtPayload(ClaimsOf(p)) <==> p.username != ""
    ensures p.username != "" ==> PrincipalOf(ClaimsOf(p)) == p
  {
    var f := ClaimsOf(p).fields;
    assert f["username"] == JStr(p.username);
    if p.username != "" {
      var q := PrincipalOf(ClaimsOf(p));
      assert q.role == p.role by {
        match p.role
        case USER =>
        case ADMIN =>
      }
    }
  }

  /** Adding or replacing any key other than `sub`, `username` and `role` (the
      `jti` of a refresh token, the `iat` and `exp` the library stamps in) changes
      neither the guard's verdict nor the principal. */
  lemma GuardIgnoresOtherKeys(fields: map<string, Json>, key: string, v: Json)
    requires key != "sub" && key != "username" && key != "role"
    ensures IsAppJwtPayload(JObj(fields[key := v])) == IsAppJwtPayload(JObj(fields))
    ensures IsAppJwtPayload(JObj(fields)) ==> PrincipalOf(JObj(fields[key := v])) == PrincipalOf(JObj(fields))
  {
  }

  /** A decoded claims object carries the signed claims when it holds each of
      their keys with the same value; it may hold more (`iat`, `exp`). */
  predicate CarriesClaims(fields: map<string, Json>, signed: Json) {
    signed.JObj? && forall k :: k in signed.fields ==> k in fields && fields[k] == signed.fields[k]
  }

  /** Whatever the library adds to a principal's claims, the guard still accepts
      them (given a non-empty username) and reads the same principal back. */
  lemma CarriedClaimsRead(p: Principal, fields: map<string, Json>)
    requires p.username != "" && CarriesClaims(fields, ClaimsOf(p))
    ensures IsAppJwtPayload(JObj(fields)) && PrincipalOf(JObj(fields)) == p
  {
    ClaimsRoundTrip(p);
    var c := ClaimsOf(p).fields;
    assert fields["sub"] == c["sub"] && fields["username"] == c["username"] && fields["role"] == c["role"];
  }

  /** The claims of a signed token as `jwt.verify` returns them, with the issue and
      expiry times the library stamps in: they carry the signed claims, and the
      guard reads the signing principal from them. */
  lemma StampedClaimsRead(p: Principal, iat: int, exp: int)
    requires p.username != ""
    ensures CarriesClaims(ClaimsOf(p).fields["iat" := JNum(iat)]["exp" := JNum(exp)], ClaimsOf(p))
    ensures IsAppJwtPayload(JObj(ClaimsOf(p).fields["iat" := JNum(iat)]["exp" := JNum(exp)]))
    ensures PrincipalOf(JObj(ClaimsOf(p).fields["iat" := JNum(iat)]["exp" := JNum(exp)])) == p
  {
    var stamped := ClaimsOf(p).fields["iat" := JNum(iat)]["exp" := JNum(exp)];
    assert CarriesClaims(stamped, ClaimsOf(p)) by {
      assert ClaimsOf(p).fields.Keys == {"sub", "username", "role"};
    }
    CarriedClaimsRead(p, stamped);
  }

  /** Which secret a token is signed and checked with. */
  datatype TokenClass = Access | Refresh

  /** What `jwt.verify` returns when it does not throw: a string payload or a claims object. */
  datatype Decoded = DText(text: string) | DClaims(claims: Json)

  /** `jwt.verify` with the secret of a token class: None where the library throws
      (bad signature, expired, malformed). The library itself is not modelled. */
  type Verifier = (TokenClass, string) -> Option<Decoded>

  datatype TokenError = LibraryRejected | PayloadRejected(message: string)

  function PayloadMessage(which: TokenClass): string {
    match which
    case Access => "Invalid access token payload"
    case Refresh => "Invalid refresh token payload"
  }

  /** `verifyAccess` / `verifyRefresh`: the decoded value itself when the library
      accepts the token and the result is a non-string passing the guard; an
      error otherwise. */
  function Verify(verify: Verifier, which: TokenClass, token: string): (r: Result<Json, TokenError>)
    ensures r.Ok? <==>
      && verify(which, token).Some?
      && verify(which, token).value.DClaims?
      && IsAppJwtPayload(verify(which, token).value.claims)
    ensures r.Ok? ==> r.value == verify(which, token).value.claims
    ensures verify(which, token).None? ==> r == Err(LibraryRejected)
    ensures verify(which, token).Some? && r.Err? ==> r == Err(PayloadRejected(PayloadMessage(which)))
  {
    match verify(which, token)
    case None => Err(LibraryRejected)
    case Some(decoded) =>
      if decoded.DText? || !IsAppJwtPayload(decoded.claims) then Err(PayloadRejected(PayloadMessage(which)))
      else Ok(decoded.claims)
  }

  /** Token lifetimes, from the environment; `DefaultConfig` holds the source's fallbacks. */
  datatype Config = Config(accessTtl: string, refreshTtl: string)

  const DefaultConfig := Config("900s", "14d")

  /** The arguments of one `jwt.sign` call: claims, secret and `expiresIn` in seconds. */
  datatype SignRequest = SignRequest(claims: Json, secret: TokenClass, expiresInSeconds: int)

  /** `signAccess`. */
  function SignAccess(cfg: Config, p: Principal): (req: SignRequest)
    ensures req.secret == Access && req.claims == ClaimsOf(p)
    ensures req.expiresInSeconds == SecondsFromTtl(cfg.accessTtl)
  {
    SignRequest(ClaimsOf(p), Access, SecondsFromTtl(cfg.accessTtl))
  }

  /** `signRefresh`: the principal's claims plus the rotation id `jti` (24 hex
      characters from `crypto.randomBytes`, here a parameter). */
  function SignRefresh(cfg: Config, p: Principal, jti: string): (req: SignRequest)
    ensures req.secret == Refresh && req.claims.JObj?
    ensures req.claims.fields.Keys == ClaimsOf(p).fields.Keys + {"jti"}
    ensures req.claims.fields["jti"] == JStr(jti)
    ensures forall k :: k in ClaimsOf(p).fields ==> req.claims.fields[k] == ClaimsOf(p).fields[k]
    ensures req.expiresInSeconds == SecondsFromTtl(cfg.refreshTtl)
  {
    SignRequest(JObj(ClaimsOf(p).fields["jti" := JStr(jti)]), Refresh, SecondsFromTtl(cfg.refreshTtl))
  }

  /** Whenever the library decodes a token to a claims object carrying the claims
      it was signed with (plus whatever it stamps in itself), the verify helper of
      the same class accepts it and reads the signed principal back; the refresh
      token's `jti` is carried along. */
  lemma SignedTokensVerify(verify: Verifier, cfg: Config, p: Principal, jti: string, access: string, refresh: string,
                           accessFields: map<string, Json>, refreshFields: map<string, Json>)
    requires p.username != ""
    requires verify(Access, access) == Some(DClaims(JObj(accessFields)))
    requires CarriesClaims(accessFields, SignAccess(cfg, p).claims)
    requires verify(Refresh, refresh) == Some(DClaims(JObj(refreshFields)))
    requires CarriesClaims(refreshFields, SignRefresh(cfg, p, jti).claims)
    ensures Verify(verify, Access, access).Ok? && Verify(verify, Refresh, refresh).Ok?
    ensures PrincipalOf(Verify(verify, Access, access).value) == p
    ensures PrincipalOf(Verify(verify, Refresh, refresh).value) == p
    ensures Verify(verify, Refresh, refresh).value.fields["jti"] == JStr(jti)
  {
    CarriedClaimsRead(p, accessFields);
    var signed := SignRefresh(cfg, p, jti).claims;
    assert "jti" in signed.fields;
    assert CarriesClaims(refreshFields, ClaimsOf(p)) by {
      forall k | k in ClaimsOf(p).fields
        ensures k in refreshFields && refreshFields[k] == ClaimsOf(p).fields[k]
      {
        assert k in signed.fields;
      }
    }
    CarriedClaimsRead(p, refreshFields);
  }

  // ---- TTL strings: the grammar ^(\d+)(ms|s|m|h|d)$ ----

  datatype Unit = Ms | Sec | Min | Hour | Day

  datatype Ttl = Ttl(n: nat, unit: Unit)

  function UnitText(u: Unit): (t: string)
    ensures |t| >= 1 && !IsDigit(t[0])
  {
    match u
    case Ms => "ms"
    case Sec => "s"
    case Min => "m"
    case Hour => "h"
    case Day => "d"
  }

  /** Milliseconds in one unit, built up from the definitions of the units. */
  function UnitMs(u: Unit): nat {
    match u
    case Ms => 1
    case Sec => 1000
    case Min => 60 * 1000
    case Hour => 60 * 60 * 1000
    case Day => 24 * 60 * 60 * 1000
  }

  /** The unit spelled exactly t, if any (the alternation `ms|s|m|h|d` followed by `$`). */
  function UnitOf(t: string): (r: Option<Unit>)
    ensures r.Some? ==> UnitText(r.value) == t
    ensures r.None? ==> forall u :: UnitText(u) != t
  {
    if t == "ms" then Some(Ms)
    else if t == "s" then Some(Sec)
    else if t == "m" then Some(Min)
    else if t == "h" then Some(Hour)
    else if t == "d" then Some(Day)
    else None
  }

  /** Length of the run of decimal digits at the front of s (what `\d+` consumes greedily). */
  function DigitRun(s: string): (k: nat)
    ensures k <= |s| && IsDigits(s[..k])
    ensures k < |s| ==> !IsDigit(s[k])
  {
    if s != [] && IsDigit(s[0]) then
      var k := 1 + DigitRun(s[1..]);
      assert s[..k] == [s[0]] + s[1..][..k - 1];
      k
    else 0
  }

  /** Matches s against `^(\d+)(ms|s|m|h|d)$`: the digits' value and the unit, or None. */
  function ParseTtl(s: string): (r: Option<Ttl>)
    ensures r.Some? ==>
      var k := |s| - |UnitText(r.value.unit)|;
      && 0 < k
      && IsDigits(s[..k])
      && s[k..] == UnitText(r.value.unit)
      && r.value.n == DigitsValue(s[..k])
  {
    var k := DigitRun(s);
    if k == 0 then None
    else
      match UnitOf(s[k..])
      case None => None
      case Some(u) => Some(Ttl(DigitsValue(s[..k]), u))
  }

  /** `\d+` stops exactly where the digits end. */
  lemma {:induction false} DigitRunOfDigits(digits: string, rest: string)
    requires IsDigits(digits)
    requires rest == [] || !IsDigit(rest[0])
    ensures DigitRun(digits + rest) == |digits|
  {
    if digits == [] {
      assert digits + rest == rest;
    } else {
      assert (digits + rest)[1..] == digits[1..] + rest;
      DigitRunOfDigits(digits[1..], rest);
    }
  }

  /** Each unit's spelling reads back as that unit. */
  lemma UnitOfText(u: Unit)
    ensures UnitOf(UnitText(u)) == Some(u)
  {
    match u
    case Ms => assert "ms" != "s" && "ms" != "m" && "ms" != "h" && "ms" != "d";
    case Sec => assert "s" != "ms";
    case Min => assert "m" != "ms" && "m" != "s";
    case Hour => assert "h" != "ms" && "h" != "s" && "h" != "m";
    case Day => assert "d" != "ms" && "d" != "s" && "d" != "m" && "d" != "h";
  }

  /** Every string of the grammar parses, to its digits' value and its unit. */
  lemma ParseTtlAccepts(digits: string, u: Unit)
    requires |digits| > 0 && IsDigits(digits)
    ensures ParseTtl(digits + UnitText(u)) == Some(Ttl(DigitsValue(digits), u))
  {
    var s := digits + UnitText(u);
    DigitRunOfDigits(digits, UnitText(u));
    assert s[..|digits|] == digits;
    assert s[|digits|..] == UnitText(u);
    UnitOfText(u);
  }

  /** `msFromTTL`. */
  function MsFromTtl(ttl: string): (r: int)
    ensures ParseTtl(ttl).None? ==> r == 3_600_000
    ensures ParseTtl(ttl).Some? ==> r == ParseTtl(ttl).value.n * UnitMs(ParseTtl(ttl).value.unit)
  {
    match ParseTtl(ttl)
    case None => 3_600_000
    case Some(Ttl(n, u)) =>
      match u
      case Ms => n
      case Sec => n * 1_000
      case Min => n * 60_000
      case Hour => n * 3_600_000
      case Day => n * 86_400_000
  }

  /** `secondsFromTTL`. */
  function SecondsFromTtl(ttl: string): (r: int)
    ensures ParseTtl(ttl).None? ==> r == 3_600
    ensures ParseTtl(ttl).Some? && ParseTtl(ttl).value.unit == Ms ==>
      r == Max(1, ParseTtl(ttl).value.n / 1000)
    ensures ParseTtl(ttl).Some? && ParseTtl(ttl).value.unit != Ms ==>
      1000 * r == ParseTtl(ttl).value.n * UnitMs(ParseTtl(ttl).value.unit)
  {
    match ParseTtl(ttl)
    case None => 3_600
    case Some(Ttl(n, u)) =>
      match u
      case Ms => Max(1, n / 1000)
      case Sec => n
      case Min => n * 60
      case Hour => n * 3_600
      case Day => n * 86_400
  }

  /** On the grammar, `msFromTTL` is the count times the unit's length in milliseconds. */
  lemma MsFromTtlOnGrammar(digits: string, u: Unit)
    requires |digits| > 0 && IsDigits(digits)
    ensures MsFromTtl(digits + UnitText(u)) == DigitsValue(digits) * UnitMs(u)
  {
    ParseTtlAccepts(digits, u);
  }

  /** For the ms unit `secondsFromTTL` rounds down but never yields 0. */
  lemma SecondsFromTtlMsUnit(digits: string)
    requires |digits| > 0 && IsDigits(digits)
    ensures SecondsFromTtl(digits + "ms") >= 1
    ensures SecondsFromTtl(digits + "ms") == Max(1, DigitsValue(digits) / 1000)
  {
    ParseTtlAccepts(digits, Ms);
  }

  /** The two parsers agree (milliseconds = 1000 x seconds) except on the ms unit. */
  lemma MsAndSecondsAgree(ttl: string)
    requires ParseTtl(ttl).None? || ParseTtl(ttl).value.unit != Ms
    ensures MsFromTtl(ttl) == 1000 * SecondsFromTtl(ttl)
  {
  }

  /** Text that is not digits followed by a known unit falls back to one hour. */
  lemma TtlFallbacks()
    ensures MsFromTtl("") == 3_600_000
    ensures MsFromTtl("1w") == 3_600_000
    ensures MsFromTtl("-5s") == 3_600_000
    ensures MsFromTtl("5 s") == 3_600_000
    ensures SecondsFromTtl("1w") == 3_600
  {
    assert DigitRun("1w") == 1 by { assert DigitRun("w") == 0; }
    assert DigitRun("-5s") == 0;
    assert DigitRun("5 s") == 1 by { assert DigitRun(" s") == 0; }
    assert "5 s"[1..] == " s";
  }

  /** "0s" is zero seconds. */
  lemma TtlZeroSeconds()
    ensures SecondsFromTtl("0s") == 0
  {
    ParseTtlAccepts("0", Sec);
    assert "0" + UnitText(Sec) == "0s";
  }

  /** Milliseconds round up to whole seconds. */
  lemma TtlMilliseconds()
    ensures MsFromTtl("500ms") == 500 && SecondsFromTtl("500ms") == 1
  {
    ParseTtlAccepts("500", Ms);
    assert "500" + UnitText(Ms) == "500ms";
    assert DigitsValue("500") == 500 by {
      assert "500"[..2] == "50" && "50"[..1] == "5" && "5"[..0] == "";
    }
  }

  /** Strings outside the grammar fall back to one hour; "0s" is zero seconds while
      "500ms" is 500 ms but one whole second. */
  lemma TtlExamples()
    ensures MsFromTtl("") == 3_600_000
    ensures MsFromTtl("1w") == 3_600_000
    ensures MsFromTtl("-5s") == 3_600_000
    ensures MsFromTtl("5 s") == 3_600_000
    ensures SecondsFromTtl("1w") == 3_600
    ensures SecondsFromTtl("0s") == 0
    ensures MsFromTtl("500ms") == 500 && SecondsFromTtl("500ms") == 1
  {
    TtlFallbacks();
    TtlZeroSeconds();
    TtlMilliseconds();
  }

  /** The default lifetimes: 900 s for access tokens, 14 days for refresh tokens. */
  lemma DefaultLifetimes()
    ensures SecondsFromTtl(DefaultConfig.accessTtl) == 900 && MsFromTtl(DefaultConfig.accessTtl) == 900_000
    ensures SecondsFromTtl(DefaultConfig.refreshTtl) == 1_209_600
    ensures MsFromTtl(DefaultConfig.refreshTtl) == 1_209_600_000
  {
    ParseTtlAccepts("900", Sec);
    ParseTtlAccepts("14", Day);
    assert "900" + UnitText(Sec) == DefaultConfig.accessTtl;
    assert "14" + UnitText(Day) == DefaultConfig.refreshTtl;
    assert DigitsValue("900") == 900 by {
      assert "900"[..2] == "90" && "90"[..1] == "9" && "9"[..0] == "";
    }
    assert DigitsValue("14") == 14 by {
      assert "14"[..1] == "1" && "1"[..0] == "";
    }
  }
}

=== FILE: uislice.dfy ===
/** The client's layout state (frontend/src/store/uiSlice.ts): whether the sidebar
    is open. */
module UiSlice {

  datatype UiState = UiState(sidebarOpen: bool)

  const Initial := UiState(false)

  datatype Action = SetSidebar(open: bool) | ToggleSidebar

  /** `setSidebar` writes the flag; `toggleSidebar` flips it. */
  function Reduce(st: UiState, action: Action): (r: UiState)
    ensures action.SetSidebar? ==> r.sidebarOpen == action.open
    ensures action.ToggleSidebar? ==> r.sidebarOpen != st.sidebarOpen
  {
    match action
    case SetSidebar(b) => UiState(b)
    case ToggleSidebar => UiState(!st.sidebarOpen)
  }

  /** The state after a sequence of dispatched actions. */
  function Run(st: UiState, actions: seq<Action>): UiState
    decreases |actions|
  {
    if actions == [] then st else Run(Reduce(st, actions[0]), actions[1..])
  }

  /** Setting is idempotent, and toggling twice changes nothing. */
  lemma SetAndToggleLaws(st: UiState, b: bool)
    ensures Reduce(Reduce(st, SetSidebar(b)), SetSidebar(b)) == Reduce(st, SetSidebar(b))
    ensures Reduce(Reduce(st, ToggleSidebar), ToggleSidebar) == st
  {
  }

  function Toggles(actions: seq<Action>): nat
    decreases |actions|
  {
    if actions == [] then 0 else (if actions[0].ToggleSidebar? then 1 else 0) + Toggles(actions[1..])
  }

  /** A run of toggles alone leaves the sidebar as it was exactly when the number of
      toggles is even. */
  lemma {:induction false} TogglesParity(st: UiState, actions: seq<Action>)
    requires forall i :: 0 <= i < |actions| ==> actions[i].ToggleSidebar?
    ensures Run(st, actions).sidebarOpen == (if Toggles(actions) % 2 == 0 then st.sidebarOpen else !st.sidebarOpen)
    decreases |actions|
  {
    if actions != [] {
      TogglesParity(Reduce(st, actions[0]), actions[1..]);
    }
  }

  /** The sidebar starts closed; one toggle opens it. */
  lemma InitialIsClosed()
    ensures !Initial.sidebarOpen
    ensures Reduce(Initial, ToggleSidebar).sidebarOpen
  {
  }
}

=== FILE: validate.dfy ===
/** `validateBody(rules)` (backend/src/middleware/validate.ts): rules checked in
    order against the request body; the first violation is the only answer. */
module Validate {
  import opened Common
  import opened Text

  /** A request-body value. Objects are plain objects (never arrays) and numbers
      are integers in this model. */
  datatype Value = Undefined | Null | Bool(b: bool) | Num(n: int) | Str(s: string) | Obj

  type Body = map<string, Value>

  /** `body[field]`: a missing key reads as undefined. */
  function Lookup(body: Body, field: string): Value {
    if field in body then body[field] else Undefined
  }

  /** `typeof v`. */
  function TypeOf(v: Value): string {
    match v
    case Undefined => "undefined"
    case Null => "object"
    case Bool(_) => "boolean"
    case Num(_) => "number"
    case Str(_) => "string"
    case Obj => "object"
  }

  /** `String(v)`. */
  function JsString(v: Value): string {
    match v
    case Undefined => "undefined"
    case Null => "null"
    case Bool(b) => if b then "true" else "false"
    case Num(n) => IntToDecimal(n)
    case Str(s) => s
    case Obj => "[object Object]"
  }

  // ---- `Number(s)` on strings: which strings are not NaN ----

  /** Length of the prefix of s whose characters all satisfy p. */
  function Span(s: string, p: char -> bool): (k: nat)
    ensures k <= |s| && (forall i :: 0 <= i < k ==> p(s[i])) && (k < |s| ==> !p(s[k]))
  {
    if s != [] && p(s[0]) then 1 + Span(s[1..], p) else 0
  }

  predicate IsHexDigit(c: char) { IsDigit(c) || 'a' <= c <= 'f' || 'A' <= c <= 'F' }
  predicate IsOctalDigit(c: char) { '0' <= c <= '7' }
  predicate IsBinaryDigit(c: char) { c == '0' || c == '1' }

  predicate AllOf(s: string, p: char -> bool) {
    forall i :: 0 <= i < |s| ==> p(s[i])
  }

  /** An empty string or an exponent part `e` / `E`, optional sign, digits. */
  predicate IsOptionalExponent(e: string) {
    || e == []
    || (&& (e[0] == 'e' || e[0] == 'E')
        && var f := e[1..];
           var g := if f != [] && (f[0] == '+' || f[0] == '-') then f[1..] else f;
           |g| > 0 && IsDigits(g))
  }

  /** `Infinity`, or digits with an optional fraction and exponent, or a fraction alone. */
  predicate IsUnsignedDecimal(t: string) {
    || t == "Infinity"
    || (var a := Span(t, IsDigit);
        var rest := t[a..];
        if rest != [] && rest[0] == '.' then
          var b := Span(rest[1..], IsDigit);
          (a > 0 || b > 0) && IsOptionalExponent(rest[1 + b..])
        else
          a > 0 && IsOptionalExponent(rest))
  }

  predicate IsDecimalLiteral(t: string) {
    if t != [] && (t[0] == '+' || t[0] == '-') then IsUnsignedDecimal(t[1..]) else IsUnsignedDecimal(t)
  }

  /** `0x`, `0o` or `0b` (either case) followed by at least one digit of that base. */
  predicate IsNonDecimalLiteral(t: string) {
    && |t| > 2 && t[0] == '0'
    && ((t[1] in "xX" && AllOf(t[2..], IsHexDigit))
        || (t[1] in "oO" && AllOf(t[2..], IsOctalDigit))
        || (t[1] in "bB" && AllOf(t[2..], IsBinaryDigit)))
  }

  /** `!isNaN(Number(s))` for a string: after trimming it is empty (which reads as 0)
      or a numeric literal of the StringNumericLiteral grammar. */
  predicate IsNumericText(s: string) {
    var t := Trim(s);
    t == [] || IsDecimalLiteral(t) || IsNonDecimalLiteral(t)
  }

  /** `isNaN(Number(v))` for the values that reach the type check (never undefined or null). */
  predicate NumberIsNaN(v: Value) {
    match v
    case Str(s) => !IsNumericText(s)
    case Obj => true
    case _ => false
  }

  // ---- rules ----

  datatype FieldType = TString | TNumber | TBoolean

  function TypeName(t: FieldType): string {
    match t
    case TString => "string"
    case TNumber => "number"
    case TBoolean => "boolean"
  }

  /** The two rule shapes. A length bound of 0 (or none) is switched off, as the
      source tests the bound's truthiness. */
  datatype Rule =
    | Typed(field: string, ty: Option<FieldType>, required: bool, minLen: Option<int>, maxLen: Option<int>)
    | Enum(field: string, values: seq<string>, required: bool)

  predicate BoundOn(b: Option<int>) {
    b.Some? && b.value != 0
  }

  datatype Violation = Missing | NotOneOf | NotANumber | WrongType | TooShort | TooLong

  /** The value a rule's type and length checks see: present, and not a required
      empty string. */
  predicate ReachesChecks(rule: Rule, val: Value) {
    !(val == Undefined || val == Null) && !(rule.required && val == Str(""))
  }

  /** The first violation of one rule by the body, or None. */
  function CheckRule(rule: Rule, body: Body): (v: Option<Violation>)
    ensures var val := Lookup(body, rule.field);
      && (v == Some(Missing) <==> rule.required && (val == Undefined || val == Null || val == Str("")))
      && ((val == Undefined || val == Null) ==> v.None? || v == Some(Missing))
      && (rule.Enum? && v.Some? && v != Some(Missing) ==> v == Some(NotOneOf) && JsString(val) !in rule.values)
      && (rule.Enum? && ReachesChecks(rule, val) ==> (v.None? <==> JsString(val) in rule.values))
    ensures var val := Lookup(body, rule.field);
      rule.Typed? && ReachesChecks(rule, val) ==>
        var nan := rule.ty == Some(TNumber) && NumberIsNaN(val);
        var wrong := rule.ty.Some? && rule.ty != Some(TNumber) && TypeOf(val) != TypeName(rule.ty.value);
        var short := BoundOn(rule.minLen) && Utf16Length(JsString(val)) < rule.minLen.value;
        var long := BoundOn(rule.maxLen) && Utf16Length(JsString(val)) > rule.maxLen.value;
        && (v == Some(NotANumber) <==> nan)
        && (v == Some(WrongType) <==> wrong)
        && (v == Some(TooShort) <==> !nan && !wrong && short)
        && (v == Some(TooLong) <==> !nan && !wrong && !short && long)
        && (v.None? <==> !nan && !wrong && !short && !long)
  {
    var val := Lookup(body, rule.field);
    if rule.required && (val == Undefined || val == Null || val == Str("")) then Some(Missing)
    else if val == Undefined || val == Null then None
    else
      match rule
      case Enum(_, values, _) =>
        if JsString(val) !in values then Some(NotOneOf) else None
      case Typed(_, ty, _, minLen, maxLen) =>
        if ty == Some(TNumber) && NumberIsNaN(val) then Some(NotANumber)
        else if ty.Some? && ty != Some(TNumber) && TypeOf(val) != TypeName(ty.value) then Some(WrongType)
        else if BoundOn(minLen) && Utf16Length(JsString(val)) < minLen.value then Some(TooShort)
        else if BoundOn(maxLen) && Utf16Length(JsString(val)) > maxLen.value then Some(TooLong)
        else None
  }

  function Join(items: seq<string>, sep: string): string {
    if items == [] then "" else if |items| == 1 then items[0] else items[0] + sep + Join(items[1..], sep)
  }

  /** The 400 message for a violated rule. */
  function Message(rule: Rule, v: Violation): string {
    var name := "Field \"" + rule.field + "\"";
    match v
    case Missing => name + " is required"
    case NotOneOf => name + " must be one of: " + (if rule.Enum? then Join(rule.values, ", ") else "")
    case NotANumber => name + " must be a number"
    case WrongType => name + " must be " + (if rule.Typed? && rule.ty.Some? then TypeName(rule.ty.value) else "")
    case TooShort => name + " must have length >= " + (if rule.Typed? && rule.minLen.Some? then IntToDecimal(rule.minLen.value) else "")
    case TooLong => name + " must have length <= " + (if rule.Typed? && rule.maxLen.Some? then IntToDecimal(rule.maxLen.value) else "")
  }

  /** Call `next()`, or answer 400 for the rule at `index`. */
  datatype Verdict = Pass | Reject(index: nat, violation: Violation, error: HttpError)

  /** The middleware: rules run in order and the first violation is answered; the
      body is only read. */
  method ValidateBody(rules: seq<Rule>, body: Body) returns (r: Verdict)
    ensures r.Pass? <==> forall i :: 0 <= i < |rules| ==> CheckRule(rules[i], body).None?
    ensures r.Reject? ==>
      && r.index < |rules|
      && CheckRule(rules[r.index], body) == Some(r.violation)
      && (forall j :: 0 <= j < r.index ==> CheckRule(rules[j], body).None?)
      && r.error == HttpError(400, Message(rules[r.index], r.violation))
  {
    var i := 0;
    while i < |rules|
      invariant 0 <= i <= |rules|
      invariant forall j :: 0 <= j < i ==> CheckRule(rules[j], body).None?
    {
      var v := CheckRule(rules[i], body);
      if v.Some? {
        return Reject(i, v.value, HttpError(400, Message(rules[i], v.value)));
      }
      i := i + 1;
    }
    return Pass;
  }

  lemma TrimmedFortyTwo()
    ensures Trim(" 42 ") == "42"
  {
    assert " 42 " == " " + "42" + " ";
    TrimOfPadded(" ", "42", " ");
  }

  lemma FortyTwoIsDecimal()
    ensures IsDecimalLiteral("42")
  {
    assert Span("2", IsDigit) == 1 by {
      assert "2"[1..] == "";
    }
    assert Span("42", IsDigit) == 2 by {
      assert "42"[1..] == "2";
    }
    assert "42"[2..] == "";
  }

  lemma HexIsNonDecimal()
    ensures IsNonDecimalLiteral("0x1F")
  {
    var t := "0x1F";
    assert t[0] == '0' && t[1] == 'x';
    assert t[2..] == "1F";
    assert IsHexDigit('1') && IsHexDigit('F');
  }

  /** For a string with no whitespace at either end, `Number` is NaN exactly when
      the string is neither empty nor a literal. */
  lemma NumericTextOfTrimmed(t: string)
    requires IsTrimmed(t)
    ensures IsNumericText(t) <==> t == [] || IsDecimalLiteral(t) || IsNonDecimalLiteral(t)
  {
    TrimOfTrimmed(t);
  }

  lemma HexIsNumeric()
    ensures IsNumericText("0x1F")
  {
    assert IsTrimmed("0x1F") by {
      assert !IsSpace('0') && !IsSpace('F');
    }
    TrimOfTrimmed("0x1F");
    HexIsNonDecimal();
    NumericTextOfTrimmed("0x1F");
  }

  /** `Number(s)` on strings: padding is ignored, hexadecimal counts, and the empty
      string reads as 0. */
  lemma NumericTextAccepts()
    ensures IsNumericText(" 42 ") && IsNumericText("0x1F") && IsNumericText("")
  {
    TrimmedFortyTwo();
    FortyTwoIsDecimal();
    HexIsNumeric();
    assert Trim("") == "";
  }

  lemma NotDecimal4x2()
    ensures !IsDecimalLiteral("4x2")
  {
    var t := "4x2";
    assert t[0] == '4' && |t| != |"Infinity"|;
    assert Span(t, IsDigit) == 1 by {
      assert t[1..] == "x2";
      assert !IsDigit('x');
    }
    assert t[1..] == "x2";
    assert !IsOptionalExponent("x2") by {
      assert "x2"[0] == 'x';
    }
  }

  lemma Trimmed4x2()
    ensures Trim("4x2") == "4x2"
  {
    assert IsTrimmed("4x2") by {
      assert !IsSpace('4') && !IsSpace('2');
    }
    TrimOfTrimmed("4x2");
  }

  lemma NotNonDecimal4x2()
    ensures !IsNonDecimalLiteral("4x2")
  {
    assert "4x2"[0] == '4';
  }

  /** Stray letters make `Number(s)` NaN. */
  lemma NumericTextRejects()
    ensures !IsNumericText("4x2")
  {
    Trimmed4x2();
    NotDecimal4x2();
    NotNonDecimal4x2();
    NumericTextOfTrimmed("4x2");
  }

  /** An optional number rule without bounds passes a present string exactly when
      `Number` of it is not NaN. */
  lemma NumberRuleOnText(field: string, s: string)
    ensures CheckRule(Typed(field, Some(TNumber), false, None, None), map[field := Str(s)]) ==
      (if IsNumericText(s) then None else Some(NotANumber))
  {
    var rule := Typed(field, Some(TNumber), false, None, None);
    assert Lookup(map[field := Str(s)], field) == Str(s);
    assert ReachesChecks(rule, Str(s));
    assert NumberIsNaN(Str(s)) == !IsNumericText(s);
  }

  /** The value shapes a type accepts: `typeof` names the shape for strings and
      booleans, and a number rule takes anything `Number` does not turn into NaN. */
  predicate HasType(ty: FieldType, val: Value) {
    match ty
    case TNumber => !NumberIsNaN(val)
    case TString => val.Str?
    case TBoolean => val.Bool?
  }

  /** A typed rule passes a body exactly when the field is absent and optional, or
      present, not a required "", of the rule's type, and with a UTF-16 length inside
      every bound that is switched on. */
  lemma TypedRuleOnValue(field: string, ty: FieldType, required: bool, minLen: Option<int>, maxLen: Option<int>, val: Value)
    ensures CheckRule(Typed(field, Some(ty), required, minLen, maxLen), map[field := val]).None? <==>
      if val == Undefined || val == Null then !required
      else
        && !(required && val == Str(""))
        && HasType(ty, val)
        && (BoundOn(minLen) ==> minLen.value <= Utf16Length(JsString(val)))
        && (BoundOn(maxLen) ==> Utf16Length(JsString(val)) <= maxLen.value)
  {
    assert Lookup(map[field := val], field) == val;
    assert ty != TNumber ==> (HasType(ty, val) <==> TypeOf(val) == TypeName(ty));
  }

  /** A number rule accepts numeric strings and rejects others. */
  lemma NumberRuleExamples()
    ensures CheckRule(Typed("age", Some(TNumber), false, None, None), map["age" := Str(" 42 ")]).None?
    ensures CheckRule(Typed("age", Some(TNumber), false, None, None), map["age" := Str("4x2")]) == Some(NotANumber)
  {
    NumericTextAccepts();
    NumericTextRejects();
    NumberRuleOnText("age", " 42 ");
    NumberRuleOnText("age", "4x2");
  }

  /** The empty string is not skipped by an optional rule (it fails a minimum length),
      a missing field is; a maximum length of 0 is no bound; `typeof` is compared
      for non-number types. */
  lemma StringRuleExamples()
    ensures CheckRule(Typed("name", Some(TString), false, Some(3), None), map["name" := Str("")]) == Some(TooShort)
    ensures CheckRule(Typed("name", Some(TString), true, None, None), map["name" := Str("")]) == Some(Missing)
    ensures CheckRule(Typed("name", Some(TString), false, Some(3), None), map[]).None?
    ensures CheckRule(Typed("name", Some(TString), false, None, Some(0)), map["name" := Str("long text")]).None?
    ensures CheckRule(Typed("flag", Some(TBoolean), false, None, None), map["flag" := Str("true")]) == Some(WrongType)
  {
    assert Utf16Length(JsString(Str(""))) == 0;
  }

  /** Length bounds count UTF-16 code units: two emoji are four units long, so they
      meet a minimum length of 3 and break a maximum length of 3. */
  lemma Utf16LengthExamples()
    ensures CheckRule(Typed("name", Some(TString), false, Some(3), None), map["name" := Str("\U{1F600}\U{1F600}")]).None?
    ensures CheckRule(Typed("name", Some(TString), false, None, Some(3)), map["name" := Str("\U{1F600}\U{1F600}")]) == Some(TooLong)
  {
    var e := "\U{1F600}\U{1F600}";
    assert IsAstral(e[0]) && IsAstral(e[1]);
    assert Utf16Length(e) == 4;
  }

  /** An enum rule compares `String(val)` with the listed values, case-sensitively. */
  lemma EnumRuleExamples()
    ensures CheckRule(Enum("role", ["USER", "ADMIN"], false), map["role" := Str("ADMIN")]).None?
    ensures CheckRule(Enum("role", ["USER", "ADMIN"], false), map["role" := Str("admin")]) == Some(NotOneOf)
  {
    assert "ADMIN" in ["USER", "ADMIN"];
    assert "admin" != "USER" && "admin" != "ADMIN";
  }
}
